=== FILE: README.md ===
# recdvb capture pipeline, modelled in Dafny

recdvb records a digital-TV transport stream from a Linux DVB adapter. The core has five parts:

- The main program opens and tunes the frontend.
- An epoll loop reads frames from the dvr device into a bounded ring buffer.
- A writer thread drains the buffer. It optionally passes each frame through the ARIB STD-B25 descrambler, then writes it to a file or to standard output in chunks of seven transport packets.
- Small helpers turn the command-line duration into seconds and a BS channel name into its transport-stream id.
- An older single-file variant adds an HTTP front end.

This project models each of these as pure functions over immutable values and proves properties about them. There is one module per source file:

| module | file | what it holds |
|---|---|---|
| `Wrappers` | (none) | `Option` |
| `CText` | (libc) | the C string and number conversions the code relies on: `strchr`, `atoi`, `strtol`, `strtoul` with base 0, `sscanf("%x")`, `strtok` |
| `BoundedQueue` | queue.h, queue.c | the ring buffer of frame pointers |
| `Duration` | time.c | `parse_time` |
| `Preset` | preset.c | the BS preset table and `set_bs_tsid` |
| `Tuner` | recdvbcore.c | `open_tuner`, `tune`, `close_tuner` |
| `Capture` | recdvb.c | `parse_options`, `diff_timespec`, the event loop, the sentinel hand-off |
| `Writer` | reader.c | `reader_func` |
| `LegacyServer` | recdvbsrv.c | `read_line`, the request split, option mappings, output choice, the read loop, the duration update |

How the model represents the C program:

- A C string is the `seq<char>` before its NUL. `CText.CharAt` reads `'\0'` past the end.
- A NULL frame pointer is `None`. It serves both as the end-of-stream sentinel and as what a timed-out `dequeue` returns.
- Results the program gets from outside are parameters: file descriptors, `ioctl` results, `read`/`write` return values, the clock, `malloc` failure, the decoder's answers and the writer thread's liveness.
- Signals the writer would send with `pthread_kill` are returned as data.
- The queue is used sequentially. While one side waits, nobody else touches the queue, so a wait on a full or empty queue always runs out. The call reports how many one-second waits it spent.

Where the program's documented behaviour and its code differ, the model follows the code:

- `enqueue` is declared `void` (queue.h:27), yet recdvb.c:593 and recdvb.c:620 test its result. `BoundedQueue.Enqueue` returns whether it stored the item.
- A blocked queue call gives up after more than 60 one-second waits (queue.c:66-81). It also gives up after a single wait once the termination flag is raised.
- The writer ends at the first NULL it dequeues (reader.c:61-65), without the descrambler's end-of-stream flush. The flush and the final write run only at the exit test after a frame (reader.c:107): the flag raised with the queue empty, or a write error.
- A write that returns 0 is retried without end (reader.c:88-101). The model consumes one supplied write result per attempt and reports "stalled" when they run out.
- The recorder (recdvb.c) tunes through its own frontend helpers. recdvbcore.c's `tune` is the one the legacy server and checksignal.c call.

## Model

| member | source | states |
|---|---|---|
| BoundedQueue.Create | queue.c:26-43 | a new queue of `size` slots is valid and empty, every slot is available, and both indices start at 0 |
| BoundedQueue.WaitsBeforeGiveUp | queue.c:66-81 | a wait that never succeeds ends after 1 timed wait if the flag is already raised, after 61 otherwise |
| BoundedQueue.Enqueue | queue.c:56-96 | stores iff a slot is available, whether or not the flag is raised; a store appends the item to the queued contents, keeps the flag and costs no wait; a refusal leaves the queue unchanged, raises the flag and costs 1 or 61 waits |
| BoundedQueue.StoreAppends | queue.c:83-91 | writing at `in` and advancing it modulo the size keeps the counters consistent and appends exactly the new item |
| BoundedQueue.Dequeue | queue.c:99-144 | on a non-empty queue returns the oldest item and removes just that one; on an empty queue returns NULL, raises the flag and leaves the queue unchanged |
| BoundedQueue.TakeDrops | queue.c:129-137 | the slot at `out` is the oldest item, and advancing `out` removes exactly it |
| BoundedQueue.EnqueueAll | queue.c:56-96 | enqueues into a queue with room append all items in order and use up that many slots |
| BoundedQueue.DequeueN | queue.c:99-144 | `k` dequeues return the first `k` queued items in order and leave the rest |
| BoundedQueue.FifoRoundTrip | queue.c:83-137 | items put into a new queue come back out in the same order, and the queue is empty again |
| BoundedQueue.SentinelLooksLikeTimeout | queue.c:110-143 | a dequeued NULL sentinel is indistinguishable from a timeout on an empty queue |
| BoundedQueue.CapacityOne | queue.c:66-91 | a one-slot queue takes one item, refuses a second, and takes it once the first has been dequeued |
| Capture.RunFits | queue.h:6-11 | while every read returns at most MAX_READ_SIZE bytes, every queued frame holds at most MAX_READ_SIZE bytes for the whole recording |
| Capture.HandleEventFits | recdvb.c:586-597 | one event whose read fits its buffer queues no frame longer than MAX_READ_SIZE |
| CText.Find | time.c:16 | `strchr` finds the first occurrence of the character, and finds none iff the character is absent |
| CText.SkipSpaces | recdvb.c:209 | the leading white space skipped by the number conversions is removed, and no more than that |
| CText.LeadingDigits | time.c:46 | takes the longest prefix of digits in the base |
| CText.ValueOfNumeral | time.c:46 | the value of a number's decimal or hexadecimal numeral is that number |
| CText.AtoiNumeral | time.c:46 | `atoi` reads back a decimal numeral followed by a non-digit |
| CText.StrToLNumeral | recdvb.c:209 | `strtol` in base 10 reads back a decimal numeral and consumes all of it |
| CText.AtoiReads | time.c:46 | `atoi` reads the longest run of decimal digits after the white space and the sign: after a `-` it is the negation of their value and otherwise their value, so it is 0 when no digit follows |
| CText.StrToLConsumes | recdvb.c:209-210 | `strtol` either consumes a numeral or leaves the end pointer where it started, with value 0, and it consumes nothing exactly when no digit follows the white space and sign |
| CText.StrToULAuto | recdvb.c:247 | `strtoul` with base 0, narrowed to `unsigned int`, yields a value below 2^32; its decimal, octal and hexadecimal readings are stated by the lemmas below |
| CText.StrToULAutoSaturates | recdvb.c:247 | a decimal value of 2^64 or more saturates at `ULONG_MAX`, which is all ones once narrowed to `unsigned int` |
| CText.StrToULAutoAsStrToL | recdvb.c:247 | unless the digits start with `0`, `strtoul` with base 0 reads what `strtol` in base 10 reads, saturated at `ULONG_MAX` and narrowed to 32 bits, and stops at the same place |
| CText.StrToULAutoDecimal | recdvb.c:247 | a decimal numeral without a leading zero is read back whole |
| CText.StrToULAutoOctal | recdvb.c:247 | a `0` followed by an octal numeral is read back whole as octal |
| CText.StrToULAutoHex | recdvb.c:247 | `strtoul` with base 0 reads a `0x` numeral as hexadecimal and consumes all of it |
| CText.ScanHexNumeral | recdvbsrv.c:374 | `sscanf("%x")` reads back a hexadecimal numeral |
| CText.ScanHexSaturates | recdvbsrv.c:374 | `sscanf("%x")` stores a hexadecimal value of 2^64 or more as all ones |
| CText.HexNumeral | recdvbsrv.c:374 | `sscanf("%x")` reads any hexadecimal numeral whole, its value saturated at `ULONG_MAX` and narrowed to 32 bits |
| CText.ScanHex | recdvbsrv.c:374 | `sscanf("%x")` fails exactly when no hexadecimal digit follows the white space, sign and optional `0x`; otherwise the value is that of the hexadecimal digits, negated after a `-`, saturated at `ULONG_MAX` and narrowed to 32 bits, so it fits an `unsigned int` |
| CText.Tokens | recdvbsrv.c:532-533 | every `strtok` token is non-empty and contains no delimiter |
| CText.TokensOfPiece | recdvbsrv.c:532-533 | a delimiter-free piece followed by a delimiter is the first token, and tokenising continues with the rest |
| Duration.ParseTime | time.c:8-72 | "-" means indefinite (-1); text without a colon always parses; text with a colon parses iff it begins with at least two colon-separated integers |
| Duration.ParseThreeFields | time.c:16-19 | three colon fields h, m, s give h*3600+m*60+s |
| Duration.ParseTwoFields | time.c:20-21 | two colon fields h, m give h*3600+m*60 |
| Duration.ClockHms | time.c:16-26 | "H:M:S" reads back to H*3600+M*60+S whatever the earlier value was |
| Duration.ClockHm | time.c:16-26 | "H:M" reads back to H*3600+M*60 |
| Duration.ParseHmsBranch | time.c:27-69 | text that is not "-" and has no colon is read in the h/m/s form |
| Duration.ParseHmsFields | time.c:40-64 | the h/m/s form adds hours*3600, minutes*60 and the trailing seconds to the value passed in |
| Duration.HmsForm | time.c:27-69 | "<h>h<m>m<s>s" adds h*3600+m*60+s to the value passed in |
| Duration.HmsExample | time.c:27-69 | "1h30m10s" is 5410 seconds |
| Duration.HmsAccumulates | time.c:44-62 | the h/m/s form adds to the caller's previous value rather than replacing it |
| Duration.HmsNegated | time.c:33-64 | a leading '-' negates the whole accumulated value, including what the caller had stored |
| Duration.Marker | time.c:44 | the first upper-case unit letter when there is one, otherwise the first lower-case one; none iff neither occurs |
| Duration.UnitAfterNumeral | time.c:44-50 | a numeral followed by its unit letter yields that number, and scanning resumes at the next digit |
| Preset.SetBsTsid | preset.c:75-100 | a name without a bs/BS prefix gets tsid 0; a prefixed name gets a non-zero tsid iff the table has a row for its key, and then that row's tsid |
| Preset.CopyEnd | preset.c:86-88 | the copy stops at the first NUL or at index 7, whichever comes first |
| Preset.IndexOf | preset.c:91-92 | finds a row whose name equals the key, and finds none iff no row from there on has it |
| Preset.ScanSlots | preset.c:91-92 | the scan over all 88 slots, empty ones included, never runs off the filled rows and finds the same row as the search over filled rows |
| Preset.TableTsidsNonZero | preset.c:24-73 | every row's tsid is non-zero, so 0 can only mean "not found" |
| Preset.TableSorted | preset.c:24-73 | the rows are strictly ascending by name |
| Preset.TableSortedFar | preset.c:24-73 | any two rows are ordered by position |
| Preset.TableNamesDistinct | preset.c:24-73 | no two rows share a name, so at most one row can match |
| Preset.RowNamesShort | preset.c:24-73 | every row name fits in the seven-character key |
| Preset.NdRowsUnreachable | preset.c:79-92 | a lookup can only ever match a BS row: the ND rows start with 'n' |
| Preset.PrefixCaseIgnored | preset.c:79-85 | the case of the "bs" prefix does not affect the tsid |
| Preset.CopyEndSameTail | preset.c:86-88 | where the copy stops depends only on the characters after the prefix |
| Preset.Bs01Example | preset.c:79-97 | "BS01_0" and "bs01_0" both get tsid 0x4010 |
| Preset.SetBsTsidAsWritten | preset.c:75-100 | the code as written: non-BS names get 0; where it does not crash, the name is cut at the copy's end |
| Preset.AsWrittenVersusCorrected | preset.c:91-97 | the code as written crashes exactly on the prefixed names the corrected lookup answers with 0, and otherwise agrees with it |
| Preset.UnknownBsChannelDereferencesNull | preset.c:91-92 | "bs07_0" drives the search into the NULL entries |
| Preset.TruncationPrecedesFailure | preset.c:86-92 | a prefixed name longer than seven characters always reaches the NULL entries, so the cut of the caller's string is never seen by a caller that survives |
| Tuner.Frequency | recdvbcore.c:104-133 | terrestrial channel n is (n*6000+395143) kHz; BS n is n*19180+1030300, ND n is n*20000+1573000; a channel is refused iff its number reads as 0 or the satellite name has neither prefix |
| Tuner.TerrestrialRoundTrip | recdvbcore.c:104-111 | the terrestrial channel number can be recovered from its frequency |
| Tuner.BsRoundTrip | recdvbcore.c:114-121 | the BS transponder number can be recovered from its frequency |
| Tuner.NdRoundTrip | recdvbcore.c:122-129 | the ND transponder number can be recovered from its frequency |
| Tuner.SatelliteNeedsNumber | recdvbcore.c:114-133 | a satellite name whose suffix has no leading number is refused |
| Tuner.PollLoop | recdvbcore.c:156-175 | at most five passes; stops at the first pass where the status shows a lock or a time-out; an overflow is retried without giving up; any other event error ends the loop with failure, and only that does |
| Tuner.PollForLock | recdvbcore.c:152-175 | from status 0: at most five passes; a failure is an event error on the last pass, before which the status had not settled; no earlier pass settled; a finished loop reports the status after its passes, and it finished because all five passes ran or the status settled |
| Tuner.PollExamples | recdvbcore.c:152-180 | an immediate lock takes one pass; silence and repeated overflows use all five; an event error on the second pass fails |
| Tuner.OpenTuner | recdvbcore.c:57-84 | the frontend is opened only when not already open; success iff it is open, its info is read and its type is supported |
| Tuner.OpenDataPath | recdvbcore.c:184-216 | the demux and dvr are opened only when not already open; success iff both are open and the filter is set; on failure the demux handle is reset |
| Tuner.Tune | recdvbcore.c:87-224 | a request is made iff the frontend opened and the frequency was computed, and it carries the given tsid; success holds exactly when the parameters were set, the poll finished with a lock and every handle is open; -1 iff the poll ended on an event error after the parameters were set |
| Tuner.CloseTuner | recdvbcore.c:30-45 | after a close nothing is left to close: the frontend and demux handles are 0 or the non-positive values they had, and the dvr handle is negative; every open frontend or demux handle, and a dvr handle other than -1, was passed to `close` |
| Tuner.CloseIdempotent | recdvbcore.c:30-45 | closing twice leaves the same handles as closing once, and the second close closes nothing |
| Tuner.TuneAfterClose | recdvbcore.c:87-224 | after a close, a successful tune reopens all three devices |
| Tuner.RetuneKeepsHandles | recdvbcore.c:87-224 | a successful re-tune with every handle open keeps the same handles |
| Capture.ParseOptions | recdvb.c:117-273 | help or version gives 1 and nothing else; fewer than three positionals gives -1; otherwise the channel and destination come from the positionals and the result is 0 iff every option check and the duration parse succeed; a missing tsid comes from the corrected BS table lookup (see Findings) |
| Capture.ParseOptionsAccepts | recdvb.c:195-272 | when every check passes, exactly the options given are returned |
| Capture.ParseOptionsRoundTrip | recdvb.c:117-273 | rendering options as a command line and parsing it gives them back |
| Capture.MissingDestinationRefused | recdvb.c:195-199 | two positionals are refused |
| Capture.ChecksAllRun | recdvb.c:217-257 | an invalid LNB value fails the parse, yet the later checks still run and the BS tsid is still looked up |
| Capture.FallbackAsWritten | recdvb.c:253-256 | with no tsid given, the program as written crashes exactly when the channel has a bs/BS prefix and the parse here yields tsid 0; where it survives, it finds the same tsid |
| Capture.RoundCheck | recdvb.c:207-214 | without both --b25 and --round the check passes with the default round 4; a passing round number was read to its end |
| Capture.LnbCheck | recdvb.c:216-232 | without --lnb the check passes with 0; a pass means the text was read to its end and the value is 0, 11 or 15 |
| Capture.DevCheck | recdvb.c:234-243 | without --dev the check passes with 0; a pass means the text was read to its end and the value is not negative |
| Capture.TsidCheck | recdvb.c:245-251 | without --tsid the check passes with 0; with --tsid the value is what `strtoul` reads, and the check passes exactly when nothing follows the number; the value always fits an `unsigned int` |
| Capture.DevAndRoundNumerals | recdvb.c:207-243 | a device number or round number written as a decimal numeral is read back and passes |
| Capture.TsidNumerals | recdvb.c:245-251 | a tsid written in decimal, in `0`-prefixed octal or in `0x` hexadecimal is read back and passes |
| Capture.LnbNumeral | recdvb.c:217-233 | an LNB numeral is accepted iff it is 0, 11 or 15 |
| Capture.CDiv | recdvb.c:308 | C division truncates toward zero: the remainder is smaller in size than the divisor and never has the opposite sign to the dividend |
| Capture.CDivOdd | recdvb.c:308 | truncating division is symmetric about zero |
| Capture.CDivTruncates | recdvb.c:308 | a borrow of 1 ns gives 0 ms, where floor division would give -1 |
| Capture.DiffTimespec | recdvb.c:298-310 | the difference of two normalised times is never negative, and is 0 for equal times |
| Capture.DiffSymmetric | recdvb.c:298-310 | the difference of two times is the same in either order |
| Capture.DiffMilliseconds | recdvb.c:298-310 | the difference is the exact milliseconds, or one more when the nanoseconds borrow |
| Capture.DurationReachedMeaning | recdvb.c:487-490 | with a duration in range, the loop stops for time exactly when the elapsed milliseconds reach the duration times 1000; a duration of -1 never stops it |
| Capture.NegativeDurationNeverStops | recdvb.c:487-490 | a negative duration other than -1, compared as unsigned, never ends the recording |
| Capture.HandleEvent | recdvb.c:495-606 | only a dvr read changes the queue and the byte counters, and it never lowers them; the stream is tuned after the event iff it was before or the event reported a lock; a signal stops the loop; a stopped loop stays stopped |
| Capture.Dispatch | recdvb.c:493-607 | handling the ready descriptors in turn never lowers the counters, leaves the taken bytes alone and never un-tunes the stream |
| Capture.Wake | recdvb.c:462-608 | a finished writer stops the loop; a failed wait stops it; a wakeup with no ready descriptor only lets the writer take its frames; the counters never go down and tuning is never lost |
| Capture.Run | recdvb.c:462-608 | a stopped loop stays as it is; over any run the counters never go down and tuning is never lost |
| Capture.HandleEventExtends | recdvb.c:586-597 | an event only appends to the queue: everything queued before stays queued, in order, at the front |
| Capture.DispatchExtends | recdvb.c:493-607 | a whole wakeup of events only appends to the queue |
| Capture.DispatchStopsAtSignal | recdvb.c:495-502 | a caught signal among the ready descriptors always ends the loop |
| Capture.RunStopsForFinishedWriter | recdvb.c:464-475 | once any wakeup finds the writer finished, the recording has stopped |
| Capture.TakeFrames | reader.c:61 | the writer taking frames leaves the read and overrun counters, the tuning and the stop reason alone; taking none changes nothing |
| Capture.TakeFramesMoves | queue.c:129-137 | the frames the writer takes are the oldest ones, and their bytes move from the queue to the taken count |
| Capture.TakeFramesAccounted | reader.c:61 | the writer taking frames keeps every byte read accounted for |
| Capture.WakeAccounted | recdvb.c:462-608 | one wakeup, with the writer taking frames before it, keeps every byte read accounted for |
| Capture.TimeUpBeforeEvents | recdvb.c:478-490 | the duration check comes before any event of the wakeup and leaves everything else unchanged |
| Capture.DispatchNeverTimesUp | recdvb.c:495-606 | no event handler stops the loop for time |
| Capture.LaterLocksIgnored | recdvb.c:541-567 | frontend events after tuning change nothing |
| Capture.FirstLockTunes | recdvb.c:541-567 | the first lock marks the stream tuned, and the loop continues iff the demux started and the frontend was removed from epoll |
| Capture.UntunedTicks | recdvb.c:508-516 | each tick without a lock counts up, and the loop stops for tune time-out exactly at the fifth |
| Capture.TuneTimeoutAfterFiveTicks | recdvb.c:508-516 | four ticks without a lock are tolerated, five end the recording |
| Capture.StarvedTicks | recdvb.c:527-539 | ticks without new bytes count up, and the loop stops for read time-out exactly at the fifth |
| Capture.ProgressResets | recdvb.c:527-539 | a tick after new bytes resets the count and remembers the total |
| Capture.EmptyReadIgnored | recdvb.c:586-590 | an empty or failed read, or an unreadable dvr, changes nothing |
| Capture.StoreFrame | recdvb.c:593-605 | a read frame is queued when there is room and counted as overrun when not; either way it is counted as read |
| Capture.HandleEventAccounted | recdvb.c:569-606 | each event keeps the bytes read equal to the overrun, plus the bytes the writer has taken, plus the bytes still queued |
| Capture.RunAccounted | recdvb.c:462-608 | over a whole recording, with the writer dequeuing frames between wakeups, every byte read is counted as overrun, as taken by the writer, or as still queued |
| Capture.StoreFrameAsWritten | recdvb.c:593-605 | the code as written: a dropped frame adds whatever the freed buffer holds to both counters |
| Capture.DroppedFrameMiscounted | recdvb.c:593-605 | whenever the freed memory no longer holds the size, the code as written miscounts the dropped frame |
| Capture.DroppedFrameExample | recdvb.c:593-605 | a full one-slot queue and a 2-byte frame: the code as written counts 0 bytes read, the corrected one 2 |
| Capture.SendSentinel | recdvb.c:620-633 | with room, the sentinel is queued at once; it is abandoned only after the writer was seen finished; once delivered the sentinel is last in the queue |
| Capture.StuckWhileWriterStalls | recdvb.c:620-633 | while the writer is alive and takes nothing, the main thread keeps retrying |
| Capture.DeliveredAfterDrain | recdvb.c:620-633 | once the writer takes a frame, the sentinel goes in after the frames still queued |
| Writer.SignalFor | reader.c:95-96 | SIGPIPE iff the write failed with EPIPE, SIGUSR2 otherwise |
| Writer.WriteLoop | reader.c:85-101 | every request is at most 1316 bytes; the frame is written through unless a write fails or the writes run out; a failure signals according to its errno; the first request is the whole frame or 1316 bytes |
| Writer.WriteChunks | reader.c:85-101 | the loop with offset and remaining size computes exactly the chunked writes |
| Writer.FullWritesFinish | reader.c:88-101 | writes that take whole chunks finish the frame with no error |
| Writer.ZeroWritesStall | reader.c:88-101 | writes returning 0 make no progress and repeat the same request |
| Writer.Descramble | reader.c:70-81 | with the descrambler in use and succeeding, its output goes out and it stays on; otherwise the raw frame goes out and the descrambler is off |
| Writer.FinishBuffer | reader.c:109-119 | the finish write sends the descrambler's finish output when the descrambler is in use and its finish succeeds, and nothing otherwise |
| Writer.FinishWrite | reader.c:121-128 | the finish write raises a signal iff it fails, and then counts nothing; a successful write counts what `write` reported, capped at the buffer, and a full write counts the whole buffer |
| Writer.Loop | reader.c:58-132 | the frames written are the queued items in order, and only those taken; the loop ends at a NULL, an empty queue with the flag raised, a write error or a stall; the output is each frame's written bytes followed by the finish bytes |
| Writer.Reader | reader.c:37-139 | with no output descriptor nothing is taken or written; otherwise the loop runs |
| Writer.FallbackIsPermanent | reader.c:72-81 | once the descrambler fails it is never consulted again |
| Writer.DescramblerOff | reader.c:70-81 | without the descrambler every frame is written raw |
| Writer.StillInUse | reader.c:72-81 | if the descrambler is still in use at the end, it was in use from the start and every frame decoded |
| Writer.RawOutput | reader.c:67-128 | without the descrambler the output is exactly the written bytes of the raw frames, with no finish bytes |
| Writer.SentinelEndsAtOnce | reader.c:61-65 | a NULL at the head ends the writer with nothing written |
| Writer.WholeRunInOrder | reader.c:58-132 | with whole writes, frames followed by the sentinel come out concatenated in order and the queue is left empty |
| Writer.DrainedFrames | reader.c:61-68 | the frames the loop handles are the queued frames in order |
| Writer.FinishBufferAsWritten | reader.c:103-119 | the code as written: without a successful descrambler finish, the finish write sends the freed frame's bytes; with one, it agrees with the corrected finish |
| Writer.FinishRepeatsLastFrame | reader.c:103-128 | without the descrambler, the code as written sends the last frame a second time, where the corrected finish sends nothing |
| LegacyServer.ReadLine | recdvbsrv.c:47-66 | a line never holds more than 255 bytes |
| LegacyServer.ReadLineReads | recdvbsrv.c:47-66 | the line is exactly the bytes read, has no newline before its end, and a short line without a newline means end of stream |
| LegacyServer.ReadLineLoop | recdvbsrv.c:47-66 | the byte-by-byte loop computes the line with the 255-byte budget |
| LegacyServer.FailedReadExits | recdvbsrv.c:52-55 | a failed read before any newline exits the process |
| LegacyServer.ExitHasCause | recdvbsrv.c:52-55 | the process exits only because of a failed read before the end of the line |
| LegacyServer.ReadsLine | recdvbsrv.c:50-63 | a newline-terminated line within the budget is read exactly, newline included |
| LegacyServer.ReadsWholeLine | recdvbsrv.c:47-66 | a request line shorter than the buffer is read exactly, whatever follows it |
| LegacyServer.LineFull | recdvbsrv.c:50-65 | 255 bytes without a newline fill the buffer and stop the read |
| LegacyServer.SplitRequest | recdvbsrv.c:526-549 | the splitter is used iff a service list other than "all" was given; the channel and service list are non-empty and contain no '/' |
| LegacyServer.RequestRoundTrip | recdvbsrv.c:526-549 | "VERB /channel/sids VERSION" yields that channel and service list |
| LegacyServer.RequestWithoutSids | recdvbsrv.c:526-549 | "VERB /channel VERSION" yields the channel and no splitter |
| LegacyServer.SecondWord | recdvbsrv.c:530 | the path is the second white-space-separated word |
| LegacyServer.PathPieces | recdvbsrv.c:531-533 | "/channel/sids" splits at '/' into the channel and the service list |
| LegacyServer.LnbIndex | recdvbsrv.c:334-347 | `atoi` of 0, 11 or 15 selects the index of that voltage, and any other number (unparsable text included) selects index 0 |
| LegacyServer.LnbVoltage | recdvbsrv.c:334-347 | a listed voltage selects itself, and any other value selects 0V |
| LegacyServer.TsidOption | recdvbsrv.c:370-377 | a 0x or 0X prefix followed by hexadecimal digits is read as hexadecimal; anything else, a prefix with no hexadecimal digit after it included, is decimal `atoi`, taken modulo 2^32 |
| LegacyServer.TsidHexRoundTrip | recdvbsrv.c:370-377 | a hexadecimal tsid reads back |
| LegacyServer.TsidDecimalRoundTrip | recdvbsrv.c:370-377 | a decimal tsid reads back |
| LegacyServer.TsidHexWithoutDigits | recdvbsrv.c:370-377 | a `0x` prefix with no hexadecimal digit after it gives tsid 0, since `atoi` stops at the `x` |
| LegacyServer.OutputOf | recdvbsrv.c:432-471 | fewer than three positionals are refused unless there are exactly two and UDP is on; "-" means standard output; otherwise the third positional is the file |
| LegacyServer.OutputRoundTrip | recdvbsrv.c:432-471 | every output choice is reached from its own positional arguments, and the fileless recording exactly when UDP is on |
| LegacyServer.ReadLoop | recdvbsrv.c:630-659 | the queue gains exactly the items enqueued; every frame is non-empty; the sentinel is queued only last and only when an empty read comes after the time is up; a frame read as the time runs out ends the loop without one; an indefinite recording never stops for time |
| LegacyServer.OnePass | recdvbsrv.c:631-658 | one pass queues at most its own frame, and stops for the flag, for `malloc` failure or for time |
| LegacyServer.TimeUpQueuesNoSentinel | recdvbsrv.c:651-658 | a frame read as time runs out ends the loop with no sentinel queued |
| LegacyServer.EmptyReadDropped | recdvbsrv.c:639-649 | an empty read before the time is up is dropped and the loop goes on |
| LegacyServer.ExtensionOverwritten | recdvbsrv.c:96-110 | a message carrying both an extension and a new total keeps only the total |
| LegacyServer.ExtensionAlone | recdvbsrv.c:96-99 | an extension alone lengthens the recording by that much and never stops it |
| LegacyServer.UpdateDuration | recdvbsrv.c:96-110 | a new total that arrives in time replaces the recording time; one that arrives late raises the exit flag and keeps the extended time; without a total the extension is added |
| LegacyServer.UpdateDurationMeaning | recdvbsrv.c:96-110 | the flag is raised only by a total that arrives after the elapsed time has passed it; a total that arrives in time is never below the elapsed time; a message whose total and extension are both 0 changes nothing; otherwise the time moves only by the extension |

## Left out

- Threads, mutexes and condition variables are not modelled: the queue is used sequentially, so a timed wait always runs out, and the queue's termination flag is passed in and returned.
- Signals are not modelled: the writer's `pthread_kill` becomes a returned `Signal`; checksignal.c, the signal thread and signalfd setup are not part of this model.
- The epoll, timerfd and signalfd setup of recdvb.c is not modelled; each wakeup is given as the list of ready events.
- Device opens and `ioctl`s are results passed in. `frontend_tune`, `open_frontend` and the statistics output of recdvb.c are not part of this model.
- The ARIB STD-B25 descrambler internals (decoder.c) are not modelled: its per-frame and finish answers are inputs.
- Sockets, UDP output, the message queue, daemonising, `mkpath`, opening the output file, the HTTP response and the splitter of recdvbsrv.c are left out: they are I/O.
- `getopt_long` is not modelled; the command line is given after option scanning. `set_lch` is not part of this model.
- Logging, usage and version text, and the floating-point elapsed-time print are output only.
- `calc_cn`, `tune_persistent` and the signal-strength display in recdvbcore.c are left out as display code.
- The `sscanf` parse of the message-queue payload in recdvbsrv.c is left out; `LegacyServer.UpdateDuration` takes the two numbers. In the program `recsec` and `time_to_add` are declared once outside the receive loop (recdvbsrv.c:76) and `sscanf` leaves fields it does not match as they were (recdvbsrv.c:84), so a message without `t=` or `e=` re-applies the previous message's numbers, and every message re-tunes (recdvbsrv.c:94); the model does not carry those values from one message to the next.
- LegacyServer.SplitRequest: when the request line has fewer than two words, `s1` is read uninitialised; the model yields no channel there.
- LegacyServer.ReadLine: a NUL byte inside the request line is kept as a character, where C would end the string at it.
- Writer.Loop: the finish write at exit sends the corrected `Writer.FinishBuffer`, not the freed `sbuf` of reader.c:109-128; the code as written is `Writer.FinishBufferAsWritten`, and `Writer.FinishRepeatsLastFrame` shows the difference.
- Writer.Reader: runs `Writer.Loop`, so its finish write is the corrected one too.
- CText.StrToULAuto: its own contract only bounds the value; its readings of decimal, octal and hexadecimal numerals are stated by `CText.StrToULAutoAsStrToL`, `CText.StrToULAutoDecimal`, `CText.StrToULAutoOctal` and `CText.StrToULAutoHex`.
- Writer.WriteLoop: a `write` that reports more bytes than requested is treated as having written the request.
- Capture.DiffTimespec: the 64-bit unsigned wrap of a negative difference is not modelled; only the unsigned comparison with the duration is (`Capture.DurationReached`).
- Capture.ParseOptions: when no tsid is given, the fallback uses the corrected lookup `Preset.SetBsTsid`, so a bs/BS name with no table row yields tsid 0 where the program crashes (preset.c:91-92); `Capture.FallbackAsWritten` states exactly where the two differ. The cut of the caller's channel string by `set_bs_tsid` is not applied either.
- Capture.ChecksAllRun: states the tsid fallback through the corrected lookup, for the same reason as `Capture.ParseOptions`.
- Capture.ParseOptions: the `(int)` narrowing of `strtol` results for the round, LNB and device numbers is not modelled.
- Capture.Run: the frames the writer thread dequeues concurrently are summarised as one count per wakeup (`Wakeup.taken`), taken before the writer probe; the interleaving within a wakeup is not modelled.
- Capture.HandleEvent: an allocation failure is a flag on the event; the contents of uninitialised memory are not modelled.
- CText.AtoiReads: `atoi` and `strtol` overflow is not modelled; values are unbounded integers. Only `strtoul` and `%x` are explicit about width: they saturate at `ULONG_MAX` and are narrowed to 32 bits.
- Duration.ParseTime: the C `int` overflow of `n1 * 3600` (time.c:19, time.c:21) and of `atoi(p1) * 3600` (time.c:46) for very large hour counts is not modelled; values are unbounded integers.
- Tuner.Frequency: the C `int` overflow of the frequency formulas for very large channel numbers is not modelled.
- LegacyServer.UpdateDuration: the clock reading is a parameter, and the `int` overflow of `recsec + time_to_add` is not modelled.

## Findings

| source | as written | input that shows it | evidently intended | confidence | as-written member | corrected member |
|---|---|---|---|---|---|---|
| preset.c:91-97 | the search compares the key with every one of the 88 slots, but only the filled rows have names: the rest are NULL, and `strcmp` dereferences them | channel "bs07_0", which has no row | an unknown BS channel gets tsid 0, as the `i == NUM_PRESET_CH` branch expects | high (not executed) | Preset.SetBsTsidAsWritten, Preset.UnknownBsChannelDereferencesNull | Preset.SetBsTsid |
| recdvb.c:593-605 | when the queue refuses a frame, the buffer is freed and then its `size` is read for both the overrun and the read counters | a full one-slot queue and a 2-byte frame, with freed memory reading 0 | the dropped frame's bytes count as overrun and as read | high (not executed) | Capture.StoreFrameAsWritten, Capture.DroppedFrameMiscounted, Capture.DroppedFrameExample | Capture.StoreFrame, Capture.HandleEventAccounted, Capture.RunAccounted |
| reader.c:103-122 | the finish write defaults to `sbuf`, which still points into the frame freed at line 103, and writes it again when the descrambler is off | descrambler off; the writer ends at the exit test after a non-empty last frame | nothing more is written when there is no descrambler output to flush | medium (not executed) | Writer.FinishBufferAsWritten, Writer.FinishRepeatsLastFrame | Writer.FinishBuffer, Writer.RawOutput |

=== FILE: capture.dfy ===
/**
  The recorder's main program (recdvb.c): option parsing, the millisecond clock
  difference, one wakeup of the epoll event loop, and the shutdown hand-off of the
  end-of-stream sentinel to the writer thread. The file descriptors, the clock
  and the writer thread's liveness are inputs.
*/
module Capture {
  import opened Wrappers
  import opened CText
  import opened BoundedQueue
  import Duration
  import Preset

  /** Timer ticks (one per second) tolerated without a lock, and without new data. */
  const TuneTimeout := 5
  const ReadTimeout := 5

  /** The command line once `getopt_long` is done with it: the flags seen, the last argument
      given to each option that takes one, and the remaining positional arguments. */
  datatype CommandLine = CommandLine(
    help: bool, version: bool, b25: bool,
    round: Option<string>, lnb: Option<string>, dev: Option<string>, tsid: Option<string>,
    positionals: seq<string>)

  /** `struct recdvb_options` as `parse_options` fills it. */
  datatype Options = Options(
    channel: string, destfile: string, recsec: int,
    lnb: int, devNum: int, tsid: nat, useStdout: bool, b25: bool, round: int)

  /** `strtol(s, &end, 10)` with `*end == '\0'` required: the value and whether it passed. */
  function WholeNumber(s: string): (int, bool) {
    var sc := StrToL(s);
    (sc.value, sc.rest == "")
  }

  predicate LnbAllowed(v: int) {
    v == 0 || v == 11 || v == 15
  }

  /** The round-number check (only with --b25 and --round): the value and whether it passed. */
  function RoundCheck(cl: CommandLine): (r: (int, bool))
    ensures !(cl.b25 && cl.round.Some?) ==> r == (4, true)
    ensures cl.b25 && cl.round.Some? && r.1 ==> StrToL(cl.round.value).rest == ""
  {
    if cl.b25 && cl.round.Some? then WholeNumber(cl.round.value) else (4, true)
  }

  /** The LNB check: a whole number that is 0, 11 or 15. */
  function LnbCheck(cl: CommandLine): (r: (int, bool))
    ensures cl.lnb.None? ==> r == (0, true)
    ensures r.1 ==> LnbAllowed(r.0)
    ensures cl.lnb.Some? && r.1 ==> StrToL(cl.lnb.value).rest == ""
  {
    match cl.lnb
    case None => (0, true)
    case Some(t) => var (v, whole) := WholeNumber(t); (v, whole && LnbAllowed(v))
  }

  /** The device check: a whole number that is not negative. */
  function DevCheck(cl: CommandLine): (r: (int, bool))
    ensures cl.dev.None? ==> r == (0, true)
    ensures r.1 ==> r.0 >= 0
    ensures cl.dev.Some? && r.1 ==> StrToL(cl.dev.value).rest == ""
  {
    match cl.dev
    case None => (0, true)
    case Some(t) => var (v, whole) := WholeNumber(t); (v, whole && v >= 0)
  }

  /** The tsid check: `strtoul` with base detection, wholly consumed. */
  function TsidCheck(cl: CommandLine): (r: (nat, bool))
    ensures cl.tsid.None? ==> r == (0, true)
    ensures cl.tsid.Some? ==> (r.1 <==> StrToULAuto(cl.tsid.value).rest == "")
    ensures cl.tsid.Some? ==> r.0 == StrToULAuto(cl.tsid.value).value
    ensures r.0 < 0x1_0000_0000
  {
    match cl.tsid
    case None => (0, true)
    case Some(t) => var sc := StrToULAuto(t); (sc.value, sc.rest == "")
  }

  /** parse_options: 1 for --help or --version, -1 for missing positionals or any failed
      check, 0 otherwise; the options are filled whenever the positionals were read. */
  function ParseOptions(cl: CommandLine): (r: (int, Option<Options>))
    ensures r.0 == 1 <==> cl.help || cl.version
    ensures r.0 == 1 ==> r.1.None?
    ensures r.1.None? <==> cl.help || cl.version || |cl.positionals| < 3
    ensures r.0 in {1, 0, -1}
    ensures r.1.Some? ==>
      var o := r.1.value;
      && o.channel == cl.positionals[0] && o.destfile == cl.positionals[2]
      && (r.0 == 0 <==>
            RoundCheck(cl).1 && LnbCheck(cl).1 && DevCheck(cl).1 && TsidCheck(cl).1
            && Duration.ParseTime(cl.positionals[1], 0).Parsed?)
      && o.lnb == LnbCheck(cl).0 && o.devNum == DevCheck(cl).0
      && (TsidCheck(cl).0 != 0 ==> o.tsid == TsidCheck(cl).0)
      && (TsidCheck(cl).0 == 0 ==> o.tsid == Preset.SetBsTsid(o.channel).tsid)
      && o.useStdout == (o.destfile == "-")
    ensures r.0 == 0 ==> (r.1.Some? &&
      var o := r.1.value;
      LnbAllowed(o.lnb) && o.devNum >= 0 && Duration.ParseTime(cl.positionals[1], 0) == Duration.Parsed(o.recsec))
  {
    if cl.help || cl.version then (1, None)
    else if |cl.positionals| < 3 then (-1, None)
    else
      var channel, recsecText, destfile := cl.positionals[0], cl.positionals[1], cl.positionals[2];
      var (round, roundOk) := RoundCheck(cl);
      var (lnb, lnbOk) := LnbCheck(cl);
      var (devNum, devOk) := DevCheck(cl);
      var (tsid, tsidOk) := TsidCheck(cl);
      var tsid' := if tsid == 0 then Preset.SetBsTsid(channel).tsid else tsid;
      var (recsec, timeOk) := match Duration.ParseTime(recsecText, 0)
        case Parsed(v) => (v, true)
        case Unparsed => (0, false);
      var o := Options(channel, destfile, recsec, lnb, devNum, tsid', destfile == "-", cl.b25, round);
      if roundOk && lnbOk && devOk && tsidOk && timeOk then (0, Some(o)) else (-1, Some(o))
  }

  /** A command line whose checks all pass yields 0 and the values the checks read. */
  lemma ParseOptionsAccepts(cl: CommandLine, recsec: int)
    requires !cl.help && !cl.version && |cl.positionals| == 3
    requires RoundCheck(cl).1 && LnbCheck(cl).1 && DevCheck(cl).1 && TsidCheck(cl).1 && TsidCheck(cl).0 != 0
    requires Duration.ParseTime(cl.positionals[1], 0) == Duration.Parsed(recsec)
    ensures ParseOptions(cl) == (0, Some(Options(cl.positionals[0], cl.positionals[2], recsec,
      LnbCheck(cl).0, DevCheck(cl).0, TsidCheck(cl).0, cl.positionals[2] == "-", cl.b25, RoundCheck(cl).0)))
  {
  }

  /** A configuration written out the usual way: `--lnb N --dev N --tsid 0xN`, then the
      channel, the duration text and the destination. */
  function Render(channel: string, duration: string, destfile: string, lnb: nat, dev: nat, tsid: nat): CommandLine
    requires tsid < 0x1_0000_0000
  {
    CommandLine(false, false, false, None,
                Some(Numeral(lnb, 10)), Some(Numeral(dev, 10)), Some("0x" + Numeral(tsid, 16)),
                [channel, duration, destfile])
  }

  /** A valid configuration, rendered with any duration text that reads as `recsec`, parses
      back to itself. */
  lemma ParseOptionsRoundTrip(channel: string, duration: string, recsec: int, destfile: string, lnb: nat, dev: nat, tsid: nat)
    requires LnbAllowed(lnb) && 0 < tsid < 0x1_0000_0000
    requires Duration.ParseTime(duration, 0) == Duration.Parsed(recsec)
    ensures ParseOptions(Render(channel, duration, destfile, lnb, dev, tsid))
      == (0, Some(Options(channel, destfile, recsec, lnb, dev, tsid, destfile == "-", false, 4)))
  {
    var cl := Render(channel, duration, destfile, lnb, dev, tsid);
    StrToLNumeral(lnb);
    StrToLNumeral(dev);
    StrToULAutoHex(tsid);
    ParseOptionsAccepts(cl, recsec);
  }

  /** A command line with only a channel and a duration is refused before anything is checked. */
  lemma MissingDestinationRefused(channel: string, duration: string)
    ensures ParseOptions(CommandLine(false, false, false, None, None, None, None, [channel, duration])) == (-1, None)
  {
  }

  /** A bad LNB value does not stop the other checks: the tsid still falls back to the
      preset table, and the result is still -1. */
  lemma ChecksAllRun(cl: CommandLine, v: nat)
    requires !cl.help && !cl.version && |cl.positionals| >= 3
    requires cl.lnb == Some(Numeral(v, 10)) && !LnbAllowed(v) && cl.tsid.None?
    ensures ParseOptions(cl).0 == -1
    ensures ParseOptions(cl).1.value.tsid == Preset.SetBsTsid(cl.positionals[0]).tsid
  {
    LnbNumeral(cl, v);
  }

  /** Where no tsid is given, the program as written runs the table lookup with its two
      defects: it crashes exactly where the parse here falls back to tsid 0 for a BS name,
      and otherwise finds the same tsid. */
  lemma FallbackAsWritten(cl: CommandLine)
    requires !cl.help && !cl.version && |cl.positionals| >= 3 && TsidCheck(cl).0 == 0
    ensures var channel := cl.positionals[0];
      Preset.SetBsTsidAsWritten(channel).NullDeref? <==>
        Preset.HasBsPrefix(channel) && ParseOptions(cl).1.value.tsid == 0
    ensures var out := Preset.SetBsTsidAsWritten(cl.positionals[0]);
      out.Stored? ==> out.lookup.tsid == ParseOptions(cl).1.value.tsid
  {
    Preset.AsWrittenVersusCorrected(cl.positionals[0]);
  }

  /** A device number or a round number written as a numeral is read whole and passes. */
  lemma DevAndRoundNumerals(cl: CommandLine, dev: nat, round: nat)
    requires cl.dev == Some(Numeral(dev, 10)) && cl.b25 && cl.round == Some(Numeral(round, 10))
    ensures DevCheck(cl) == (dev, true) && RoundCheck(cl) == (round, true)
  {
    StrToLNumeral(dev);
    StrToLNumeral(round);
  }

  /** A tsid written in any of the three bases `strtoul` detects is read whole. */
  lemma TsidNumerals(cl: CommandLine, n: nat)
    requires 0 < n < 0x1_0000_0000
    requires cl.tsid in {Some(Numeral(n, 10)), Some("0" + Numeral(n, 8)), Some("0x" + Numeral(n, 16))}
    ensures TsidCheck(cl) == (n, true)
  {
    StrToULAutoDecimal(n);
    StrToULAutoOctal(n);
    StrToULAutoHex(n);
  }

  /** An LNB voltage written as a number is read whole, and passes exactly when it is 0, 11
      or 15. */
  lemma LnbNumeral(cl: CommandLine, v: nat)
    requires cl.lnb == Some(Numeral(v, 10))
    ensures LnbCheck(cl) == (v, LnbAllowed(v))
  {
    StrToLNumeral(v);
  }

  /** `struct timespec`, normalised: nanoseconds below one second. */
  datatype Timespec = Timespec(sec: int, nsec: int)

  predicate Normal(t: Timespec) {
    0 <= t.nsec < 1_000_000_000
  }

  function Nanos(t: Timespec): int {
    t.sec * 1_000_000_000 + t.nsec
  }

  /** C division of `int`s, truncating toward zero: the remainder is smaller than the divisor
      and takes the sign of the dividend. */
  function CDiv(a: int, b: int): (q: int)
    requires b > 0
    ensures var rem := a - q * b; -b < rem < b
    ensures var rem := a - q * b; (a > 0 ==> rem >= 0) && (a < 0 ==> rem <= 0)
  {
    if a >= 0 then a / b
    else
      assert -a == ((-a) / b) * b + (-a) % b;
      -((-a) / b)
  }

  /** Truncation is symmetric about zero, unlike Dafny's own division. */
  lemma CDivOdd(a: int, b: int)
    requires b > 0
    ensures CDiv(-a, b) == -CDiv(a, b)
  {
  }

  /** A borrowed nanosecond does not round a difference down to -1 millisecond, as floor or
      Euclidean division would. */
  lemma CDivTruncates()
    ensures CDiv(-1, 1_000_000) == 0 && -1 / 1_000_000 == -1
    ensures CDiv(-1_999_999, 1_000_000) == -1
  {
  }

  /** diff_timespec: the milliseconds between two times, later minus earlier. */
  function DiffTimespec(a: Timespec, b: Timespec): (d: int)
    requires Normal(a) && Normal(b)
    ensures d >= 0
    ensures a == b ==> d == 0
  {
    var (x, y) := if a.sec < b.sec || (a.sec == b.sec && a.nsec < b.nsec) then (b, a) else (a, b);
    (x.sec - y.sec) * 1000 + CDiv(x.nsec - y.nsec, 1_000_000)
  }

  /** The difference does not depend on the argument order. */
  lemma DiffSymmetric(a: Timespec, b: Timespec)
    requires Normal(a) && Normal(b)
    ensures DiffTimespec(a, b) == DiffTimespec(b, a)
  {
  }

  /** With truncating division of the nanosecond part, the result is the exact difference in
      whole milliseconds, or one more when the nanosecond parts borrow. */
  lemma DiffMilliseconds(a: Timespec, b: Timespec)
    requires Normal(a) && Normal(b) && Nanos(a) >= Nanos(b)
    ensures var exact := (Nanos(a) - Nanos(b)) / 1_000_000;
      exact <= DiffTimespec(a, b) <= exact + 1
    ensures a.nsec >= b.nsec ==> DiffTimespec(a, b) == (Nanos(a) - Nanos(b)) / 1_000_000
    ensures DiffTimespec(a, b) >= 0
  {
    var ds, dn := a.sec - b.sec, a.nsec - b.nsec;
    assert Nanos(a) - Nanos(b) == ds * 1_000_000_000 + dn;
    if a.sec == b.sec {
      assert dn >= 0;
    } else {
      assert ds >= 1;
    }
    if dn >= 0 {
      DivSplit(ds, dn);
    } else {
      DivSplitBorrow(ds, -dn);
    }
  }

  lemma DivSplit(ds: int, dn: nat)
    ensures (ds * 1_000_000_000 + dn) / 1_000_000 == ds * 1000 + dn / 1_000_000
  {
    assert ds * 1_000_000_000 + dn == (ds * 1000) * 1_000_000 + dn;
  }

  lemma DivSplitBorrow(ds: int, e: nat)
    requires 0 < e < 1_000_000_000
    ensures var exact := (ds * 1_000_000_000 - e) / 1_000_000;
      exact <= ds * 1000 - e / 1_000_000 <= exact + 1
  {
    var q, r := e / 1_000_000, e % 1_000_000;
    assert e == q * 1_000_000 + r;
    assert ds * 1_000_000_000 - e == (ds * 1000 - q - 1) * 1_000_000 + (1_000_000 - r);
    if r == 0 {
      assert ds * 1_000_000_000 - e == (ds * 1000 - q) * 1_000_000;
    }
  }

  /** The stop test at each wakeup: the elapsed seconds (an unsigned 64-bit quantity) against
      `recsec`, which the comparison converts to unsigned; -1 means no limit. */
  predicate DurationReached(elapsedMs: nat, recsec: int) {
    recsec != -1 && elapsedMs / 1000 >= recsec % 0x1_0000_0000_0000_0000
  }

  /** With a duration in range, the loop stops once the whole seconds elapsed reach it;
      with -1 it never stops for time. */
  lemma DurationReachedMeaning(elapsedMs: nat, recsec: int)
    requires -1 <= recsec < 0x1_0000_0000_0000_0000
    ensures recsec == -1 ==> !DurationReached(elapsedMs, recsec)
    ensures recsec >= 0 ==> (DurationReached(elapsedMs, recsec) <==> elapsedMs >= recsec * 1000)
  {
  }

  /** A negative duration other than -1 (a `-1h` argument, say) converts to a huge unsigned
      number, so the recording never stops on time. */
  lemma NegativeDurationNeverStops(elapsedMs: nat, recsec: int)
    requires -0x8000_0000 <= recsec < -1 && elapsedMs < 0x1_0000_0000_0000_0000
    ensures !DurationReached(elapsedMs, recsec)
  {
  }

  /** One ready descriptor of `epoll_wait`: the signalfd, the one-second timer, the frontend
      (whether `frontend_locked` reported a lock, and whether `demux_start` and the epoll
      removal of the frontend succeed), and the dvr (whether it is readable, whether the
      buffer could be allocated, and the bytes `read` returned; none for a result <= 0). */
  datatype Event =
    | Signal
    | Tick
    | Frontend(locked: bool, demuxStarted: bool, deregistered: bool)
    | DvrRead(readable: bool, gotBuffer: bool, data: Frame)

  /** The writer thread as `pthread_mutex_trylock` sees it: lock busy, alive, or finished. */
  datatype Probe = Busy | Alive | Finished

  /** One pass of `while (!f_exit)`: how many frames the writer thread dequeued since the
      previous pass, the writer probe, the result of `epoll_wait` (None when it failed), and
      the milliseconds since the start. */
  datatype Wakeup = Wakeup(taken: nat, writer: Probe, ready: Option<seq<Event>>, elapsedMs: nat)

  /** Why the event loop ended. */
  datatype Stop =
    | WriterFinished | WaitFailed | TimeUp | SignalCaught | TuneTimedOut | ReadTimedOut
    | DemuxFailed | DeregisterFailed | OutOfMemory

  /** The loop's state: the counters of `main`, the bytes of the frames the writer thread
      has taken off the queue so far, the queue it feeds, the queue's own termination flag,
      and the reason the loop ended once it has. */
  datatype Capture = Capture(
    tuned: bool, notuneCount: nat, noreadCount: nat,
    rByte: nat, pRByte: nat, oByte: nat, takenBytes: nat,
    queue: Queue, queueExit: bool, stop: Option<Stop>)

  /** The state at the first wakeup. */
  function Start(q: Queue): (c: Capture)
    requires Valid(q)
  {
    Capture(false, 0, 0, 0, 0, 0, 0, q, false, None)
  }

  /** The total size of the frames among some queued items. */
  function ItemBytes(items: seq<Item>): nat {
    if |items| == 0 then 0
    else (match items[|items| - 1] case Some(f) => |f| case None => 0) + ItemBytes(items[..|items| - 1])
  }

  /** Every byte read is either counted as overrun, taken by the writer, or still queued. */
  predicate Accounted(c: Capture)
    requires Valid(c.queue)
  {
    c.rByte == c.oByte + c.takenBytes + ItemBytes(Contents(c.queue))
  }

  /** The writer thread dequeues `n` frames (at most what is queued) while the loop waits. */
  function TakeFrames(c: Capture, n: nat): (r: Capture)
    requires Valid(c.queue)
    ensures Valid(r.queue)
    ensures r.takenBytes >= c.takenBytes && r.rByte == c.rByte && r.oByte == c.oByte
    ensures r.tuned == c.tuned && r.stop == c.stop
    ensures n == 0 ==> r == c
  {
    if n == 0 then c
    else
      var m := if n < c.queue.numUsed then n else c.queue.numUsed;
      c.(queue := Drain(c.queue, n), takenBytes := c.takenBytes + ItemBytes(Contents(c.queue)[..m]))
  }

  /** The frames taken are the oldest ones: they leave the front of the queue and their bytes
      join the taken count; nothing else about the loop changes. */
  lemma TakeFramesMoves(c: Capture, n: nat)
    requires Valid(c.queue)
    ensures var r := TakeFrames(c, n);
      var m := if n < c.queue.numUsed then n else c.queue.numUsed;
      Contents(r.queue) == Contents(c.queue)[m..] &&
      r.takenBytes == c.takenBytes + ItemBytes(Contents(c.queue)[..m]) &&
      r.(queue := c.queue, takenBytes := c.takenBytes) == c
  {
    assert Contents(c.queue)[..0] == [] && Contents(c.queue)[0..] == Contents(c.queue);
  }

  /** The dvr branch after a successful read: the frame is enqueued; when the queue refuses
      it the bytes count as overrun. Either way they count as read. */
  function StoreFrame(c: Capture, data: Frame): (r: Capture)
    requires Valid(c.queue)
    ensures Valid(r.queue)
    ensures r.rByte == c.rByte + |data|
    ensures c.queue.numAvail > 0 ==> Contents(r.queue) == Contents(c.queue) + [Some(data)] && r.oByte == c.oByte
    ensures c.queue.numAvail == 0 ==> r.queue == c.queue && r.oByte == c.oByte + |data| && r.queueExit
    ensures r.tuned == c.tuned && r.stop == c.stop && r.pRByte == c.pRByte
    ensures r.notuneCount == c.notuneCount && r.noreadCount == c.noreadCount
  {
    var p := Enqueue(c.queue, Some(data), c.queueExit);
    c.(queue := p.queue, queueExit := p.fExit, rByte := c.rByte + |data|,
       oByte := if p.stored then c.oByte else c.oByte + |data|)
  }

  /** The same branch as written: the buffer is freed before its size is read for the
      overrun and read counters, so both grow by whatever `stale` the freed memory holds. */
  function StoreFrameAsWritten(c: Capture, data: Frame, stale: nat): (r: Capture)
    requires Valid(c.queue)
    ensures Valid(r.queue)
    ensures c.queue.numAvail > 0 ==> r == StoreFrame(c, data)
    ensures c.queue.numAvail == 0 ==> r.rByte == c.rByte + stale && r.oByte == c.oByte + stale
  {
    var p := Enqueue(c.queue, Some(data), c.queueExit);
    var size := if p.stored then |data| else stale;
    c.(queue := p.queue, queueExit := p.fExit, rByte := c.rByte + size,
       oByte := if p.stored then c.oByte else c.oByte + size)
  }

  /** The read counter no longer counts the bytes read once a frame is dropped, unless the
      freed memory happens to still hold the size. */
  lemma DroppedFrameMiscounted(c: Capture, data: Frame, stale: nat)
    requires Valid(c.queue) && c.queue.numAvail == 0 && stale != |data|
    ensures StoreFrameAsWritten(c, data, stale).rByte != c.rByte + |data|
    ensures StoreFrame(c, data).rByte == c.rByte + |data|
  {
  }

  /** The queue of one slot, full: the smallest state in which the dvr branch drops a frame. */
  lemma DroppedFrameExample()
    ensures var q := Queue([Some([1])], 0, 0, 0, 1);
      Valid(q) && q.numAvail == 0 &&
      StoreFrameAsWritten(Start(q), [7, 7], 0).rByte == 0 && StoreFrame(Start(q), [7, 7]).rByte == 2
  {
    var q := Queue([Some([1])], 0, 0, 0, 1);
    assert Valid(q);
    DroppedFrameMiscounted(Start(q), [7, 7], 0);
  }

  /** The body of the event loop for one ready descriptor; `stop` is set where the C code
      sets `f_exit` and breaks out of the loop over events. */
  function HandleEvent(c: Capture, e: Event): (r: Capture)
    requires Valid(c.queue)
    ensures Valid(r.queue)
    ensures r.rByte >= c.rByte && r.oByte >= c.oByte && r.takenBytes == c.takenBytes
    ensures !e.DvrRead? ==> r.queue == c.queue && r.rByte == c.rByte && r.oByte == c.oByte
    ensures r.tuned <==> c.tuned || (e.Frontend? && e.locked)
    ensures e.Signal? ==> r.stop == Some(SignalCaught)
    ensures c.stop.Some? ==> r.stop.Some?
  {
    match e
    case Signal => c.(stop := Some(SignalCaught))
    case Tick =>
      if !c.tuned then
        var n := c.notuneCount + 1;
        if n < TuneTimeout then c.(notuneCount := n) else c.(notuneCount := n, stop := Some(TuneTimedOut))
      else if c.pRByte == c.rByte then
        var n := c.noreadCount + 1;
        if n < ReadTimeout then c.(noreadCount := n) else c.(noreadCount := n, stop := Some(ReadTimedOut))
      else c.(noreadCount := 0, pRByte := c.rByte)
    case Frontend(locked, demuxStarted, deregistered) =>
      if c.tuned || !locked then c
      else if !demuxStarted then c.(tuned := true, stop := Some(DemuxFailed))
      else if !deregistered then c.(tuned := true, stop := Some(DeregisterFailed))
      else c.(tuned := true)
    case DvrRead(readable, gotBuffer, data) =>
      if !readable then c
      else if !gotBuffer then c.(stop := Some(OutOfMemory))
      else if |data| == 0 then c
      else StoreFrame(c, data)
  }

  /** The ready descriptors in order, until one of them ends the loop. */
  function Dispatch(c: Capture, events: seq<Event>): (r: Capture)
    requires Valid(c.queue) && c.stop.None?
    ensures Valid(r.queue)
    ensures r.rByte >= c.rByte && r.oByte >= c.oByte && r.takenBytes == c.takenBytes
    ensures c.tuned ==> r.tuned
    decreases |events|
  {
    if |events| == 0 then c
    else
      var c' := HandleEvent(c, events[0]);
      if c'.stop.Some? then c' else Dispatch(c', events[1..])
  }

  /** One pass of the event loop: the writer check, the wait, the duration check, then the
      events. */
  function Wake(c: Capture, w: Wakeup, recsec: int): (r: Capture)
    requires Valid(c.queue) && c.stop.None?
    ensures Valid(r.queue)
    ensures r.rByte >= c.rByte && r.oByte >= c.oByte && r.takenBytes >= c.takenBytes
    ensures c.tuned ==> r.tuned
    ensures w.writer == Finished ==> r.stop == Some(WriterFinished)
    ensures w.writer != Finished && w.ready.None? ==> r.stop == Some(WaitFailed)
    ensures w.writer != Finished && w.ready == Some([]) ==> r == TakeFrames(c, w.taken)
  {
    var d := TakeFrames(c, w.taken);
    if w.writer == Finished then d.(stop := Some(WriterFinished))
    else match w.ready
      case None => d.(stop := Some(WaitFailed))
      case Some(events) =>
        if |events| == 0 then d
        else if DurationReached(w.elapsedMs, recsec) then d.(stop := Some(TimeUp))
        else Dispatch(d, events)
  }

  /** The event loop over successive wakeups, until it stops or the wakeups run out. */
  function Run(c: Capture, ws: seq<Wakeup>, recsec: int): (r: Capture)
    requires Valid(c.queue)
    ensures Valid(r.queue)
    ensures c.stop.Some? ==> r == c
    ensures r.rByte >= c.rByte && r.oByte >= c.oByte && r.takenBytes >= c.takenBytes
    ensures c.tuned ==> r.tuned
    decreases |ws|
  {
    if c.stop.Some? || |ws| == 0 then c
    else Run(Wake(c, ws[0], recsec), ws[1..], recsec)
  }

  /** The loop only ever appends to the queue: what was queued before an event stays
      queued, in order, ahead of anything the event adds. */
  lemma HandleEventExtends(c: Capture, e: Event)
    requires Valid(c.queue)
    ensures Contents(c.queue) <= Contents(HandleEvent(c, e).queue)
  {
  }

  lemma {:induction false} DispatchExtends(c: Capture, events: seq<Event>)
    requires Valid(c.queue) && c.stop.None?
    ensures Contents(c.queue) <= Contents(Dispatch(c, events).queue)
    decreases |events|
  {
    if |events| > 0 {
      HandleEventExtends(c, events[0]);
      var c' := HandleEvent(c, events[0]);
      if c'.stop.None? {
        DispatchExtends(c', events[1..]);
      }
    }
  }

  /** A caught signal ends the loop: no event after it in the same wakeup is handled. */
  lemma {:induction false} DispatchStopsAtSignal(c: Capture, events: seq<Event>, i: nat)
    requires Valid(c.queue) && c.stop.None? && i < |events| && events[i] == Signal
    ensures Dispatch(c, events).stop.Some?
    decreases |events|
  {
    var c' := HandleEvent(c, events[0]);
    if i > 0 && c'.stop.None? {
      assert events[1..][i - 1] == Signal;
      DispatchStopsAtSignal(c', events[1..], i - 1);
    }
  }

  /** The loop never outlives the writer: once a wakeup finds the writer finished, the
      recording has stopped. */
  lemma {:induction false} RunStopsForFinishedWriter(c: Capture, ws: seq<Wakeup>, recsec: int, j: nat)
    requires Valid(c.queue) && j < |ws| && ws[j].writer == Finished
    ensures Run(c, ws, recsec).stop.Some?
    decreases |ws|
  {
    if c.stop.None? && j > 0 {
      assert ws[1..][j - 1].writer == Finished;
      RunStopsForFinishedWriter(Wake(c, ws[0], recsec), ws[1..], recsec, j - 1);
    }
  }

  /** The bytes of two runs of items add up. */
  lemma {:induction false} ItemBytesSplit(a: seq<Item>, b: seq<Item>)
    ensures ItemBytes(a + b) == ItemBytes(a) + ItemBytes(b)
    decreases |b|
  {
    if |b| == 0 {
      assert a + b == a;
    } else {
      var b' := b[..|b| - 1];
      assert (a + b)[..|a + b| - 1] == a + b';
      ItemBytesSplit(a, b');
    }
  }

  /** The writer taking frames moves their bytes from the queue to the taken count. */
  lemma TakeFramesAccounted(c: Capture, n: nat)
    requires Valid(c.queue) && Accounted(c)
    ensures Accounted(TakeFrames(c, n))
  {
    var m := if n < c.queue.numUsed then n else c.queue.numUsed;
    var items := Contents(c.queue);
    TakeFramesMoves(c, n);
    assert items[..m] + items[m..] == items;
    ItemBytesSplit(items[..m], items[m..]);
  }

  /** Appending a frame adds its size to the queued bytes. */
  lemma ItemBytesAppend(items: seq<Item>, data: Frame)
    ensures ItemBytes(items + [Some(data)]) == ItemBytes(items) + |data|
  {
    assert (items + [Some(data)])[..|items|] == items;
  }

  /** Each event keeps the byte accounting. */
  lemma HandleEventAccounted(c: Capture, e: Event)
    requires Valid(c.queue) && Accounted(c)
    ensures Accounted(HandleEvent(c, e))
  {
    if e.DvrRead? && e.readable && e.gotBuffer && |e.data| > 0 && c.queue.numAvail > 0 {
      ItemBytesAppend(Contents(c.queue), e.data);
    }
  }

  lemma {:induction false} DispatchAccounted(c: Capture, events: seq<Event>)
    requires Valid(c.queue) && c.stop.None? && Accounted(c)
    ensures Accounted(Dispatch(c, events))
    decreases |events|
  {
    if |events| > 0 {
      HandleEventAccounted(c, events[0]);
      var c' := HandleEvent(c, events[0]);
      if c'.stop.None? {
        DispatchAccounted(c', events[1..]);
      }
    }
  }

  lemma WakeAccounted(c: Capture, w: Wakeup, recsec: int)
    requires Valid(c.queue) && c.stop.None? && Accounted(c)
    ensures Accounted(Wake(c, w, recsec))
  {
    var d := TakeFrames(c, w.taken);
    TakeFramesAccounted(c, w.taken);
    if w.writer != Finished && w.ready.Some? && |w.ready.value| > 0 && !DurationReached(w.elapsedMs, recsec) {
      DispatchAccounted(d, w.ready.value);
    }
  }

  /** Over a whole recording, `r_byte` is the overrun `o_byte`, plus the bytes the writer
      took, plus the bytes still queued: no byte read is lost from the count. */
  lemma {:induction false} RunAccounted(c: Capture, ws: seq<Wakeup>, recsec: int)
    requires Valid(c.queue) && Accounted(c)
    ensures Accounted(Run(c, ws, recsec))
    decreases |ws|
  {
    if c.stop.None? && |ws| > 0 {
      WakeAccounted(c, ws[0], recsec);
      RunAccounted(Wake(c, ws[0], recsec), ws[1..], recsec);
    }
  }

  /** A read into a MAX_READ_SIZE buffer returns at most that many bytes. */
  predicate ReadFits(e: Event) {
    e.DvrRead? ==> |e.data| <= MaxReadSize
  }

  /** Every read of a wakeup fits its buffer. */
  predicate WakeupFits(w: Wakeup) {
    w.ready.Some? ==> forall i | 0 <= i < |w.ready.value| :: ReadFits(w.ready.value[i])
  }

  /** An event whose read fits its buffer queues no frame larger than MAX_READ_SIZE. */
  lemma HandleEventFits(c: Capture, e: Event)
    requires Valid(c.queue) && Fits(Contents(c.queue)) && ReadFits(e)
    ensures Fits(Contents(HandleEvent(c, e).queue))
  {
    if e.DvrRead? && e.readable && e.gotBuffer && |e.data| > 0 && c.queue.numAvail > 0 {
      var items := Contents(c.queue) + [Some(e.data)];
      assert forall i | 0 <= i < |items| - 1 :: items[i] == Contents(c.queue)[i];
    }
  }

  lemma {:induction false} DispatchFits(c: Capture, events: seq<Event>)
    requires Valid(c.queue) && c.stop.None? && Fits(Contents(c.queue))
    requires forall i | 0 <= i < |events| :: ReadFits(events[i])
    ensures Fits(Contents(Dispatch(c, events).queue))
    decreases |events|
  {
    if |events| > 0 {
      HandleEventFits(c, events[0]);
      var c' := HandleEvent(c, events[0]);
      if c'.stop.None? {
        assert forall i | 0 <= i < |events| - 1 :: events[1..][i] == events[i + 1];
        DispatchFits(c', events[1..]);
      }
    }
  }

  /** Over a whole recording, every frame in the queue fits in MAX_READ_SIZE bytes when
      every read does. */
  lemma {:induction false} RunFits(c: Capture, ws: seq<Wakeup>, recsec: int)
    requires Valid(c.queue) && Fits(Contents(c.queue))
    requires forall j | 0 <= j < |ws| :: WakeupFits(ws[j])
    ensures Fits(Contents(Run(c, ws, recsec).queue))
    decreases |ws|
  {
    if c.stop.None? && |ws| > 0 {
      var w := ws[0];
      assert WakeupFits(w);
      var d := TakeFrames(c, w.taken);
      var m := if w.taken < c.queue.numUsed then w.taken else c.queue.numUsed;
      TakeFramesMoves(c, w.taken);
      assert forall i | 0 <= i < |Contents(d.queue)| :: Contents(d.queue)[i] == Contents(c.queue)[m + i];
      if w.writer != Finished && w.ready.Some? && |w.ready.value| > 0 && !DurationReached(w.elapsedMs, recsec) {
        DispatchFits(d, w.ready.value);
      }
      assert forall j | 0 <= j < |ws| - 1 :: ws[1..][j] == ws[j + 1];
      RunFits(Wake(c, ws[0], recsec), ws[1..], recsec);
    }
  }

  /** The time limit is checked before any event of the wakeup is handled. */
  lemma TimeUpBeforeEvents(c: Capture, w: Wakeup, recsec: int)
    requires Valid(c.queue) && c.stop.None?
    requires w.writer != Finished && w.ready.Some? && |w.ready.value| > 0
    ensures DurationReached(w.elapsedMs, recsec) <==> Wake(c, w, recsec).stop == Some(TimeUp)
    ensures DurationReached(w.elapsedMs, recsec) ==> Wake(c, w, recsec) == TakeFrames(c, w.taken).(stop := Some(TimeUp))
  {
    if !DurationReached(w.elapsedMs, recsec) {
      DispatchNeverTimesUp(TakeFrames(c, w.taken), w.ready.value);
    }
  }

  lemma {:induction false} DispatchNeverTimesUp(c: Capture, events: seq<Event>)
    requires Valid(c.queue) && c.stop.None?
    ensures Dispatch(c, events).stop != Some(TimeUp)
    decreases |events|
  {
    if |events| > 0 {
      var c' := HandleEvent(c, events[0]);
      if c'.stop.None? {
        DispatchNeverTimesUp(c', events[1..]);
      }
    }
  }

  /** Once tuned, a frontend event changes nothing: only the first lock counts. */
  lemma LaterLocksIgnored(c: Capture, locked: bool, demuxStarted: bool, deregistered: bool)
    requires Valid(c.queue) && c.tuned
    ensures HandleEvent(c, Frontend(locked, demuxStarted, deregistered)) == c
  {
  }

  /** The first locked frontend event tunes, whatever happens to the demux afterwards. */
  lemma FirstLockTunes(c: Capture, demuxStarted: bool, deregistered: bool)
    requires Valid(c.queue) && !c.tuned && c.stop.None?
    ensures HandleEvent(c, Frontend(true, demuxStarted, deregistered)).tuned
    ensures HandleEvent(c, Frontend(true, demuxStarted, deregistered)).stop.None? <==> demuxStarted && deregistered
  {
  }

  /** A wakeup with just the timer, nothing else going on. */
  function TickOnly(): Wakeup {
    Wakeup(0, Alive, Some([Tick]), 0)
  }

  /** `k` timer-only wakeups in a row. */
  function Ticks(k: nat): (ws: seq<Wakeup>)
    ensures |ws| == k && forall i | 0 <= i < k :: ws[i] == TickOnly()
  {
    if k == 0 then [] else [TickOnly()] + Ticks(k - 1)
  }

  /** A wakeup with only the timer is the tick handler alone. */
  lemma TickOnlyWake(c: Capture)
    requires Valid(c.queue) && c.stop.None?
    ensures Wake(c, TickOnly(), -1) == HandleEvent(c, Tick)
  {
    assert TakeFrames(c, 0) == c;
    assert !DurationReached(0, -1);
  }

  /** A run of timer-only wakeups handles the first tick, then the rest. */
  lemma TickStep(c: Capture, k: nat)
    requires Valid(c.queue) && c.stop.None? && k > 0
    ensures Run(c, Ticks(k), -1) == Run(HandleEvent(c, Tick), Ticks(k - 1), -1)
  {
    assert Ticks(k)[0] == TickOnly();
    assert Ticks(k)[1..] == Ticks(k - 1);
    TickOnlyWake(c);
  }

  /** Ticks while untuned: the k-th tick sets `notune_count` to k, and the fifth ends the loop. */
  lemma {:induction false} UntunedTicks(c: Capture, k: nat)
    requires Valid(c.queue) && c.stop.None? && !c.tuned && c.notuneCount < TuneTimeout && c.notuneCount + k <= TuneTimeout
    ensures var r := Run(c, Ticks(k), -1);
      r.notuneCount == c.notuneCount + k &&
      (r.stop.Some? <==> c.notuneCount + k == TuneTimeout) &&
      (r.stop.Some? ==> r.stop == Some(TuneTimedOut))
    decreases k
  {
    if k == 0 {
      assert Run(c, Ticks(0), -1) == c;
    } else {
      var c' := HandleEvent(c, Tick);
      TickStep(c, k);
      if c.notuneCount + 1 < TuneTimeout {
        assert c' == c.(notuneCount := c.notuneCount + 1);
        UntunedTicks(c', k - 1);
      } else {
        assert c' == c.(notuneCount := c.notuneCount + 1, stop := Some(TuneTimedOut));
        assert k == 1;
        assert Run(c', Ticks(0), -1) == c';
      }
    }
  }

  /** From the first wakeup, five timer ticks without a lock end the recording. */
  lemma TuneTimeoutAfterFiveTicks(q: Queue)
    requires Valid(q)
    ensures Run(Start(q), Ticks(4), -1).stop.None?
    ensures Run(Start(q), Ticks(5), -1).stop == Some(TuneTimedOut)
  {
    UntunedTicks(Start(q), 4);
    UntunedTicks(Start(q), 5);
  }

  /** Ticks while tuned and starved: the fifth tick in a row without new data ends the loop;
      any progress in between resets the count. */
  lemma {:induction false} StarvedTicks(c: Capture, k: nat)
    requires Valid(c.queue) && c.stop.None? && c.tuned && c.pRByte == c.rByte && c.noreadCount < ReadTimeout && c.noreadCount + k <= ReadTimeout
    ensures var r := Run(c, Ticks(k), -1);
      r.noreadCount == c.noreadCount + k &&
      (r.stop.Some? <==> c.noreadCount + k == ReadTimeout) &&
      (r.stop.Some? ==> r.stop == Some(ReadTimedOut))
    decreases k
  {
    if k == 0 {
      assert Run(c, Ticks(0), -1) == c;
    } else {
      var c' := HandleEvent(c, Tick);
      TickStep(c, k);
      if c.noreadCount + 1 < ReadTimeout {
        assert c' == c.(noreadCount := c.noreadCount + 1);
        StarvedTicks(c', k - 1);
      } else {
        assert c' == c.(noreadCount := c.noreadCount + 1, stop := Some(ReadTimedOut));
        assert k == 1;
        assert Run(c', Ticks(0), -1) == c';
      }
    }
  }

  /** A tick after new data resets the starvation count and remembers the new total. */
  lemma ProgressResets(c: Capture)
    requires Valid(c.queue) && c.tuned && c.pRByte != c.rByte
    ensures HandleEvent(c, Tick) == c.(noreadCount := 0, pRByte := c.rByte)
  {
  }

  /** A dvr read that returned nothing, or a descriptor that is not readable, changes nothing. */
  lemma EmptyReadIgnored(c: Capture, gotBuffer: bool, data: Frame)
    requires Valid(c.queue)
    ensures HandleEvent(c, DvrRead(true, true, [])) == c
    ensures HandleEvent(c, DvrRead(false, gotBuffer, data)) == c
  {
  }

  /** What the shutdown loop sees between two refused enqueues: the writer probe, and how many
      frames the writer took off the queue meanwhile. */
  datatype Pause = Pause(writer: Probe, taken: nat)

  /** How the shutdown loop ended: the sentinel queued, the writer found finished, or still
      trying when the observed pauses ran out. */
  datatype Shutdown =
    | Delivered(queue: Queue, fExit: bool)
    | Abandoned(queue: Queue, fExit: bool)
    | StillTrying(queue: Queue, fExit: bool)

  /** The writer takes `n` frames (at most what is queued). */
  function Drain(q: Queue, n: nat): (r: Queue)
    requires Valid(q)
    ensures Valid(r) && |r.slots| == |q.slots|
    ensures Contents(r) == Contents(q)[(if n < q.numUsed then n else q.numUsed)..]
  {
    DequeueN(q, if n < q.numUsed then n else q.numUsed).1
  }

  /** The loop at `end:` that hands the NULL sentinel to the writer: retry while the
      enqueue is refused, unless the writer has already finished. */
  function SendSentinel(q: Queue, fExit: bool, pauses: seq<Pause>): (r: Shutdown)
    requires Valid(q)
    ensures Valid(r.queue)
    ensures r.Delivered? ==> exists before :: Contents(r.queue) == before + [None]
    ensures q.numAvail > 0 ==> r == Delivered(Enqueue(q, None, fExit).queue, fExit)
    ensures r.Abandoned? ==> exists pz :: pz in pauses && pz.writer == Finished
    ensures r.fExit
      || (q.numAvail > 0 && !fExit)
    decreases |pauses|
  {
    var p := Enqueue(q, None, fExit);
    if p.stored then Delivered(p.queue, p.fExit)
    else if |pauses| == 0 then StillTrying(p.queue, p.fExit)
    else if pauses[0].writer == Finished then Abandoned(p.queue, p.fExit)
    else
      SendSentinel(Drain(p.queue, pauses[0].taken), p.fExit, pauses[1..])
  }

  /** With the queue full and a writer that stays alive without taking anything, the
      sentinel is never delivered: the shutdown waits as long as the writer lives. */
  lemma {:induction false} StuckWhileWriterStalls(q: Queue, fExit: bool, pauses: seq<Pause>)
    requires Valid(q) && q.numAvail == 0
    requires forall i :: 0 <= i < |pauses| ==> pauses[i].writer != Finished && pauses[i].taken == 0
    ensures SendSentinel(q, fExit, pauses).StillTrying?
    decreases |pauses|
  {
    if |pauses| > 0 {
      var p := Enqueue(q, None, fExit);
      assert Drain(p.queue, 0) == p.queue by {
        assert DequeueN(p.queue, 0).1 == p.queue;
      }
      StuckWhileWriterStalls(p.queue, p.fExit, pauses[1..]);
    }
  }

  /** Once the writer takes a frame the next attempt delivers the sentinel behind the
      remaining frames. */
  lemma DeliveredAfterDrain(q: Queue, fExit: bool, taken: nat, writer: Probe)
    requires Valid(q) && q.numAvail == 0 && q.numUsed > 0 && taken > 0 && writer != Finished
    ensures var r := SendSentinel(q, fExit, [Pause(writer, taken)]);
      r.Delivered? && Contents(r.queue) == Contents(q)[(if taken < q.numUsed then taken else q.numUsed)..] + [None]
  {
    var p := Enqueue(q, None, fExit);
    var d := Drain(p.queue, taken);
    assert d.numAvail > 0;
  }
}

=== FILE: ctext.dfy ===
/**
  The small part of the C library the recorder leans on, over strings modelled as
  the characters before the terminating NUL: `isdigit`, `isspace`, `strchr`,
  `atoi`, `strtol`, `strtoul`, the `%d`/`%x`/`%s` conversions of `sscanf`, and
  `strtok`. Numbers are scanned as optional white space, an optional sign and the
  longest run of digits; overflow (ERANGE) is not modelled.
*/
module CText {
  import opened Wrappers

  /** `isspace` in the C locale: space, tab, newline, vertical tab, form feed, carriage return. */
  const Whitespace: set<char> := {' ', '\t', '\n', '\U{000B}', '\U{000C}', '\r'}

  predicate IsSpace(c: char) {
    c in Whitespace
  }

  /** `isdigit` in the C locale. */
  predicate IsDigit(c: char) {
    '0' <= c <= '9'
  }

  predicate IsHexDigit(c: char) {
    IsDigit(c) || 'a' <= c <= 'f' || 'A' <= c <= 'F'
  }

  /** The value of a hexadecimal (hence also decimal or octal) digit. */
  function DigitOf(c: char): (d: nat)
    requires IsHexDigit(c)
    ensures d < 16
    ensures IsDigit(c) <==> d < 10
  {
    if IsDigit(c) then c as int - '0' as int
    else if 'a' <= c <= 'f' then c as int - 'a' as int + 10
    else c as int - 'A' as int + 10
  }

  /** A digit of the given base (8, 10 or 16 here). */
  predicate IsBaseDigit(c: char, base: nat) {
    IsHexDigit(c) && DigitOf(c) < base
  }

  predicate AllBaseDigits(d: string, base: nat) {
    forall i :: 0 <= i < |d| ==> IsBaseDigit(d[i], base)
  }

  /** The character at index `i` of a NUL-terminated string: NUL at and past its end. */
  function CharAt(s: string, i: nat): (c: char)
    ensures i < |s| ==> c == s[i]
    ensures i >= |s| ==> c == '\0'
  {
    if i < |s| then s[i] else '\0'
  }

  /** `strchr`: the index of the first occurrence of `c`, if any. */
  function Find(s: string, c: char): (r: Option<nat>)
    ensures r.None? <==> c !in s
    ensures r.Some? ==> r.value < |s| && s[r.value] == c && c !in s[..r.value]
  {
    if |s| == 0 then None
    else if s[0] == c then Some(0)
    else
      match Find(s[1..], c)
      case None => None
      case Some(k) =>
        assert s[..k + 1] == [s[0]] + s[1..][..k];
        Some(k + 1)
  }

  /** `strchr` finds an occurrence exactly when no earlier one exists. */
  lemma FindAt(s: string, c: char, k: nat)
    requires k < |s| && s[k] == c && c !in s[..k]
    ensures Find(s, c) == Some(k)
  {
    assert c in s;
    var j := Find(s, c).value;
    assert forall i :: 0 <= i < k ==> s[..k][i] == s[i];
  }

  /** The string with its leading white space removed. */
  function SkipSpaces(s: string): (t: string)
    ensures |t| <= |s| && t == s[|s| - |t|..]
    ensures |t| == 0 || !IsSpace(t[0])
    ensures forall i :: 0 <= i < |s| - |t| ==> IsSpace(s[i])
  {
    if |s| > 0 && IsSpace(s[0]) then SkipSpaces(s[1..]) else s
  }

  /** The longest prefix of `s` made of digits of `base`. */
  function LeadingDigits(s: string, base: nat): (d: string)
    ensures d <= s
    ensures AllBaseDigits(d, base)
    ensures |d| < |s| ==> !IsBaseDigit(s[|d|], base)
  {
    if |s| > 0 && IsBaseDigit(s[0], base) then [s[0]] + LeadingDigits(s[1..], base) else []
  }

  /** The value of a digit string, most significant digit first. */
  function ValueOf(d: string, base: nat): nat
    requires AllBaseDigits(d, base)
  {
    if |d| == 0 then 0 else ValueOf(d[..|d| - 1], base) * base + DigitOf(d[|d| - 1])
  }

  /** The lower-case digit character of value `v`. */
  function DigitChar(v: nat): (c: char)
    requires v < 16
    ensures IsHexDigit(c) && DigitOf(c) == v
  {
    if v < 10 then ('0' as int + v) as char else ('a' as int + v - 10) as char
  }

  /** Euclidean division facts for a base of at least 2. */
  lemma DivMod(n: nat, base: nat)
    requires 2 <= base
    ensures n == n / base * base + n % base
    ensures 0 <= n % base < base
    ensures n >= base ==> 0 < n / base < n
  {
  }

  /** The numeral of `n` in `base`, without sign or prefix: what `%d`/`%x` of `printf` produce. */
  function Numeral(n: nat, base: nat): (s: string)
    requires 2 <= base <= 16
    ensures |s| > 0
    ensures AllBaseDigits(s, base)
    decreases n
  {
    if n < base then [DigitChar(n)]
    else
      DivMod(n, base);
      Numeral(n / base, base) + [DigitChar(n % base)]
  }

  /** Reading a numeral back gives the number it was written from. */
  lemma {:induction false} ValueOfNumeral(n: nat, base: nat)
    requires 2 <= base <= 16
    ensures ValueOf(Numeral(n, base), base) == n
    decreases n
  {
    if n >= base {
      var s := Numeral(n, base);
      DivMod(n, base);
      assert s[..|s| - 1] == Numeral(n / base, base);
      ValueOfNumeral(n / base, base);
    }
  }

  /** A digit run followed by a non-digit is exactly the leading digit run. */
  lemma {:induction false} LeadingDigitsOfDigits(d: string, rest: string, base: nat)
    requires AllBaseDigits(d, base)
    requires |rest| == 0 || !IsBaseDigit(rest[0], base)
    ensures LeadingDigits(d + rest, base) == d
    decreases |d|
  {
    if |d| > 0 {
      assert (d + rest)[1..] == d[1..] + rest;
      LeadingDigitsOfDigits(d[1..], rest, base);
    } else {
      assert d + rest == rest;
    }
  }

  /** A number as scanned: its value and the unread rest (C's end pointer). */
  datatype Scanned = Scanned(value: int, rest: string)

  /** Optional white space, an optional sign, then the longest run of `base` digits;
      None when no digit follows. */
  function ScanSigned(s: string, base: nat): (r: Option<Scanned>)
    ensures r.Some? ==> |r.value.rest| < |s|
  {
    var t := SkipSpaces(s);
    var neg := |t| > 0 && t[0] == '-';
    var u := if |t| > 0 && (t[0] == '-' || t[0] == '+') then t[1..] else t;
    var d := LeadingDigits(u, base);
    if |d| == 0 then None
    else
      var v: int := ValueOf(d, base);
      Some(Scanned(if neg then -v else v, u[|d|..]))
  }

  /** Scanning a decimal numeral stops right after it and yields its value. */
  lemma ScanNumeral(n: nat, rest: string, base: nat)
    requires 2 <= base <= 16
    requires |rest| == 0 || !IsBaseDigit(rest[0], base)
    ensures ScanSigned(Numeral(n, base) + rest, base) == Some(Scanned(n, rest))
  {
    var s := Numeral(n, base) + rest;
    assert s[0] == Numeral(n, base)[0];
    assert !IsSpace(s[0]) && s[0] != '-' && s[0] != '+';
    LeadingDigitsOfDigits(Numeral(n, base), rest, base);
    ValueOfNumeral(n, base);
    assert s[|Numeral(n, base)|..] == rest;
  }

  /** C `atoi`: the scanned decimal value, 0 when the string holds none. */
  function Atoi(s: string): (r: int)
    ensures r == StrToL(s).value
  {
    match ScanSigned(s, 10)
    case None => 0
    case Some(r) => r.value
  }

  /** `atoi` reads the longest run of decimal digits after the white space and the sign: its
      value is theirs, negated after a `-`, and it is 0 without digits. */
  lemma AtoiReads(s: string)
    ensures var d := LeadingDigits(SplitSign(s).1, 10);
      && (d == "" ==> Atoi(s) == 0)
      && (SplitSign(s).0 ==> Atoi(s) + ValueOf(d, 10) == 0)
      && (!SplitSign(s).0 ==> Atoi(s) == ValueOf(d, 10))
  {
  }

  /** `atoi` inverts `%d` formatting of a natural number, whatever non-digit follows. */
  lemma AtoiNumeral(n: nat, rest: string)
    requires |rest| == 0 || !IsDigit(rest[0])
    ensures Atoi(Numeral(n, 10) + rest) == n
  {
    assert |rest| == 0 || !IsBaseDigit(rest[0], 10);
    ScanNumeral(n, rest, 10);
  }

  /** C `strtol(s, &end, 10)`: with no digits the end pointer stays at the start of `s`. */
  function StrToL(s: string): Scanned
  {
    match ScanSigned(s, 10)
    case None => Scanned(0, s)
    case Some(r) => r
  }

  /** `strtol` either consumes a numeral or leaves the end pointer at the start with value 0,
      and it consumes nothing exactly when no digit follows the white space and sign. */
  lemma StrToLConsumes(s: string)
    ensures StrToL(s).rest == s || |StrToL(s).rest| < |s|
    ensures StrToL(s).rest == s ==> StrToL(s).value == 0
    ensures StrToL(s).rest == s <==> LeadingDigits(SplitSign(s).1, 10) == ""
  {
  }

  /** `strtol` reads a decimal numeral completely, leaving the end pointer on the NUL. */
  lemma StrToLNumeral(n: nat)
    ensures StrToL(Numeral(n, 10)) == Scanned(n, "")
  {
    ScanNumeral(n, "", 10);
    assert Numeral(n, 10) + "" == Numeral(n, 10);
  }

  /** Reduction to a 32-bit `unsigned int`. */
  function Wrap32(x: int): (r: nat)
    ensures r < 0x1_0000_0000
    ensures 0 <= x < 0x1_0000_0000 ==> r == x
  {
    x % 0x1_0000_0000
  }

  /** An `unsigned long` conversion stored in an `unsigned int`: digits worth 2^64 or more
      saturate at ULONG_MAX, whose low 32 bits are all ones; otherwise the signed value is
      taken modulo 2^64 and then cut to 32 bits. */
  function NarrowULong(x: int): (r: nat)
    ensures r < 0x1_0000_0000
    ensures 0 <= x < 0x1_0000_0000 ==> r == x
    ensures x >= 0x1_0000_0000_0000_0000 ==> r == 0xFFFF_FFFF
  {
    if x >= 0x1_0000_0000_0000_0000 || x <= -0x1_0000_0000_0000_0000 then 0xFFFF_FFFF else Wrap32(x)
  }

  /** C `strtoul(s, &end, 0)` stored in an `unsigned int`: a `0x`/`0X` prefix followed by a
      hexadecimal digit selects base 16, a leading `0` base 8, anything else base 10; a minus
      sign negates modulo 2^64, and a value out of range saturates (`NarrowULong`). With no
      digits the end pointer stays at the start of `s`. */
  function StrToULAuto(s: string): (r: Scanned)
    ensures 0 <= r.value < 0x1_0000_0000
  {
    var (neg, u) := SplitSign(s);
    UnsignedAuto(neg, u, s)
  }

  /** `strtoul(_, _, 0)` past the white space and the sign `neg`, on the rest `u` of `s`. */
  function UnsignedAuto(neg: bool, u: string, s: string): (r: Scanned)
    ensures 0 <= r.value < 0x1_0000_0000
  {
    var hex := |u| > 2 && u[0] == '0' && (u[1] == 'x' || u[1] == 'X') && IsHexDigit(u[2]);
    var base := if hex then 16 else if |u| > 0 && u[0] == '0' then 8 else 10;
    var body := if hex then u[2..] else u;
    var d := LeadingDigits(body, base);
    if |d| == 0 then Scanned(0, s)
    else
      var v: int := ValueOf(d, base);
      Scanned(NarrowULong(if neg then -v else v), body[|d|..])
  }

  /** Leading white space and an optional sign removed: whether the sign was a minus, and the rest. */
  function SplitSign(s: string): (bool, string)
  {
    var t := SkipSpaces(s);
    (|t| > 0 && t[0] == '-', if |t| > 0 && (t[0] == '-' || t[0] == '+') then t[1..] else t)
  }

  /** The first digit of the numeral of a positive number is not `0`. */
  lemma {:induction false} NumeralLeads(n: nat, base: nat)
    requires 2 <= base <= 16 && n > 0
    ensures Numeral(n, base)[0] != '0'
    decreases n
  {
    DivMod(n, base);
    if n >= base {
      NumeralLeads(n / base, base);
    }
  }

  /** A leading zero digit does not change the value. */
  lemma {:induction false} LeadingZero(d: string, base: nat)
    requires 2 <= base && AllBaseDigits(d, base)
    ensures AllBaseDigits("0" + d, base) && ValueOf("0" + d, base) == ValueOf(d, base)
    decreases |d|
  {
    var z := "0" + d;
    assert forall i | 0 < i < |z| :: z[i] == d[i - 1];
    if |d| > 0 {
      assert z[..|z| - 1] == "0" + d[..|d| - 1];
      LeadingZero(d[..|d| - 1], base);
    }
  }

  /** Unless the digits start with `0`, `strtoul(_, _, 0)` reads decimal, as `strtol(_, _, 10)`
      does, saturated and narrowed to 32 bits. */
  lemma StrToULAutoAsStrToL(s: string)
    requires var u := SplitSign(s).1; |u| == 0 || u[0] != '0'
    ensures StrToULAuto(s) == Scanned(NarrowULong(StrToL(s).value), StrToL(s).rest)
  {
    var (neg, u) := SplitSign(s);
    var d := LeadingDigits(u, 10);
    if |d| == 0 {
      assert ScanSigned(s, 10).None?;
    } else {
      assert ScanSigned(s, 10).Some?;
    }
  }

  /** `strtoul(_, _, 0)` reads a decimal numeral without leading zero completely. */
  lemma StrToULAutoDecimal(n: nat)
    requires 0 < n < 0x1_0000_0000
    ensures StrToULAuto(Numeral(n, 10)) == Scanned(n, "")
  {
    DecimalNumeral(n);
  }

  /** A decimal numeral worth 2^64 or more saturates: the `unsigned int` gets all ones. */
  lemma StrToULAutoSaturates(n: nat)
    requires n >= 0x1_0000_0000_0000_0000
    ensures StrToULAuto(Numeral(n, 10)) == Scanned(0xFFFF_FFFF, "")
  {
    DecimalNumeral(n);
  }

  lemma DecimalNumeral(n: nat)
    requires n > 0
    ensures StrToULAuto(Numeral(n, 10)) == Scanned(NarrowULong(n), "")
  {
    var s := Numeral(n, 10);
    NumeralLeads(n, 10);
    assert SplitSign(s) == (false, s) by {
      assert IsBaseDigit(s[0], 10);
    }
    StrToULAutoAsStrToL(s);
    StrToLNumeral(n);
  }

  /** `strtoul(_, _, 0)` reads a `0`-prefixed numeral as octal, completely. */
  lemma StrToULAutoOctal(n: nat)
    requires n < 0x1_0000_0000
    ensures StrToULAuto("0" + Numeral(n, 8)) == Scanned(n, "")
  {
    var s := "0" + Numeral(n, 8);
    OctalDigits(n);
    assert UnsignedAuto(false, s, s) == Scanned(n, "");
  }

  /** A `0` and an octal numeral: all octal digits, the second no `x`, worth the number. */
  lemma OctalDigits(n: nat)
    ensures var s := "0" + Numeral(n, 8);
      SplitSign(s) == (false, s) && s[1] != 'x' && s[1] != 'X' &&
      LeadingDigits(s, 8) == s && ValueOf(s, 8) == n && s[|s|..] == ""
  {
    var o := Numeral(n, 8);
    var s := "0" + o;
    assert SplitSign(s) == (false, s) by {
      assert s[0] == '0' && !IsSpace(s[0]);
      assert SkipSpaces(s) == s;
    }
    assert s[1] == o[0] && IsBaseDigit(o[0], 8);
    LeadingZero(o, 8);
    assert s + "" == s;
    LeadingDigitsOfDigits(s, "", 8);
    ValueOfNumeral(n, 8);
  }

  /** `strtoul(_, _, 0)` reads a `0x`-prefixed hexadecimal numeral completely. */
  lemma StrToULAutoHex(n: nat)
    requires n < 0x1_0000_0000
    ensures StrToULAuto("0x" + Numeral(n, 16)) == Scanned(n, "")
  {
    var h := Numeral(n, 16);
    var s := "0x" + h;
    assert SplitSign(s) == (false, s) by {
      assert s[0] == '0' && !IsSpace(s[0]);
      assert SkipSpaces(s) == s;
    }
    assert UnsignedAuto(false, s, s) == Scanned(n, "") by {
      assert s[0] == '0' && s[1] == 'x' && s[2] == h[0];
      assert s[2..] == h + "";
      LeadingDigitsOfDigits(h, "", 16);
      ValueOfNumeral(n, 16);
    }
  }

  /** The `%x` conversion of `sscanf` into an `unsigned int`: like `strtoul(s, _, 16)`, so a
      `0x`/`0X` prefix may precede the digits; None when no digit is read (the target is then
      left as it was). */
  function ScanHex(s: string): (r: Option<nat>)
    ensures r.Some? ==> r.value < 0x1_0000_0000
    ensures r.None? <==> LeadingDigits(HexBody(SplitSign(s).1), 16) == ""
    ensures var v: int := ValueOf(LeadingDigits(HexBody(SplitSign(s).1), 16), 16);
      r.Some? ==> r.value == NarrowULong(if SplitSign(s).0 then -v else v)
  {
    var (neg, u) := SplitSign(s);
    var d := LeadingDigits(HexBody(u), 16);
    if |d| == 0 then None
    else
      var v: int := ValueOf(d, 16);
      Some(NarrowULong(if neg then -v else v))
  }

  /** The digits of a hexadecimal numeral, past a `0x`/`0X` prefix if one leads them. */
  function HexBody(u: string): (b: string)
    ensures b == u || (|u| > 2 && b == u[2..])
  {
    if |u| > 2 && u[0] == '0' && (u[1] == 'x' || u[1] == 'X') && IsHexDigit(u[2]) then u[2..] else u
  }

  /** `%x` reads back a hexadecimal numeral written without prefix. */
  lemma ScanHexNumeral(n: nat)
    requires n < 0x1_0000_0000
    ensures ScanHex(Numeral(n, 16)) == Some(n)
  {
    HexNumeral(n);
  }

  /** `%x` stores a hexadecimal value of 2^64 or more as `ULONG_MAX` cut to 32 bits. */
  lemma ScanHexSaturates(n: nat)
    requires n >= 0x1_0000_0000_0000_0000
    ensures ScanHex(Numeral(n, 16)) == Some(0xFFFF_FFFF)
  {
    HexNumeral(n);
  }

  /** `%x` reads a hexadecimal numeral whole, its value narrowed as an `unsigned long`. */
  lemma HexNumeral(n: nat)
    ensures ScanHex(Numeral(n, 16)) == Some(NarrowULong(n))
  {
    var h := Numeral(n, 16);
    assert SplitSign(h) == (false, h) by {
      assert IsBaseDigit(h[0], 16);
    }
    assert HexBody(h) == h by {
      DigitsHaveNoPrefix(h);
    }
    assert LeadingDigits(h, 16) == h by {
      LeadingDigitsOfDigits(h, "", 16);
      assert h + "" == h;
    }
    assert ValueOf(h, 16) == n by {
      ValueOfNumeral(n, 16);
    }
  }

  lemma DigitsHaveNoPrefix(h: string)
    requires AllBaseDigits(h, 16)
    ensures HexBody(h) == h
  {
    if |h| > 2 {
      assert IsBaseDigit(h[1], 16);
    }
  }

  /** The longest prefix of `s` containing no delimiter. */
  function TakeUntil(s: string, delims: set<char>): (t: string)
    ensures t <= s
    ensures forall i :: 0 <= i < |t| ==> t[i] !in delims
    ensures |t| < |s| ==> s[|t|] in delims
  {
    if |s| > 0 && s[0] !in delims then [s[0]] + TakeUntil(s[1..], delims) else []
  }

  /** The non-empty delimiter-free pieces of `s`, in order: what successive `strtok`
      calls return, and, with white space as delimiters, what `%s` conversions read. */
  function Tokens(s: string, delims: set<char>): (ts: seq<string>)
    ensures forall k :: 0 <= k < |ts| ==> |ts[k]| > 0
    ensures forall k, i :: 0 <= k < |ts| && 0 <= i < |ts[k]| ==> ts[k][i] !in delims
    decreases |s|
  {
    if |s| == 0 then []
    else if s[0] in delims then Tokens(s[1..], delims)
    else
      var t := TakeUntil(s, delims);
      [t] + Tokens(s[|t|..], delims)
  }

  /** Splitting a delimiter, a piece and the rest yields the piece first. */
  lemma TokensOfPiece(t: string, rest: string, delims: set<char>)
    requires |t| > 0 && forall i :: 0 <= i < |t| ==> t[i] !in delims
    requires |rest| == 0 || rest[0] in delims
    ensures Tokens(t + rest, delims) == [t] + Tokens(rest, delims)
  {
    TakeUntilOfPiece(t, rest, delims);
    assert (t + rest)[|t|..] == rest;
  }

  lemma {:induction false} TakeUntilOfPiece(t: string, rest: string, delims: set<char>)
    requires forall i :: 0 <= i < |t| ==> t[i] !in delims
    requires |rest| == 0 || rest[0] in delims
    ensures TakeUntil(t + rest, delims) == t
    decreases |t|
  {
    if |t| > 0 {
      assert (t + rest)[1..] == t[1..] + rest;
      TakeUntilOfPiece(t[1..], rest, delims);
    } else {
      assert t + rest == rest;
    }
  }
}

=== FILE: duration.dfy ===
/**
  `parse_time` (time.c): the recording duration argument. Three syntaxes: `-` for
  indefinite, `H:M[:S]` read with `sscanf`, and `NhNmNs` read field by field with
  `atoi`. The C `int` arithmetic is unbounded here.
*/
module Duration {
  import opened Wrappers
  import opened CText

  /** What parse_time reports: success with the value it stores in `*recsec`, or
      failure (status 1), which leaves `*recsec` alone. */
  datatype TimeResult = Parsed(recsec: int) | Unparsed

  /** The integers a `sscanf` format of `k` `%d` conversions separated by `:` assigns:
      each conversion skips white space and needs a digit; a separator must be the very
      next character. */
  function ColonFields(s: string, k: nat): (fs: seq<int>)
    ensures |fs| <= k
    decreases k
  {
    if k == 0 then []
    else
      match ScanSigned(s, 10)
      case None => []
      case Some(sc) =>
        if k > 1 && |sc.rest| > 0 && sc.rest[0] == ':' then [sc.value] + ColonFields(sc.rest[1..], k - 1)
        else [sc.value]
  }

  /** Asking for fewer conversions reads a prefix of the same fields. */
  lemma {:induction false} ColonFieldsPrefix(s: string, k: nat)
    requires k > 0
    ensures ColonFields(s, k) <= ColonFields(s, k + 1)
    decreases k
  {
    match ScanSigned(s, 10)
    case None =>
    case Some(sc) =>
      if k > 1 && |sc.rest| > 0 && sc.rest[0] == ':' {
        ColonFieldsPrefix(sc.rest[1..], k - 1);
      }
  }

  /** The text after its leading run of non-digits. */
  function SkipNonDigits(s: string): (t: string)
    ensures |t| <= |s| && t == s[|s| - |t|..]
    ensures |t| == 0 || IsDigit(t[0])
  {
    if |s| > 0 && !IsDigit(s[0]) then SkipNonDigits(s[1..]) else s
  }

  /** `strchr(p, upper) || strchr(p, lower)`: the first `upper` if there is one, else the first `lower`. */
  function Marker(p: string, upper: char, lower: char): (r: Option<nat>)
    ensures r.Some? ==> r.value < |p| && (p[r.value] == upper || p[r.value] == lower)
    ensures r.None? <==> upper !in p && lower !in p
    ensures upper in p ==> r == Find(p, upper)
    ensures upper !in p ==> r == Find(p, lower)
  {
    match Find(p, upper)
    case Some(i) => Some(i)
    case None => Find(p, lower)
  }

  /** One unit field of the HMS syntax: the number before the unit letter, and the text
      from the next digit after it; a missing unit letter contributes 0 and consumes nothing. */
  function UnitField(p: string, upper: char, lower: char): (int, string)
  {
    match Marker(p, upper, lower)
    case None => (0, p)
    case Some(i) => (Atoi(p[..i]), SkipNonDigits(p[i + 1..]))
  }

  /** The HMS branch: hours, minutes and seconds are added to the incoming `recsec`, and a
      leading `-` negates the total. */
  function Hms(s: string, recsec: int): int
  {
    var neg := |s| > 0 && s[0] == '-';
    var p := SkipNonDigits(if neg then s[1..] else s);
    var (h, p1) := UnitField(p, 'H', 'h');
    var (m, p2) := UnitField(p1, 'M', 'm');
    var total := recsec + h * 3600 + m * 60 + Atoi(p2);
    if neg then -total else total
  }

  /** parse_time(s, &recsec). */
  function ParseTime(s: string, recsec: int): (r: TimeResult)
    ensures s == "-" ==> r == Parsed(-1)
    ensures s != "-" && ':' !in s ==> r.Parsed?
    ensures s != "-" && ':' in s ==> (r.Parsed? <==> |ColonFields(s, 3)| >= 2)
  {
    if s == "-" then Parsed(-1)
    else if ':' in s then
      var f := ColonFields(s, 3);
      if |f| == 3 then Parsed(f[0] * 3600 + f[1] * 60 + f[2])
      else
        var g := ColonFields(s, 2);
        ColonFieldsPrefix(s, 2);
        if |g| == 2 then Parsed(g[0] * 3600 + g[1] * 60)
        else Unparsed
    else Parsed(Hms(s, recsec))
  }

  /** A decimal numeral holds no character other than digits. */
  lemma NotInNumeral(n: nat, c: char)
    requires !IsDigit(c)
    ensures c !in Numeral(n, 10)
  {
    var d := Numeral(n, 10);
    forall i | 0 <= i < |d| ensures d[i] != c {
      assert IsBaseDigit(d[i], 10);
    }
  }

  /** A numeral followed by a colon is one field, and scanning goes on after the colon. */
  lemma ColonFieldsStep(n: nat, more: string, k: nat)
    requires k > 1
    ensures ColonFields(Numeral(n, 10) + (":" + more), k) == [n] + ColonFields(more, k - 1)
  {
    ScanNumeral(n, ":" + more, 10);
    assert (":" + more)[1..] == more;
  }

  /** A numeral alone is one field. */
  lemma ColonFieldsLast(n: nat, k: nat)
    requires k > 0
    ensures ColonFields(Numeral(n, 10), k) == [n]
  {
    ScanNumeral(n, "", 10);
    assert Numeral(n, 10) + "" == Numeral(n, 10);
  }

  /** The `H:M:S` spelling of a duration. */
  function ClockText(h: nat, m: nat, sec: nat): string {
    Numeral(h, 10) + (":" + (Numeral(m, 10) + (":" + Numeral(sec, 10))))
  }

  /** The `H:M` spelling of a duration. */
  function ShortClockText(h: nat, m: nat): string {
    Numeral(h, 10) + (":" + Numeral(m, 10))
  }

  /** The `NhNmNs` spelling of a duration. */
  function HmsText(h: nat, m: nat, sec: nat): string {
    Numeral(h, 10) + (['h'] + (Numeral(m, 10) + (['m'] + (Numeral(sec, 10) + ['s']))))
  }

  /** The colon branch with three fields read. */
  lemma ParseThreeFields(s: string, recsec: int, h: int, m: int, sec: int)
    requires s != "-" && ':' in s && ColonFields(s, 3) == [h, m, sec]
    ensures ParseTime(s, recsec) == Parsed(h * 3600 + m * 60 + sec)
  {
  }

  /** The colon branch with exactly two fields read. */
  lemma ParseTwoFields(s: string, recsec: int, h: int, m: int)
    requires s != "-" && ':' in s && ColonFields(s, 3) == [h, m] && ColonFields(s, 2) == [h, m]
    ensures ParseTime(s, recsec) == Parsed(h * 3600 + m * 60)
  {
  }

  /** `H:M:S` is hours, minutes and seconds. */
  lemma ClockHms(h: nat, m: nat, sec: nat, recsec: int)
    ensures ParseTime(ClockText(h, m, sec), recsec) == Parsed(h * 3600 + m * 60 + sec)
  {
    var s := ClockText(h, m, sec);
    ClockFields(h, m, sec);
    assert s[|Numeral(h, 10)|] == ':';
    ParseThreeFields(s, recsec, h, m, sec);
  }

  lemma ClockFields(h: nat, m: nat, sec: nat)
    ensures ColonFields(ClockText(h, m, sec), 3) == [h, m, sec]
  {
    var b, c := Numeral(m, 10), Numeral(sec, 10);
    assert ColonFields(ClockText(h, m, sec), 3) == [h] + ColonFields(b + (":" + c), 2) by {
      ColonFieldsStep(h, b + (":" + c), 3);
    }
    assert ColonFields(b + (":" + c), 2) == [m] + ColonFields(c, 1) by {
      ColonFieldsStep(m, c, 2);
    }
    assert ColonFields(c, 1) == [sec] by {
      ColonFieldsLast(sec, 1);
    }
  }

  /** `H:M` is hours and minutes: the second field never means seconds. */
  lemma ClockHm(h: nat, m: nat, recsec: int)
    ensures ParseTime(ShortClockText(h, m), recsec) == Parsed(h * 3600 + m * 60)
  {
    var a, b := Numeral(h, 10), Numeral(m, 10);
    var s := ShortClockText(h, m);
    ColonFieldsStep(h, b, 3);
    ColonFieldsLast(m, 2);
    ColonFieldsStep(h, b, 2);
    ColonFieldsLast(m, 1);
    assert s[|a|] == ':';
    ParseTwoFields(s, recsec, h, m);
  }

  /** Finding a unit letter right after a numeral, in a text that has no other
      letter of that unit, reads the numeral and moves past the letter. */
  lemma UnitAfterNumeral(n: nat, upper: char, lower: char, unit: char, rest: string)
    requires unit == upper || unit == lower
    requires !IsDigit(upper) && !IsDigit(lower)
    requires upper !in rest && lower !in rest
    ensures UnitField(Numeral(n, 10) + ([unit] + rest), upper, lower) == (n, SkipNonDigits(rest))
  {
    var d := Numeral(n, 10);
    var p := d + ([unit] + rest);
    NotInNumeral(n, upper);
    NotInNumeral(n, lower);
    assert p[..|d|] == d;
    assert p[|d|] == unit;
    assert p[|d| + 1..] == rest;
    if unit == upper {
      FindAt(p, upper, |d|);
    } else {
      assert upper !in p by {
        assert p == d + [unit] + rest;
      }
      FindAt(p, lower, |d|);
    }
    assert Marker(p, upper, lower) == Some(|d|);
    AtoiNumeral(n, "");
    assert d + "" == d;
  }

  /** The HMS branch of parse_time. */
  lemma ParseHmsBranch(s: string, recsec: int)
    requires s != "-" && ':' !in s
    ensures ParseTime(s, recsec) == Parsed(Hms(s, recsec))
  {
  }

  /** Hms on a text that starts with a digit, from its two unit fields. */
  lemma HmsOfFields(s: string, recsec: int, h: int, p1: string, m: int, p2: string)
    requires |s| > 0 && IsDigit(s[0])
    requires UnitField(s, 'H', 'h') == (h, p1) && UnitField(p1, 'M', 'm') == (m, p2)
    ensures Hms(s, recsec) == recsec + h * 3600 + m * 60 + Atoi(p2)
  {
  }

  /** The `NmNs` tail of an `NhNmNs` spelling. */
  function MinSecText(m: nat, sec: nat): string {
    Numeral(m, 10) + (['m'] + (Numeral(sec, 10) + ['s']))
  }

  /** The hours field of `NhNmNs` reads the hours and leaves the `NmNs` tail. */
  lemma HoursField(h: nat, m: nat, sec: nat)
    ensures HmsText(h, m, sec) == Numeral(h, 10) + (['h'] + MinSecText(m, sec))
    ensures UnitField(HmsText(h, m, sec), 'H', 'h') == (h, MinSecText(m, sec))
  {
    var rest1 := MinSecText(m, sec);
    NotInNumeral(m, 'H');
    NotInNumeral(m, 'h');
    NotInNumeral(sec, 'H');
    NotInNumeral(sec, 'h');
    assert 'H' !in rest1 && 'h' !in rest1;
    UnitAfterNumeral(h, 'H', 'h', 'h', rest1);
    assert rest1[0] == Numeral(m, 10)[0];
    assert SkipNonDigits(rest1) == rest1;
  }

  /** The minutes field of `NmNs` reads the minutes and leaves `Ns`. */
  lemma MinutesField(m: nat, sec: nat)
    ensures UnitField(MinSecText(m, sec), 'M', 'm') == (m, Numeral(sec, 10) + ['s'])
  {
    var rest2 := Numeral(sec, 10) + ['s'];
    NotInNumeral(sec, 'M');
    NotInNumeral(sec, 'm');
    assert 'M' !in rest2 && 'm' !in rest2;
    UnitAfterNumeral(m, 'M', 'm', 'm', rest2);
    assert rest2[0] == Numeral(sec, 10)[0];
    assert SkipNonDigits(rest2) == rest2;
  }

  /** An `NhNmNs` spelling has no colon and starts with a digit. */
  lemma HmsTextShape(h: nat, m: nat, sec: nat)
    ensures ':' !in HmsText(h, m, sec) && HmsText(h, m, sec) != "-"
    ensures |HmsText(h, m, sec)| > 0 && IsDigit(HmsText(h, m, sec)[0])
  {
    var s := HmsText(h, m, sec);
    NotInNumeral(h, ':');
    NotInNumeral(m, ':');
    NotInNumeral(sec, ':');
    assert s[0] == Numeral(h, 10)[0];
  }

  /** The HMS branch on a text starting with a digit, from its three fields. */
  lemma ParseHmsFields(s: string, recsec: int, h: int, p1: string, m: int, p2: string, sec: int)
    requires s != "-" && ':' !in s && |s| > 0 && IsDigit(s[0])
    requires UnitField(s, 'H', 'h') == (h, p1) && UnitField(p1, 'M', 'm') == (m, p2) && Atoi(p2) == sec
    ensures ParseTime(s, recsec) == Parsed(recsec + h * 3600 + m * 60 + sec)
  {
    HmsOfFields(s, recsec, h, p1, m, p2);
    ParseHmsBranch(s, recsec);
  }

  /** `NhNmNs` is hours, minutes and seconds added to the incoming value. */
  lemma HmsForm(h: nat, m: nat, sec: nat, recsec: int)
    ensures ParseTime(HmsText(h, m, sec), recsec) == Parsed(recsec + h * 3600 + m * 60 + sec)
  {
    HmsTextShape(h, m, sec);
    HoursField(h, m, sec);
    MinutesField(m, sec);
    AtoiNumeral(sec, ['s']);
    ParseHmsFields(HmsText(h, m, sec), recsec, h, MinSecText(m, sec), m, Numeral(sec, 10) + ['s'], sec);
  }

  /** The worked example of the usage text: `1h30m10s` is 5410 seconds. */
  lemma HmsExample()
    ensures ParseTime("1h30m10s", 0) == Parsed(5410)
  {
    HmsForm(1, 30, 10, 0);
    ExampleText();
  }

  lemma ExampleText()
    ensures HmsText(1, 30, 10) == "1h30m10s"
  {
    assert Numeral(1, 10) == "1";
    assert Numeral(30, 10) == "30";
    assert Numeral(10, 10) == "10";
  }

  /** The HMS branch adds to whatever the caller left in `*recsec`. */
  lemma HmsAccumulates(s: string, recsec: int)
    requires s != "-" && ':' !in s
    requires |s| == 0 || s[0] != '-'
    ensures ParseTime(s, recsec) == Parsed(recsec + ParseTime(s, 0).recsec)
  {
  }

  /** A leading `-` on an HMS duration negates the whole total, incoming value included. */
  lemma HmsNegated(s: string, recsec: int)
    requires |s| > 0 && s[0] != '-' && ':' !in s
    ensures ParseTime("-" + s, recsec) == Parsed(-ParseTime(s, recsec).recsec)
  {
    var t := "-" + s;
    assert t[1..] == s;
    assert t != "-";
    assert ':' !in t;
  }
}

=== FILE: legacy.dfy ===
/**
  The older single-file recorder and HTTP server (recdvbsrv.c): reading the request
  line from a client, splitting the requested path into channel and service list,
  the `--lnb` and `--tsid` option mappings, the choice of output from the positional
  arguments, the device read loop and its stop rule, and the recording-time update
  received over the message queue. Sockets, the clock, `malloc` and the other
  threads' flag are inputs.
*/
module LegacyServer {
  import opened Wrappers
  import opened CText
  import opened BoundedQueue

  /** The capacity of the request buffer less its terminating NUL. */
  const LineMax := 255

  /** One read(2) of one byte from the client socket. */
  datatype ReadStep = Got(c: char) | Eof | ReadFailed

  /** What read_line leaves in the buffer, or the process exiting with status 1 after a
      failed read. */
  datatype LineResult = Line(text: string) | ExitOnError

  /** The byte of the i-th read; reads past the supplied ones see the end of the stream. */
  function StepAt(input: seq<ReadStep>, i: nat): ReadStep {
    if i < |input| then input[i] else Eof
  }

  /** read_line with `budget` bytes of room left: the bytes read, up to and including the
      first newline, stopping early at the end of the stream. */
  function ReadLine(input: seq<ReadStep>, budget: nat): (r: LineResult)
    ensures r.Line? ==> |r.text| <= budget
    decreases budget
  {
    if budget == 0 then Line("")
    else match StepAt(input, 0)
      case ReadFailed => ExitOnError
      case Eof => Line("")
      case Got(c) =>
        if c == '\n' then Line("\n")
        else
          var tail := Tail(input);
          match ReadLine(tail, budget - 1)
          case ExitOnError => ExitOnError
          case Line(t) => Line([c] + t)
  }

  /** A line read is what the reads delivered, with no newline before its end; it stops
      short of the buffer only at a newline or the end of the stream. */
  lemma {:induction false} ReadLineReads(input: seq<ReadStep>, budget: nat)
    requires ReadLine(input, budget).Line?
    ensures var t := ReadLine(input, budget).text;
      && (forall i :: 0 <= i < |t| ==> StepAt(input, i) == Got(t[i]))
      && (forall i :: 0 <= i < |t| - 1 ==> t[i] != '\n')
      && (|t| < budget && (|t| == 0 || t[|t| - 1] != '\n') ==> StepAt(input, |t|) == Eof)
    decreases budget
  {
    if budget > 0 && StepAt(input, 0).Got? && StepAt(input, 0).c != '\n' {
      var c := StepAt(input, 0).c;
      var tail := Tail(input);
      ReadLineReads(tail, budget - 1);
      var t := ReadLine(tail, budget - 1).text;
      assert ReadLine(input, budget).text == [c] + t;
      TailShift(input);
      forall i | 1 <= i <= |t|
        ensures StepAt(input, i) == StepAt(tail, i - 1)
      {
      }
    }
  }

  /** The reads after the first. */
  function Tail(input: seq<ReadStep>): seq<ReadStep> {
    if |input| > 0 then input[1..] else []
  }

  lemma TailShift(input: seq<ReadStep>)
    ensures forall i: nat :: StepAt(Tail(input), i) == StepAt(input, i + 1)
  {
  }

  /** The first `i` reads all delivered a byte other than a newline. */
  predicate NoLineBefore(input: seq<ReadStep>, i: nat) {
    forall j :: 0 <= j < i ==> StepAt(input, j).Got? && StepAt(input, j).c != '\n'
  }

  /** A failed read inside the buffer, before any newline, ends the process. */
  lemma {:induction false} FailedReadExits(input: seq<ReadStep>, budget: nat, i: nat)
    requires i < budget && StepAt(input, i) == ReadFailed && NoLineBefore(input, i)
    ensures ReadLine(input, budget) == ExitOnError
    decreases i
  {
    if i > 0 {
      assert StepAt(input, 0).Got? && StepAt(input, 0).c != '\n';
      var tail := Tail(input);
      TailShift(input);
      assert NoLineBefore(tail, i - 1) by {
        forall j | 0 <= j < i - 1
          ensures StepAt(tail, j).Got? && StepAt(tail, j).c != '\n'
        {
          assert StepAt(input, j + 1) == StepAt(tail, j);
        }
      }
      assert StepAt(tail, i - 1) == StepAt(input, i);
      FailedReadExits(tail, budget - 1, i - 1);
    }
  }

  /** The process exits only for a failed read inside the buffer, before any newline. */
  lemma {:induction false} ExitHasCause(input: seq<ReadStep>, budget: nat)
    requires ReadLine(input, budget).ExitOnError?
    ensures exists i :: 0 <= i < budget && StepAt(input, i) == ReadFailed && NoLineBefore(input, i)
    decreases budget
  {
    if StepAt(input, 0) == ReadFailed {
      assert NoLineBefore(input, 0);
    } else {
      var tail := Tail(input);
      TailShift(input);
      ExitHasCause(tail, budget - 1);
      var i :| 0 <= i < budget - 1 && StepAt(tail, i) == ReadFailed && NoLineBefore(tail, i);
      assert StepAt(input, i + 1) == ReadFailed;
      assert NoLineBefore(input, i + 1) by {
        forall j | 0 <= j < i + 1
          ensures StepAt(input, j).Got? && StepAt(input, j).c != '\n'
        {
          if j > 0 {
            assert StepAt(input, j) == StepAt(tail, j - 1);
          }
        }
      }
    }
  }

  /** read_line as the C loop runs it, one byte at a time into the buffer. */
  method ReadLineLoop(input: seq<ReadStep>) returns (r: LineResult)
    ensures r == ReadLine(input, LineMax)
  {
    var text := "";
    var i := 0;
    while i < LineMax
      invariant 0 <= i <= LineMax && |text| == i
      invariant ReadSoFar(input, text)
      decreases LineMax - i
    {
      var step := StepAt(input, i);
      if !step.Got? || step.c == '\n' {
        LineEnds(input, LineMax, text);
        return if step.ReadFailed? then ExitOnError else if step.Eof? then Line(text) else Line(text + "\n");
      }
      ReadSoFarGot(input, text, step.c);
      text := text + [step.c];
      i := i + 1;
    }
    LineFull(input, text);
    r := Line(text);
  }

  /** The first reads delivered the bytes of `text`, none of them a newline. */
  predicate ReadSoFar(input: seq<ReadStep>, text: string) {
    forall j :: 0 <= j < |text| ==> StepAt(input, j) == Got(text[j]) && text[j] != '\n'
  }

  lemma ReadSoFarGot(input: seq<ReadStep>, text: string, c: char)
    requires ReadSoFar(input, text) && StepAt(input, |text|) == Got(c) && c != '\n'
    ensures ReadSoFar(input, text + [c])
  {
  }

  /** After reads of bytes other than a newline, read_line is those bytes in front of
      what the remaining reads give with the room left. */
  lemma {:induction false} PrefixRead(input: seq<ReadStep>, budget: nat, text: string)
    requires |text| <= budget && ReadSoFar(input, text)
    ensures ReadLine(input, budget) == Prepend(text, ReadLine(Drop(input, |text|), budget - |text|))
    decreases |text|
  {
    if |text| == 0 {
      PrefixReadEmpty(input, budget);
    } else {
      var n := |text|;
      ReadSoFarTail(input, text);
      PrefixRead(Tail(input), budget - 1, text[1..]);
      DropTail(input, n);
      assert StepAt(input, 0) == Got(text[0]);
      PrefixReadStep(input, budget, text, ReadLine(Drop(input, n), budget - n));
    }
  }

  lemma PrefixReadEmpty(input: seq<ReadStep>, budget: nat)
    ensures ReadLine(input, budget) == Prepend("", ReadLine(Drop(input, 0), budget))
  {
    assert Drop(input, 0) == input;
    match ReadLine(input, budget)
    case ExitOnError =>
    case Line(t) => assert "" + t == t;
  }

  /** One byte other than a newline, in front of what the later reads give. */
  lemma PrefixReadStep(input: seq<ReadStep>, budget: nat, text: string, rest: LineResult)
    requires 0 < |text| <= budget && StepAt(input, 0) == Got(text[0]) && text[0] != '\n'
    requires ReadLine(Tail(input), budget - 1) == Prepend(text[1..], rest)
    ensures ReadLine(input, budget) == Prepend(text, rest)
  {
    ReadLineStep(input, budget, text[0]);
    PrependCons(text[0], text[1..], rest);
    assert [text[0]] + text[1..] == text;
  }

  /** Past the first byte read, the rest of the bytes read so far come from the later reads. */
  lemma ReadSoFarTail(input: seq<ReadStep>, text: string)
    requires |text| > 0 && ReadSoFar(input, text)
    ensures ReadSoFar(Tail(input), text[1..])
  {
    var tail := Tail(input);
    TailShift(input);
    forall j | 0 <= j < |text| - 1
      ensures StepAt(tail, j) == Got(text[1..][j]) && text[1..][j] != '\n'
    {
      assert StepAt(input, j + 1) == StepAt(tail, j);
    }
  }

  lemma DropTail(input: seq<ReadStep>, n: nat)
    requires n > 0
    ensures Drop(Tail(input), n - 1) == Drop(input, n)
  {
    if |input| > 0 {
      if n <= |input| {
        assert input[1..][n - 1..] == input[n..];
      }
    }
  }

  /** A byte other than a newline goes in front of what the following reads give. */
  lemma ReadLineStep(input: seq<ReadStep>, budget: nat, c: char)
    requires budget > 0 && StepAt(input, 0) == Got(c) && c != '\n'
    ensures ReadLine(input, budget) == Prepend([c], ReadLine(Tail(input), budget - 1))
  {
  }

  lemma PrependCons(c: char, text: string, r: LineResult)
    ensures Prepend([c] + text, r) == Prepend([c], Prepend(text, r))
  {
    if r.Line? {
      assert ([c] + text) + r.text == [c] + (text + r.text);
    }
  }

  /** read_line ends at a failed read, the end of the stream or a newline. */
  lemma LineEnds(input: seq<ReadStep>, budget: nat, text: string)
    requires |text| < budget && ReadSoFar(input, text)
    ensures StepAt(input, |text|) == ReadFailed ==> ReadLine(input, budget) == ExitOnError
    ensures StepAt(input, |text|) == Eof ==> ReadLine(input, budget) == Line(text)
    ensures StepAt(input, |text|) == Got('\n') ==> ReadLine(input, budget) == Line(text + "\n")
  {
    PrefixRead(input, budget, text);
    assert StepAt(Drop(input, |text|), 0) == StepAt(input, |text|);
    assert text + "" == text;
  }

  /** A full buffer ends read_line. */
  lemma LineFull(input: seq<ReadStep>, text: string)
    requires |text| == LineMax && ReadSoFar(input, text)
    ensures ReadLine(input, LineMax) == Line(text)
  {
    PrefixRead(input, LineMax, text);
    assert text + "" == text;
  }

  /** The reads left after the first `i`. */
  function Drop(input: seq<ReadStep>, i: nat): seq<ReadStep> {
    if i <= |input| then input[i..] else []
  }

  /** A line result with `text` in front of what it read. */
  function Prepend(text: string, r: LineResult): LineResult {
    match r
    case ExitOnError => ExitOnError
    case Line(t) => Line(text + t)
  }

  /** A line without a newline, short enough for the buffer, followed by a newline is read
      whole, newline included, whatever follows. */
  lemma ReadsWholeLine(line: string, rest: seq<ReadStep>)
    requires |line| < LineMax && '\n' !in line
    ensures ReadLine(Bytes(line + "\n") + rest, LineMax) == Line(line + "\n")
  {
    var text := line + "\n";
    ReadsLine(Bytes(text) + rest, LineMax, text);
  }

  /** The read steps delivering the characters of `s`. */
  function Bytes(s: string): (r: seq<ReadStep>)
    ensures |r| == |s| && forall i :: 0 <= i < |s| ==> r[i] == Got(s[i])
  {
    seq(|s|, i requires 0 <= i < |s| => Got(s[i]))
  }

  /** Reads that deliver a line, newline last and nowhere before, that fits the buffer are
      read back as that line. */
  lemma {:induction false} ReadsLine(input: seq<ReadStep>, budget: nat, text: string)
    requires 0 < |text| <= budget && text[|text| - 1] == '\n'
    requires forall i :: 0 <= i < |text| - 1 ==> text[i] != '\n'
    requires forall i :: 0 <= i < |text| ==> StepAt(input, i) == Got(text[i])
    ensures ReadLine(input, budget) == Line(text)
    decreases |text|
  {
    if |text| > 1 {
      var tail := Tail(input);
      TailShift(input);
      forall i | 0 <= i < |text| - 1
        ensures StepAt(tail, i) == Got(text[1..][i])
      {
        assert StepAt(input, i + 1) == StepAt(tail, i);
      }
      ReadsLine(tail, budget - 1, text[1..]);
      ReadLineCons(input, budget, text[0], text[1..]);
      assert [text[0]] + text[1..] == text;
    }
  }

  /** A byte other than a newline goes in front of what the following reads give. */
  lemma ReadLineCons(input: seq<ReadStep>, budget: nat, c: char, t: string)
    requires budget > 0 && StepAt(input, 0) == Got(c) && c != '\n'
    requires ReadLine(Tail(input), budget - 1) == Line(t)
    ensures ReadLine(input, budget) == Line([c] + t)
  {
  }

  /** What the server makes of a request: the channel (the first `/`-separated piece of the
      request's second word), the service list (the second piece), and whether the TS
      splitter runs. */
  datatype Request = Request(channel: Option<string>, sidList: Option<string>, useSplitter: bool)

  /** The request-line split of the HTTP branch of `main`: `%s%s%s`, then `strtok` on `/`.
      A line with fewer than two words leaves the second word unset in the C code; here it
      yields no channel. */
  function SplitRequest(line: string): (r: Request)
    ensures r.useSplitter <==> r.sidList.Some? && r.sidList.value != "all"
    ensures r.sidList.Some? ==> r.channel.Some?
    ensures r.channel.Some? ==> |r.channel.value| > 0 && '/' !in r.channel.value
    ensures r.sidList.Some? ==> |r.sidList.value| > 0 && '/' !in r.sidList.value
  {
    var words := Tokens(line, Whitespace);
    if |words| < 2 then Request(None, None, false)
    else
      var pieces := Tokens(words[1], {'/'});
      var channel := if |pieces| > 0 then Some(pieces[0]) else None;
      var sid := if |pieces| > 1 then Some(pieces[1]) else None;
      Request(channel, sid, sid.Some? && sid.value != "all")
  }

  /** A word: non-empty, with no white space and no `/`. */
  predicate Word(s: string) {
    |s| > 0 && forall i :: 0 <= i < |s| ==> s[i] !in Whitespace && s[i] != '/'
  }

  /** A request for `/channel/sids` yields that channel and service list. */
  lemma RequestRoundTrip(verb: string, channel: string, sids: string, version: string)
    requires Word(verb) && Word(channel) && Word(sids) && Word(version)
    ensures SplitRequest(verb + " /" + channel + "/" + sids + " " + version)
         == Request(Some(channel), Some(sids), sids != "all")
  {
    var path := "/" + channel + "/" + sids;
    SecondWord(verb, path, version);
    assert verb + " " + path + " " + version == verb + " /" + channel + "/" + sids + " " + version;
    PathPieces(channel, sids);
  }

  /** A request for `/channel` alone yields the channel, no service list and no splitter. */
  lemma RequestWithoutSids(verb: string, channel: string, version: string)
    requires Word(verb) && Word(channel) && Word(version)
    ensures SplitRequest(verb + " /" + channel + " " + version) == Request(Some(channel), None, false)
  {
    var path := "/" + channel;
    SecondWord(verb, path, version);
    assert verb + " " + path + " " + version == verb + " /" + channel + " " + version;
    var slash: set<char> := {'/'};
    assert path[0] in slash && path[1..] == channel;
    TokensOfPiece(channel, "", slash);
    assert channel + "" == channel;
  }

  lemma SecondWord(verb: string, path: string, version: string)
    requires Word(verb) && Word(version)
    requires |path| > 0 && forall i :: 0 <= i < |path| ==> path[i] !in Whitespace
    ensures var words := Tokens(verb + " " + path + " " + version, Whitespace);
      |words| >= 2 && words[1] == path
  {
    var rest := " " + version;
    assert rest[0] in Whitespace;
    SecondToken(verb, ' ', path, rest, Whitespace);
    SpacedWords(verb, path, version);
  }

  lemma SpacedWords(verb: string, path: string, version: string)
    ensures verb + " " + path + " " + version == verb + ([' '] + (path + (" " + version)))
  {
  }

  lemma TokensSkip(s: string, delims: set<char>)
    requires |s| > 0 && s[0] in delims
    ensures Tokens(s, delims) == Tokens(s[1..], delims)
  {
  }

  /** A delimiter, then a piece, then the rest: the piece is the first token. */
  lemma SkipThenPiece(sep: char, b: string, rest: string, delims: set<char>)
    requires |b| > 0 && forall i :: 0 <= i < |b| ==> b[i] !in delims
    requires sep in delims && (|rest| == 0 || rest[0] in delims)
    ensures Tokens([sep] + (b + rest), delims) == [b] + Tokens(rest, delims)
  {
    var t := [sep] + (b + rest);
    assert Tokens(t, delims) == Tokens(b + rest, delims) by {
      TokensSkip(t, delims);
      assert t[1..] == b + rest;
    }
    TokensOfPiece(b, rest, delims);
  }

  /** Two pieces separated by one delimiter are the first two tokens. */
  lemma SecondToken(a: string, sep: char, b: string, rest: string, delims: set<char>)
    requires |a| > 0 && forall i :: 0 <= i < |a| ==> a[i] !in delims
    requires |b| > 0 && forall i :: 0 <= i < |b| ==> b[i] !in delims
    requires sep in delims && (|rest| == 0 || rest[0] in delims)
    ensures Tokens(a + ([sep] + (b + rest)), delims) == [a, b] + Tokens(rest, delims)
  {
    var t := [sep] + (b + rest);
    TokensOfPiece(a, t, delims);
    SkipThenPiece(sep, b, rest, delims);
    PairPrefix(a, b, Tokens(rest, delims));
  }

  lemma PairPrefix<T>(a: T, b: T, tail: seq<T>)
    ensures [a] + ([b] + tail) == [a, b] + tail
  {
  }

  lemma PathPieces(channel: string, sids: string)
    requires Word(channel) && Word(sids)
    ensures Tokens("/" + channel + "/" + sids, {'/'}) == [channel, sids]
  {
    var slash: set<char> := {'/'};
    var path := "/" + channel + "/" + sids;
    assert path[0] in slash && path[1..] == channel + ("/" + sids);
    TokensOfPiece(channel, "/" + sids, slash);
    var tail := "/" + sids;
    assert tail[0] in slash && tail[1..] == sids + "";
    TokensOfPiece(sids, "", slash);
  }

  /** The voltage each `--lnb` index selects. */
  const Voltages: seq<int> := [0, 11, 15]

  /** `--lnb`: 11 selects index 1, 15 index 2, anything else (unparsable text included) 0. */
  function LnbIndex(arg: string): (i: nat)
    ensures i < |Voltages|
    ensures Atoi(arg) in Voltages ==> Voltages[i] == Atoi(arg)
    ensures Atoi(arg) !in Voltages ==> i == 0
  {
    VoltageIndex(Atoi(arg))
  }

  /** The index of a voltage in `Voltages`, 0 for any other number. */
  function VoltageIndex(a: int): (i: nat)
    ensures i < |Voltages|
    ensures a in Voltages ==> Voltages[i] == a
    ensures a !in Voltages ==> i == 0
  {
    if a == 11 then 1 else if a == 15 then 2 else 0
  }

  /** A voltage written as a number selects that voltage; any other number selects 0 V. */
  lemma LnbVoltage(v: nat)
    ensures v in Voltages ==> Voltages[LnbIndex(Numeral(v, 10))] == v
    ensures v !in Voltages ==> LnbIndex(Numeral(v, 10)) == 0
  {
    AtoiNumeral(v, "");
    assert Numeral(v, 10) + "" == Numeral(v, 10);
  }

  /** `--tsid`: `atoi`, stored in an `unsigned int`; when the text is longer than two
      characters and starts `0x` or `0X`, the rest is read again with `%x`, which keeps the
      `atoi` value when it finds no digit. */
  function TsidOption(arg: string): (t: nat)
    ensures t < 0x1_0000_0000
    ensures !HexPrefixed(arg) ==> t == Wrap32(Atoi(arg))
    ensures HexPrefixed(arg) && ScanHex(arg[2..]).Some? ==> t == ScanHex(arg[2..]).value
    ensures HexPrefixed(arg) && ScanHex(arg[2..]).None? ==> t == Wrap32(Atoi(arg))
  {
    var t := Wrap32(Atoi(arg));
    if HexPrefixed(arg) then ScanHex(arg[2..]).GetOr(t) else t
  }

  predicate HexPrefixed(arg: string) {
    |arg| > 2 && arg[0] == '0' && (arg[1] == 'x' || arg[1] == 'X')
  }

  /** A tsid written in hexadecimal with a `0x` prefix reads back. */
  lemma TsidHexRoundTrip(n: nat)
    requires n < 0x1_0000_0000
    ensures TsidOption("0x" + Numeral(n, 16)) == n
  {
    var h := "0x" + Numeral(n, 16);
    assert HexPrefixed(h) && h[2..] == Numeral(n, 16);
    ScanHexNumeral(n);
  }

  /** A `0x` prefix with no hexadecimal digit after it leaves the `atoi` value, which stops
      at the `x`: the tsid is 0. */
  lemma TsidHexWithoutDigits(arg: string)
    requires HexPrefixed(arg) && ScanHex(arg[2..]).None?
    ensures TsidOption(arg) == 0
  {
    AtoiStopsAtX(arg);
  }

  /** `atoi` of a `0x`-prefixed text reads only the `0`. */
  lemma AtoiStopsAtX(arg: string)
    requires HexPrefixed(arg)
    ensures Atoi(arg) == 0
  {
    assert Numeral(0, 10) + arg[1..] == arg;
    AtoiNumeral(0, arg[1..]);
  }

  /** A tsid written in decimal reads back. */
  lemma TsidDecimalRoundTrip(n: nat)
    requires n < 0x1_0000_0000
    ensures TsidOption(Numeral(n, 10)) == n
  {
    var d := Numeral(n, 10);
    assert !HexPrefixed(d) by {
      if |d| > 2 {
        assert IsBaseDigit(d[1], 10);
      }
    }
    AtoiNumeral(n, "");
    assert d + "" == d;
  }

  /** Where the recording goes, from the positional arguments outside HTTP mode. */
  datatype Output = Refused | Fileless | Stdout | File(path: string)

  /** The positional arguments that ask for an output: a channel and a duration, then
      the destination when there is a file or standard output. */
  function ArgsFor(o: Output, channel: string, duration: string): (args: seq<string>)
    requires o.File? ==> o.path != "-"
  {
    match o
    case Refused => [channel]
    case Fileless => [channel, duration]
    case Stdout => [channel, duration, "-"]
    case File(path) => [channel, duration, path]
  }

  /** Every output choice is reached by its own arguments, with UDP on exactly for the
      fileless recording. */
  lemma OutputRoundTrip(o: Output, channel: string, duration: string)
    requires o.File? ==> o.path != "-"
    ensures OutputOf(ArgsFor(o, channel, duration), o.Fileless?) == o
  {
  }

  /** Fewer than three positionals is an error, except exactly two with UDP, which records
      without an output file (`wfd == -1`); a destination of `-` is standard output. */
  function OutputOf(positionals: seq<string>, useUdp: bool): (o: Output)
    ensures o.Refused? <==> |positionals| < 3 && !(|positionals| == 2 && useUdp)
    ensures o.Fileless? <==> |positionals| == 2 && useUdp
    ensures o.Stdout? <==> |positionals| >= 3 && positionals[2] == "-"
    ensures o.File? ==> |positionals| >= 3 && o.path == positionals[2] && o.path != "-"
  {
    if |positionals| < 3 then
      if |positionals| == 2 && useUdp then Fileless else Refused
    else if positionals[2] == "-" then Stdout
    else File(positionals[2])
  }

  /** One pass of the device read loop: whether another thread had raised the flag,
      whether `malloc` succeeded, the bytes read (none for a read of 0 or -1), and the
      seconds since the start as seen before the read and after the enqueue. */
  datatype Pass = Pass(flagged: bool, mallocOk: bool, data: Frame, before: int, after: int)

  /** Why the read loop ended. */
  datatype LoopStop =
    | FlagRaised      // f_exit seen at the top of a pass
    | NoMemory        // malloc failed
    | EndOfData       // an empty read after the time was up: the sentinel was enqueued
    | TimeUp          // the time was up after a frame was enqueued
    | PassesRunOut    // the supplied passes ended

  datatype ReadRun = ReadRun(queue: Queue, fExit: bool, enqueued: seq<Item>, passes: nat, stop: LoopStop)

  /** Whether the recording time is up; never with an indefinite recording. */
  predicate Expired(elapsed: int, recsec: int, indefinite: bool) {
    elapsed >= recsec && !indefinite
  }

  /** The read loop of `main`: frames go to the queue; an empty read is dropped unless the
      time is up, in which case the NULL sentinel is queued and the loop stops; after a
      frame is queued the loop stops, without a sentinel, when the time is up. */
  function ReadLoop(q: Queue, fExit: bool, recsec: int, indefinite: bool, passes: seq<Pass>): (r: ReadRun)
    requires Valid(q)
    ensures Valid(r.queue) && |r.queue.slots| == |q.slots|
    ensures Contents(r.queue) == Contents(q) + r.enqueued
    ensures r.passes <= |passes|
    ensures SentinelLast(r.enqueued, r.stop)
    ensures r.stop.EndOfData? ==>
              (r.fExit && r.passes > 0 && passes[r.passes - 1].data == []
               && Expired(passes[r.passes - 1].before, recsec, indefinite))
    ensures r.stop.TimeUp? ==>
              (r.passes > 0 && passes[r.passes - 1].data != []
               && Expired(passes[r.passes - 1].after, recsec, indefinite))
    ensures r.stop.PassesRunOut? ==> r.passes == |passes|
    ensures indefinite ==> !r.stop.EndOfData? && !r.stop.TimeUp?
    decreases |passes|
  {
    if |passes| == 0 then ReadRun(q, fExit, [], 0, PassesRunOut)
    else match OnePass(q, fExit, recsec, indefinite, passes[0])
      case Stop(run) => run
      case Continue(q', fExit', mine) =>
        var rest := ReadLoop(q', fExit', recsec, indefinite, passes[1..]);
        FrameBeforeRest(Contents(q), mine, passes[0].data, rest.enqueued, Contents(rest.queue), rest.stop);
        rest.(enqueued := mine + rest.enqueued, passes := rest.passes + 1)
  }

  /** One pass either ends the loop or leaves the queue, the flag and what it enqueued. */
  datatype PassOutcome = Stop(run: ReadRun) | Continue(queue: Queue, fExit: bool, mine: seq<Item>)

  /** One pass of the read loop. */
  function OnePass(q: Queue, fExit: bool, recsec: int, indefinite: bool, ps: Pass): (o: PassOutcome)
    requires Valid(q)
    ensures o.Stop? ==> Valid(o.run.queue) && |o.run.queue.slots| == |q.slots|
    ensures o.Stop? ==> Contents(o.run.queue) == Contents(q) + o.run.enqueued && o.run.passes == 1
    ensures o.Stop? ==> SentinelLast(o.run.enqueued, o.run.stop) && !o.run.stop.PassesRunOut?
    ensures o.Stop? && o.run.stop.EndOfData? ==> o.run.fExit && ps.data == [] && Expired(ps.before, recsec, indefinite)
    ensures o.Stop? && o.run.stop.TimeUp? ==> ps.data != [] && Expired(ps.after, recsec, indefinite)
    ensures o.Stop? && (o.run.stop.FlagRaised? || o.run.stop.NoMemory?) ==> o.run.enqueued == [] && o.run.queue == q
    ensures o.Continue? ==> Valid(o.queue) && |o.queue.slots| == |q.slots|
    ensures o.Continue? ==> Contents(o.queue) == Contents(q) + o.mine
    ensures o.Continue? ==> o.mine == [] || (ps.data != [] && o.mine == [Some(ps.data)])
    ensures o.Continue? ==> !fExit && !ps.flagged && ps.mallocOk
  {
    if fExit || ps.flagged then Stop(ReadRun(q, true, [], 1, FlagRaised))
    else if !ps.mallocOk then Stop(ReadRun(q, true, [], 1, NoMemory))
    else if ps.data == [] then
      if Expired(ps.before, recsec, indefinite) then
        var push := Enqueue(q, None, true);
        Stop(ReadRun(push.queue, push.fExit, if push.stored then [None] else [], 1, EndOfData))
      else Continue(q, fExit, [])
    else
      var push := Enqueue(q, Some(ps.data), fExit);
      var mine := if push.stored then [Some(ps.data)] else [];
      if Expired(ps.after, recsec, indefinite) then Stop(ReadRun(push.queue, push.fExit, mine, 1, TimeUp))
      else Continue(push.queue, push.fExit, mine)
  }

  /** Every frame enqueued is non-empty, and the sentinel, if any, comes last and only when
      the loop stopped on it. */
  predicate SentinelLast(enqueued: seq<Item>, stop: LoopStop) {
    forall i :: 0 <= i < |enqueued| ==>
      if enqueued[i].None? then i == |enqueued| - 1 && stop.EndOfData? else |enqueued[i].value| > 0
  }

  lemma FrameBeforeRest(before: seq<Item>, mine: seq<Item>, frame: Frame, rest: seq<Item>, after: seq<Item>, stop: LoopStop)
    requires mine == [] || (frame != [] && mine == [Some(frame)])
    requires SentinelLast(rest, stop) && after == before + mine + rest
    ensures SentinelLast(mine + rest, stop) && after == before + (mine + rest)
  {
  }

  /** When the time runs out right after a frame, no sentinel is queued: the writer only
      stops later, when its dequeue gives up on the empty queue. */
  lemma TimeUpQueuesNoSentinel(q: Queue, recsec: int, frame: Frame, before: int, after: int)
    requires Valid(q) && q.numAvail > 0 && frame != []
    requires !Expired(before, recsec, false) && Expired(after, recsec, false)
    ensures var r := ReadLoop(q, false, recsec, false, [Pass(false, true, frame, before, after)]);
      r.stop.TimeUp? && r.enqueued == [Some(frame)] && (None in Contents(r.queue) <==> None in Contents(q))
  {
    var r := ReadLoop(q, false, recsec, false, [Pass(false, true, frame, before, after)]);
    assert Contents(r.queue) == Contents(q) + [Some(frame)];
  }

  /** An empty read before the time is up changes nothing. */
  lemma EmptyReadDropped(q: Queue, recsec: int, indefinite: bool, p: Pass, passes: seq<Pass>)
    requires Valid(q) && p.data == [] && !p.flagged && p.mallocOk
    requires !Expired(p.before, recsec, indefinite)
    ensures var r := ReadLoop(q, false, recsec, indefinite, [p] + passes);
      var r' := ReadLoop(q, false, recsec, indefinite, passes);
      r.queue == r'.queue && r.enqueued == r'.enqueued && r.stop == r'.stop && r.passes == r'.passes + 1
  {
    assert ([p] + passes)[1..] == passes;
  }

  /** The recording-time update of `mq_recv`: a non-zero extension is added to the current
      time; then a non-zero new total replaces it, unless the elapsed time already exceeds
      that total, in which case the flag is raised instead. The result is the recording
      time afterwards and the flag. */
  function UpdateDuration(current: int, total: int, extension: int, elapsed: int, fExit: bool): (r: (int, bool))
    ensures total != 0 && elapsed <= total ==> r == (total, fExit)
    ensures total != 0 && elapsed > total ==> r == (current + extension, true)
    ensures total == 0 ==> r == (current + extension, fExit)
  {
    var extended := if extension != 0 then current + extension else current;
    if total != 0 then
      if elapsed > total then (extended, true) else (total, fExit)
    else (extended, fExit)
  }

  /** What an update means: the flag is raised only when a new total arrives after the
      elapsed time has passed it; a total that arrives in time is never below the elapsed
      time; a message whose total and extension are both 0 changes nothing; the recording
      time otherwise moves only by the extension. */
  lemma UpdateDurationMeaning(current: int, total: int, extension: int, elapsed: int, fExit: bool)
    ensures var r := UpdateDuration(current, total, extension, elapsed, fExit);
      && (r.1 <==> fExit || (total != 0 && elapsed > total))
      && (total != 0 && elapsed <= total ==> r.0 >= elapsed && r.0 == total)
      && (total == 0 && extension == 0 ==> r == (current, fExit))
      && (r.0 != total ==> r.0 == current + extension)
  {
  }

  /** A message carrying both a new total and an extension, arriving in time, keeps only
      the total: the extension is overwritten. */
  lemma ExtensionOverwritten(current: int, total: int, extension: int, elapsed: int)
    requires total != 0 && elapsed <= total && extension != 0
    ensures UpdateDuration(current, total, extension, elapsed, false).0 == total
  {
  }

  /** An extension alone lengthens the recording by exactly that much, and never stops it. */
  lemma ExtensionAlone(current: int, extension: int, elapsed: int)
    ensures UpdateDuration(current, 0, extension, elapsed, false) == (current + extension, false)
  {
  }
}

=== FILE: preset.dfy ===
/**
  The BS transport-stream-id presets (preset.c): `set_bs_tsid` turns a `bs..`
  channel name into the tsid of the stream to select on that transponder, by
  normalising the prefix to lower case and looking the name up in a constant table.
*/
module Preset {
  import opened Wrappers
  import opened CText

  /** NUM_PRESET_CH: the declared length of the table array. */
  const NumPresetCh := 88

  /** A table row: a channel name and its transport stream id. */
  datatype Entry = Entry(channel: string, tsid: nat)

  /** The initialised rows of `preset_ch`: 28 BS rows followed by the 12 ND rows. */
  const Table: seq<Entry> := [
    Entry("bs01_0", 0x4010), Entry("bs01_1", 0x4011), Entry("bs01_2", 0x4012),
    Entry("bs03_0", 0x4030), Entry("bs03_1", 0x4031), Entry("bs03_2", 0x4632),
    Entry("bs05_0", 0x4450), Entry("bs05_1", 0x4451),
    Entry("bs09_0", 0x4090), Entry("bs09_1", 0x4091), Entry("bs09_2", 0x4092),
    Entry("bs11_0", 0x46b0), Entry("bs11_1", 0x46b1), Entry("bs11_2", 0x46b2),
    Entry("bs13_0", 0x40d0), Entry("bs13_1", 0x40d1), Entry("bs13_2", 0x46d2),
    Entry("bs15_0", 0x40f1), Entry("bs15_1", 0x40f2),
    Entry("bs19_0", 0x4730), Entry("bs19_1", 0x4731), Entry("bs19_2", 0x4732),
    Entry("bs21_0", 0x4750), Entry("bs21_1", 0x4751), Entry("bs21_2", 0x4752),
    Entry("bs23_0", 0x4770), Entry("bs23_1", 0x4771), Entry("bs23_2", 0x4772),
    Entry("nd02", 0x6020), Entry("nd04", 0x7040),
    Entry("nd06", 0x7060), Entry("nd08", 0x6080),
    Entry("nd10", 0x60a0), Entry("nd12", 0x70c0),
    Entry("nd14", 0x70e0), Entry("nd16", 0x7100),
    Entry("nd18", 0x7120), Entry("nd20", 0x7140),
    Entry("nd22", 0x7160), Entry("nd24", 0x7180)
  ]

  /** Rows below this index are the BS rows. */
  const BsRows := 28

  /** Slot `i` of the declared array: the initialised rows, then zero-filled rows whose name is NULL. */
  function Slot(i: nat): (e: Option<Entry>)
    requires i < NumPresetCh
    ensures e.Some? <==> i < |Table|
  {
    if i < |Table| then Some(Table[i]) else None
  }

  /** The channel starts `b`/`B` then `s`/`S`. */
  predicate HasBsPrefix(pch: string) {
    (CharAt(pch, 0) == 'b' || CharAt(pch, 0) == 'B') && (CharAt(pch, 1) == 's' || CharAt(pch, 1) == 'S')
  }

  /** The copy loop: the index at which it stops, starting from `i`. */
  function CopyEnd(pch: string, i: nat): (j: nat)
    requires 2 <= i <= 7
    ensures i <= j <= 7
    ensures j < 7 ==> CharAt(pch, j) == '\0'
    ensures forall k :: i <= k < j ==> CharAt(pch, k) != '\0'
    ensures i <= |pch| ==> j <= |pch|
    decreases 7 - i
  {
    if i < 7 && CharAt(pch, i) != '\0' then CopyEnd(pch, i + 1) else i
  }

  /** The lookup key built in `channel[8]`: `bs` and then characters 2 to 6 of the name, as given. */
  function Key(pch: string): (key: string)
    requires HasBsPrefix(pch)
    ensures 2 <= |key| <= 7 && key[..2] == "bs"
  {
    "bs" + pch[2..CopyEnd(pch, 2)]
  }

  /** The first row named `key`, searching the initialised rows only. */
  function IndexOf(key: string, i: nat): (r: Option<nat>)
    requires i <= |Table|
    ensures r.Some? ==> i <= r.value < |Table| && Table[r.value].channel == key
    ensures r.None? <==> forall j :: i <= j < |Table| ==> Table[j].channel != key
    decreases |Table| - i
  {
    if i == |Table| then None
    else if Table[i].channel == key then Some(i)
    else IndexOf(key, i + 1)
  }

  /** What `set_bs_tsid` leaves behind: the tsid it stores and the caller's string afterwards. */
  datatype Lookup = Lookup(tsid: nat, channel: string)

  /** set_bs_tsid with the two defects corrected: an unknown name yields 0 (as the
      `i == NUM_PRESET_CH` branch intends) and the caller's string is left alone. */
  function SetBsTsid(pch: string): (r: Lookup)
    ensures r.channel == pch
    ensures !HasBsPrefix(pch) ==> r.tsid == 0
    ensures HasBsPrefix(pch) ==>
      (r.tsid != 0 <==> exists j :: 0 <= j < |Table| && Table[j].channel == Key(pch))
    ensures forall j :: 0 <= j < |Table| && HasBsPrefix(pch) && Table[j].channel == Key(pch) ==> r.tsid == Table[j].tsid
  {
    if !HasBsPrefix(pch) then Lookup(0, pch)
    else
      match IndexOf(Key(pch), 0)
      case None => Lookup(0, pch)
      case Some(j) =>
        TableNamesDistinct();
        TableTsidsNonZero();
        Lookup(Table[j].tsid, pch)
  }

  /** Every row has a non-zero tsid, so 0 unambiguously means "no preset". */
  lemma TableTsidsNonZero()
    ensures forall j :: 0 <= j < |Table| ==> Table[j].tsid != 0
  {
  }

  /** The characters that tell rows apart: the prefix letter, the two channel digits and,
      for a BS row, the slot digit. */
  function Code(name: string): int {
    ((CharAt(name, 0) as int * 256 + CharAt(name, 2) as int) * 256 + CharAt(name, 3) as int) * 256
      + CharAt(name, 5) as int
  }

  /** The rows are listed in increasing code order. */
  lemma TableSorted()
    ensures forall i :: 0 <= i < |Table| - 1 ==> Code(Table[i].channel) < Code(Table[i + 1].channel)
  {
    RowsSorted0();
    RowsSorted10();
    RowsSorted20();
    RowsSorted30();
  }

  /** The ordering checked ten rows at a time. */
  lemma RowsSorted0()
    ensures forall i :: 0 <= i < 10 ==> Code(Table[i].channel) < Code(Table[i + 1].channel)
  {
  }

  lemma RowsSorted10()
    ensures forall i :: 10 <= i < 20 ==> Code(Table[i].channel) < Code(Table[i + 1].channel)
  {
  }

  lemma RowsSorted20()
    ensures forall i :: 20 <= i < 30 ==> Code(Table[i].channel) < Code(Table[i + 1].channel)
  {
  }

  lemma RowsSorted30()
    ensures forall i :: 30 <= i < |Table| - 1 ==> Code(Table[i].channel) < Code(Table[i + 1].channel)
  {
  }

  lemma {:induction false} TableSortedFar(i: nat, j: nat)
    requires i < j < |Table|
    ensures Code(Table[i].channel) < Code(Table[j].channel)
    decreases j - i
  {
    TableSorted();
    if i + 1 < j {
      TableSortedFar(i + 1, j);
    }
  }

  /** No two rows share a name, so the lookup does not depend on search order. */
  lemma TableNamesDistinct()
    ensures forall i, j :: 0 <= i < j < |Table| ==> Table[i].channel != Table[j].channel
  {
    forall i, j | 0 <= i < j < |Table|
      ensures Table[i].channel != Table[j].channel
    {
      TableSortedFar(i, j);
    }
  }

  /** Where the search of the declared array stops: at a row with the name, off the end of
      the array, or at a slot whose name is NULL, which `strcmp` dereferences. */
  datatype Scan = Match(i: nat) | Exhausted | NullName

  /** The search loop over all NUM_PRESET_CH slots, from slot `i`. */
  function ScanSlots(key: string, i: nat): (r: Scan)
    requires i <= NumPresetCh
    ensures i <= |Table| ==> !r.Exhausted?
    ensures i <= |Table| ==> (r.Match? <==> IndexOf(key, i).Some?)
    ensures r.Match? && i <= |Table| ==> r.i == IndexOf(key, i).value
    decreases NumPresetCh - i
  {
    if i == NumPresetCh then Exhausted
    else
      match Slot(i)
      case None => NullName
      case Some(e) => if e.channel == key then Match(i) else ScanSlots(key, i + 1)
  }

  /** What the code does: a tsid and the caller's string, or undefined behaviour. */
  datatype Outcome = Stored(lookup: Lookup) | NullDeref

  /** set_bs_tsid as written: the search runs into the zero-filled slots when no row
      matches, and the caller's string gets a NUL where the copy stopped. */
  function SetBsTsidAsWritten(pch: string): (r: Outcome)
    ensures !HasBsPrefix(pch) ==> r == Stored(Lookup(0, pch))
    ensures HasBsPrefix(pch) && r.Stored? ==> r.lookup.channel == pch[..CopyEnd(pch, 2)]
  {
    if !HasBsPrefix(pch) then Stored(Lookup(0, pch))
    else
      var channel := pch[..CopyEnd(pch, 2)];
      match ScanSlots(Key(pch), 0)
      case Match(i) => Stored(Lookup(Table[i].tsid, channel))
      case NullName => NullDeref
      case Exhausted => assert false; NullDeref  // the zero-filled slots are reached first
  }

  /** The code as written and the corrected lookup agree except that the code fails
      exactly where the corrected one reports "no preset" for a `bs` name. */
  lemma AsWrittenVersusCorrected(pch: string)
    ensures SetBsTsidAsWritten(pch).NullDeref? <==> HasBsPrefix(pch) && SetBsTsid(pch).tsid == 0
    ensures SetBsTsidAsWritten(pch).Stored? ==> SetBsTsidAsWritten(pch).lookup.tsid == SetBsTsid(pch).tsid
  {
    TableTsidsNonZero();
  }

  /** BS-7 is a real transponder with no row: its name reaches a NULL slot. */
  lemma UnknownBsChannelDereferencesNull()
    ensures SetBsTsidAsWritten("bs07_0") == NullDeref
    ensures SetBsTsid("bs07_0") == Lookup(0, "bs07_0")
  {
    var key := Key("bs07_0");
    assert key == "bs07_0";
    assert Table[7].channel == "bs05_1" && Table[8].channel == "bs09_0";
    assert Code(Table[7].channel) < Code(key) < Code(Table[8].channel);
    forall j | 0 <= j < |Table|
      ensures Table[j].channel != key
    {
      if j < 7 {
        TableSortedFar(j, 7);
      } else if j > 8 {
        TableSortedFar(8, j);
      }
    }
  }

  /** The in-place truncation only changes a name of eight or more characters; such a name
      makes a seven-character key, which no row has, so the truncated string is never
      seen by the caller: the lookup has already failed. */
  lemma TruncationPrecedesFailure(pch: string)
    requires HasBsPrefix(pch) && |pch| > 7 && '\0' !in pch
    ensures SetBsTsidAsWritten(pch) == NullDeref
  {
    assert |Key(pch)| == 7;
    RowNamesShort();
  }

  /** Every row name has at most six characters. */
  lemma RowNamesShort()
    ensures forall j :: 0 <= j < |Table| ==> |Table[j].channel| <= 6
  {
  }

  /** The ND rows start with `n`. */
  lemma NdRowsStartWithN()
    ensures forall j :: BsRows <= j < |Table| ==> Table[j].channel[0] == 'n'
  {
  }

  /** A key always begins `bs`, so only the BS rows can ever match. */
  lemma NdRowsUnreachable(pch: string)
    requires HasBsPrefix(pch)
    ensures IndexOf(Key(pch), 0).Some? ==> IndexOf(Key(pch), 0).value < BsRows
  {
    NdRowsStartWithN();
    var key := Key(pch);
    assert key[0] == 'b';
  }

  /** Only characters from index 2 on reach the key past its prefix. */
  lemma {:induction false} CopyEndSameTail(p: string, q: string, i: nat)
    requires 2 <= i <= 7
    requires forall k :: 2 <= k ==> CharAt(p, k) == CharAt(q, k)
    ensures CopyEnd(p, i) == CopyEnd(q, i)
    decreases 7 - i
  {
    if i < 7 && CharAt(p, i) != '\0' {
      CopyEndSameTail(p, q, i + 1);
    }
  }

  /** The prefix is case-insensitive: `BS`, `Bs`, `bS` and `bs` select the same row. */
  lemma PrefixCaseIgnored(pch: string)
    requires HasBsPrefix(pch)
    ensures HasBsPrefix("bs" + pch[2..])
    ensures Key(pch) == Key("bs" + pch[2..])
    ensures SetBsTsid(pch).tsid == SetBsTsid("bs" + pch[2..]).tsid
  {
    var q := "bs" + pch[2..];
    assert forall k :: 2 <= k ==> CharAt(pch, k) == CharAt(q, k);
    CopyEndSameTail(pch, q, 2);
    assert pch[2..CopyEnd(pch, 2)] == q[2..CopyEnd(q, 2)];
  }

  /** `BS01_0` and `bs01_0` both select transport stream 0x4010. */
  lemma Bs01Example()
    ensures SetBsTsid("BS01_0").tsid == 0x4010
    ensures SetBsTsid("bs01_0").tsid == 0x4010
  {
    PrefixCaseIgnored("BS01_0");
    assert "bs" + "BS01_0"[2..] == "bs01_0";
    assert Key("bs01_0") == "bs01_0";
    assert Table[0].channel == "bs01_0";
  }
}

=== FILE: queue.dfy ===
/**
  The bounded ring buffer of frame pointers shared by the device reader and the
  sink writer (queue.h, queue.c), as a value: `Enqueue` and `Dequeue` return the
  queue after the call. A NULL pointer is `None`; it is both the end-of-stream
  sentinel and what a timed-out `dequeue` returns.

  The condition waits are sequential here: nobody else touches the queue while a
  call waits, so a wait on a full (or empty) queue always runs out, and the call
  reports how many one-second waits it spent.
*/
module BoundedQueue {
  import opened Wrappers

  type byte = x: int | 0 <= x < 256

  /** Size of a transport packet (ISO/IEC 13818-1, section 2.4.3.2). */
  const TsPacketSize := 188

  /** MAX_READ_SIZE: the payload capacity of one frame buffer, 87 transport packets. */
  const MaxReadSize := TsPacketSize * 87

  /** MAX_QUEUE: the capacity the recorder creates its queue with. */
  const MaxQueue := 8192

  /** Timed waits after which a blocked call raises the termination flag. */
  const RetryLimit := 60

  /** The bytes of one device read (BUFSZ). */
  type Frame = seq<byte>

  /** A queue slot: a frame pointer, or NULL. */
  type Item = Option<Frame>

  /** Every frame among `items` holds at most MAX_READ_SIZE bytes, the size of its buffer. */
  predicate Fits(items: seq<Item>) {
    forall i | 0 <= i < |items| :: items[i].Some? ==> |items[i].value| <= MaxReadSize
  }

  /** QUEUE_T: `slots` has `size` entries; `inPos` (`in`) is the next slot to fill, `outPos` (`out`) the next to drain. */
  datatype Queue = Queue(slots: seq<Item>, inPos: nat, outPos: nat, numAvail: nat, numUsed: nat)

  /** Slot index `i` reduced once modulo `n` (enough for `i < 2 * n`). */
  function Wrap(i: nat, n: nat): nat {
    if i < n then i else i - n
  }

  /** The counters add up to the capacity and `inPos` runs `numUsed` slots ahead of `outPos`. */
  predicate Valid(q: Queue) {
    var n := |q.slots|;
    && q.numAvail + q.numUsed == n
    && (n == 0 ==> q.inPos == 0 && q.outPos == 0)
    && (n > 0 ==> q.inPos < n && q.outPos < n && q.inPos == Wrap(q.outPos + q.numUsed, n))
  }

  /** The queued items, oldest first. */
  function Contents(q: Queue): (c: seq<Item>)
    requires Valid(q)
    ensures |c| == q.numUsed
  {
    seq(q.numUsed, i requires 0 <= i < q.numUsed => q.slots[Wrap(q.outPos + i, |q.slots|)])
  }

  /** create_queue: `size` NULL slots, all available. */
  function Create(size: nat): (q: Queue)
    ensures Valid(q)
    ensures |q.slots| == size && q.numAvail == size && q.numUsed == 0
    ensures q.inPos == 0 && q.outPos == 0
    ensures Contents(q) == []
  {
    Queue(seq(size, _ => None), 0, 0, size, 0)
  }

  /** The wait loop of `enqueue` and `dequeue` when the condition never becomes true: each
      pass is one timed wait; once more than RetryLimit passes have been made the flag is
      raised; a raised flag ends the loop. The result counts the waits. */
  function WaitsBeforeGiveUp(retry: nat, fExit: bool): (waits: nat)
    requires retry <= RetryLimit
    ensures fExit ==> waits == 1
    ensures !fExit ==> waits == RetryLimit + 1 - retry
    decreases RetryLimit - retry
  {
    var retry' := retry + 1;
    var flag := fExit || retry' > RetryLimit;
    if flag then 1 else 1 + WaitsBeforeGiveUp(retry', flag)
  }

  /** The outcome of `enqueue`: the queue afterwards, whether the item was stored, the
      termination flag afterwards, and the timed waits spent. */
  datatype Push = Push(queue: Queue, stored: bool, fExit: bool, waits: nat)

  lemma NextSlot(i: nat, n: nat)
    requires i < n
    ensures (i + 1) % n == Wrap(i + 1, n)
  {
    if i + 1 == n {
      assert (i + 1) % n == 0;
    }
  }

  /** enqueue: stores at `inPos` when a slot is available, whatever the flag says; on a full
      queue gives up, raising the flag and leaving the queue as it was. */
  function Enqueue(q: Queue, item: Item, fExit: bool): (r: Push)
    requires Valid(q)
    ensures Valid(r.queue) && |r.queue.slots| == |q.slots|
    ensures r.stored <==> q.numAvail > 0
    ensures r.stored ==> Contents(r.queue) == Contents(q) + [item] && r.fExit == fExit && r.waits == 0
    ensures r.stored ==> r.queue.numUsed == q.numUsed + 1 && r.queue.outPos == q.outPos
    ensures !r.stored ==> r.queue == q && r.fExit
    ensures !r.stored ==> r.waits == if fExit then 1 else RetryLimit + 1
  {
    var n := |q.slots|;
    if q.numAvail == 0 then
      Push(q, false, true, WaitsBeforeGiveUp(0, fExit))
    else
      var q' := Queue(q.slots[q.inPos := item], (q.inPos + 1) % n, q.outPos, q.numAvail - 1, q.numUsed + 1);
      StoreAppends(q, item, q');
      Push(q', true, fExit, 0)
  }

  /** Storing at `inPos` and advancing it appends to the contents. */
  lemma StoreAppends(q: Queue, item: Item, q': Queue)
    requires Valid(q) && q.numAvail > 0
    requires q' == Queue(q.slots[q.inPos := item], (q.inPos + 1) % |q.slots|, q.outPos, q.numAvail - 1, q.numUsed + 1)
    ensures Valid(q') && Contents(q') == Contents(q) + [item]
  {
    var n := |q.slots|;
    NextSlot(q.inPos, n);
    assert Valid(q');
    forall i | 0 <= i < q'.numUsed
      ensures Contents(q')[i] == (Contents(q) + [item])[i]
    {
      if i < q.numUsed {
        assert Wrap(q.outPos + i, n) != q.inPos;
      }
    }
  }

  /** The outcome of `dequeue`: the queue afterwards, the item (None for the sentinel or a
      timeout), the termination flag afterwards, and the timed waits spent. */
  datatype Pop = Pop(queue: Queue, item: Item, fExit: bool, waits: nat)

  /** dequeue: takes the item at `outPos` when one is queued; on an empty queue gives up,
      raising the flag, returning NULL and leaving the queue as it was. */
  function Dequeue(q: Queue, fExit: bool): (r: Pop)
    requires Valid(q)
    ensures Valid(r.queue) && |r.queue.slots| == |q.slots|
    ensures q.numUsed > 0 ==> r.item == Contents(q)[0] && Contents(r.queue) == Contents(q)[1..]
    ensures q.numUsed > 0 ==> r.fExit == fExit && r.waits == 0 && r.queue.numUsed == q.numUsed - 1
    ensures q.numUsed > 0 ==> r.queue.inPos == q.inPos
    ensures q.numUsed == 0 ==> r.queue == q && r.item == None && r.fExit
    ensures q.numUsed == 0 ==> r.waits == if fExit then 1 else RetryLimit + 1
  {
    var n := |q.slots|;
    if q.numUsed == 0 then
      Pop(q, None, true, WaitsBeforeGiveUp(0, fExit))
    else
      var q' := Queue(q.slots, q.inPos, (q.outPos + 1) % n, q.numAvail + 1, q.numUsed - 1);
      TakeDrops(q, q');
      Pop(q', q.slots[q.outPos], fExit, 0)
  }

  /** Advancing `outPos` drops the oldest item from the contents. */
  lemma TakeDrops(q: Queue, q': Queue)
    requires Valid(q) && q.numUsed > 0
    requires q' == Queue(q.slots, q.inPos, (q.outPos + 1) % |q.slots|, q.numAvail + 1, q.numUsed - 1)
    ensures Valid(q') && Contents(q') == Contents(q)[1..]
    ensures Contents(q)[0] == q.slots[q.outPos]
  {
    var n := |q.slots|;
    NextSlot(q.outPos, n);
    assert Valid(q');
    assert Wrap(q.outPos + 0, n) == q.outPos;
    forall i | 0 <= i < q'.numUsed
      ensures Contents(q')[i] == Contents(q)[1..][i]
    {
      assert Wrap(q'.outPos + i, n) == Wrap(q.outPos + (i + 1), n);
    }
  }

  /** Successive enqueues into a queue with room for all of them. */
  function EnqueueAll(q: Queue, items: seq<Item>): (r: Queue)
    requires Valid(q) && |items| <= q.numAvail
    decreases |items|
    ensures Valid(r) && |r.slots| == |q.slots|
    ensures Contents(r) == Contents(q) + items
    ensures r.numAvail == q.numAvail - |items|
  {
    if |items| == 0 then q
    else
      var q' := Enqueue(q, items[0], false).queue;
      assert Contents(q') + items[1..] == Contents(q) + items;
      EnqueueAll(q', items[1..])
  }

  /** `k` successive dequeues from a queue holding at least `k` items: what they return,
      and the queue afterwards. */
  function DequeueN(q: Queue, k: nat): (r: (seq<Item>, Queue))
    requires Valid(q) && k <= q.numUsed
    ensures Valid(r.1) && |r.1.slots| == |q.slots|
    ensures r.0 == Contents(q)[..k]
    ensures Contents(r.1) == Contents(q)[k..]
    decreases k
  {
    if k == 0 then ([], q)
    else
      var p := Dequeue(q, false);
      var (rest, q') := DequeueN(p.queue, k - 1);
      assert [p.item] + rest == Contents(q)[..k];
      ([p.item] + rest, q')
  }

  /** Draining as many items as are queued returns the contents and leaves the queue empty. */
  lemma DrainAll(q: Queue)
    requires Valid(q)
    ensures DequeueN(q, q.numUsed).0 == Contents(q)
    ensures Contents(DequeueN(q, q.numUsed).1) == []
  {
    var c := Contents(q);
    assert c[..|c|] == c;
  }

  /** FIFO round trip: items enqueued into a fresh queue come back out in the same order,
      and the queue is empty again. */
  lemma FifoRoundTrip(size: nat, items: seq<Item>)
    requires |items| <= size
    ensures DequeueN(EnqueueAll(Create(size), items), |items|).0 == items
    ensures Contents(DequeueN(EnqueueAll(Create(size), items), |items|).1) == []
  {
    var q := EnqueueAll(Create(size), items);
    assert Contents(q) == items by {
      assert [] + items == items;
    }
    DrainAll(q);
  }

  /** The sentinel and a timeout cannot be told apart by the consumer: dequeuing an enqueued
      NULL returns exactly what dequeuing from an empty queue returns. */
  lemma SentinelLooksLikeTimeout(size: nat, fExit: bool)
    requires size > 0
    ensures Dequeue(Enqueue(Create(size), None, fExit).queue, fExit).item
         == Dequeue(Create(size), fExit).item
  {
    var q := Enqueue(Create(size), None, fExit).queue;
    assert Contents(q) == [None];
  }

  /** A queue of capacity 1 takes exactly one item; a dequeue makes room for the next. */
  lemma CapacityOne(a: Item, b: Item)
    ensures Enqueue(Create(1), a, false).stored
    ensures !Enqueue(Enqueue(Create(1), a, false).queue, b, false).stored
    ensures var q := Dequeue(Enqueue(Create(1), a, false).queue, false);
            q.item == a && Enqueue(q.queue, b, false).stored
  {
    var q1 := Enqueue(Create(1), a, false).queue;
    assert Contents(q1) == [a];
  }
}

=== FILE: tuner.dfy ===
/**
  The tuner controller of the server (recdvbcore.c): `open_tuner`, `tune` and
  `close_tuner`. The device handles live in three descriptors, `fefd` and
  `dmxfd` (closed when 0) and the dvr descriptor `tfd` (closed when negative).
  Every system call is replaced by the outcome it reports, gathered in `Device`.
*/
module Tuner {
  import opened Wrappers
  import opened CText

  /** FE_HAS_LOCK and FE_TIMEDOUT, bits of `fe_status` in linux/dvb/frontend.h. */
  const FeHasLock: bv32 := 0x10
  const FeTimedOut: bv32 := 0x20

  /** The lock poll makes at most this many passes. */
  const PollPasses := 5

  /** `fe_info.type`: terrestrial (FE_OFDM), satellite (FE_QPSK), or anything else. */
  datatype FeType = Ofdm | Qpsk | Unsupported

  /** The channel number of `atoi(channel + 2)`: what follows a two-letter prefix. */
  function Suffix(channel: string): string {
    if |channel| >= 2 then channel[2..] else ""
  }

  predicate IsBsName(channel: string) {
    (CharAt(channel, 0) == 'b' || CharAt(channel, 0) == 'B') && (CharAt(channel, 1) == 's' || CharAt(channel, 1) == 'S')
  }

  predicate IsNdName(channel: string) {
    (CharAt(channel, 0) == 'n' || CharAt(channel, 0) == 'N') && (CharAt(channel, 1) == 'd' || CharAt(channel, 1) == 'D')
  }

  /** The frequency `tune` programs for a channel name: in Hz for terrestrial (UHF channel
      n is centred at 473.143 MHz + 6 MHz per channel above 13), in kHz of the LNB
      intermediate frequency for satellite. None is the "not a channel" return 1. */
  function Frequency(feType: FeType, channel: string): (r: Option<int>)
    requires feType != Unsupported
    ensures feType == Ofdm ==> (r.Some? <==> Atoi(channel) != 0)
    ensures feType == Qpsk ==> (r.Some? <==> (IsBsName(channel) || IsNdName(channel)) && Atoi(Suffix(channel)) != 0)
    ensures r.Some? && feType == Ofdm ==> r.value == (Atoi(channel) * 6000 + 395143) * 1000
    ensures r.Some? && feType == Qpsk && IsBsName(channel) ==> r.value == Atoi(Suffix(channel)) * 19180 + 1030300
    ensures r.Some? && feType == Qpsk && IsNdName(channel) ==> r.value == Atoi(Suffix(channel)) * 20000 + 1573000
  {
    if feType == Ofdm then
      var n := Atoi(channel);
      if n == 0 then None else Some((n * 6000 + 395143) * 1000)
    else if IsBsName(channel) then
      var n := Atoi(Suffix(channel));
      if n == 0 then None else Some(n * 19180 + 1030300)
    else if IsNdName(channel) then
      var n := Atoi(Suffix(channel));
      if n == 0 then None else Some(n * 20000 + 1573000)
    else None
  }

  /** The physical channel a terrestrial frequency (in Hz) belongs to. */
  function TerrestrialChannel(hz: int): int {
    (hz / 1000 - 395143) / 6000
  }

  /** The transponder a BS intermediate frequency (in kHz) belongs to. */
  function BsTransponder(khz: int): int {
    (khz - 1030300) / 19180
  }

  /** The transponder an ND intermediate frequency (in kHz) belongs to. */
  function NdTransponder(khz: int): int {
    (khz - 1573000) / 20000
  }

  /** A terrestrial channel number comes back from the frequency it tunes to. */
  lemma TerrestrialRoundTrip(n: nat)
    requires n > 0
    ensures Frequency(Ofdm, Numeral(n, 10)).Some?
    ensures TerrestrialChannel(Frequency(Ofdm, Numeral(n, 10)).value) == n
  {
    assert Atoi(Numeral(n, 10)) == n by {
      AtoiNumeral(n, "");
      assert Numeral(n, 10) + "" == Numeral(n, 10);
    }
    TerrestrialArithmetic(n);
  }

  lemma TerrestrialArithmetic(n: nat)
    ensures TerrestrialChannel((n * 6000 + 395143) * 1000) == n
  {
    var khz := n * 6000 + 395143;
    assert (khz * 1000) / 1000 == khz;
    assert (n * 6000) / 6000 == n;
  }

  /** Any spelling of the `bs` prefix tunes transponder n to `n * 19180 + 1030300` kHz,
      and the transponder comes back from the frequency. */
  lemma BsRoundTrip(prefix: string, n: nat)
    requires |prefix| == 2 && IsBsName(prefix)
    requires n > 0
    ensures Frequency(Qpsk, prefix + Numeral(n, 10)) == Some(n * 19180 + 1030300)
    ensures BsTransponder(Frequency(Qpsk, prefix + Numeral(n, 10)).value) == n
  {
    var c := prefix + Numeral(n, 10);
    assert Frequency(Qpsk, c) == Some(n * 19180 + 1030300) by {
      assert Atoi(Suffix(c)) == n by {
        assert Suffix(c) == Numeral(n, 10) + "";
        AtoiNumeral(n, "");
      }
      assert IsBsName(c) by {
        assert CharAt(c, 0) == prefix[0] && CharAt(c, 1) == prefix[1];
      }
    }
    BsArithmetic(n);
  }

  lemma BsArithmetic(n: nat)
    ensures BsTransponder(n * 19180 + 1030300) == n
  {
    assert (n * 19180) / 19180 == n;
  }

  /** Likewise for the `nd` prefix at `n * 20000 + 1573000` kHz. */
  lemma NdRoundTrip(prefix: string, n: nat)
    requires |prefix| == 2 && IsNdName(prefix)
    requires n > 0
    ensures Frequency(Qpsk, prefix + Numeral(n, 10)) == Some(n * 20000 + 1573000)
    ensures NdTransponder(Frequency(Qpsk, prefix + Numeral(n, 10)).value) == n
  {
    var c := prefix + Numeral(n, 10);
    assert Frequency(Qpsk, c) == Some(n * 20000 + 1573000) by {
      assert Atoi(Suffix(c)) == n by {
        assert Suffix(c) == Numeral(n, 10) + "";
        AtoiNumeral(n, "");
      }
      assert IsNdName(c) && !IsBsName(c) by {
        assert CharAt(c, 0) == prefix[0] && CharAt(c, 1) == prefix[1];
      }
    }
    NdArithmetic(n);
  }

  lemma NdArithmetic(n: nat)
    ensures NdTransponder(n * 20000 + 1573000) == n
  {
    assert (n * 20000) / 20000 == n;
  }

  /** A satellite name whose number reads as 0 (`bs`, `bsx`, `nd0`) is refused. */
  lemma SatelliteNeedsNumber(prefix: string, rest: string)
    requires |prefix| == 2 && (IsBsName(prefix) || IsNdName(prefix))
    requires |rest| == 0 || (!IsSpace(rest[0]) && rest[0] != '-' && rest[0] != '+' && !IsDigit(rest[0]))
    ensures Frequency(Qpsk, prefix + rest) == None
  {
    var c := prefix + rest;
    assert Suffix(c) == rest;
    assert CharAt(c, 0) == prefix[0] && CharAt(c, 1) == prefix[1];
    assert SkipSpaces(rest) == rest;
    assert LeadingDigits(rest, 10) == [];
  }

  /** What one pass of the poll loop sees: `poll` timed out, the descriptor was not readable,
      FE_GET_EVENT delivered a status, FE_GET_EVENT failed with EOVERFLOW, or it failed otherwise. */
  datatype PollOutcome = PollTimeout | NotReadable | Event(status: bv32) | Overflow | EventError

  /** The outcome of pass `k`; passes beyond the given ones see a poll timeout. */
  function OutcomeAt(outcomes: seq<PollOutcome>, k: nat): PollOutcome {
    if k < |outcomes| then outcomes[k] else PollTimeout
  }

  /** The status the frontend last reported before pass `k`, starting from 0. */
  function StatusBefore(outcomes: seq<PollOutcome>, k: nat): bv32 {
    if k == 0 then 0
    else match OutcomeAt(outcomes, k - 1)
      case Event(s) => s
      case _ => StatusBefore(outcomes, k - 1)
  }

  /** The loop stops polling once the status says locked or timed out. */
  predicate Settled(status: bv32) {
    status & FeTimedOut != 0 || status & FeHasLock != 0
  }

  /** How the poll loop ended: with the last status after `passes` passes, or with a
      failed FE_GET_EVENT (return -1) on pass `passes - 1`. */
  datatype PollEnd = Finished(status: bv32, passes: nat) | Failed(passes: nat)

  /** Passes before `n` all saw an unsettled status and no failed FE_GET_EVENT. */
  predicate Unsettled(outcomes: seq<PollOutcome>, n: nat) {
    forall j: nat :: j < n ==> !Settled(StatusBefore(outcomes, j)) && OutcomeAt(outcomes, j) != EventError
  }

  /** The lock poll, from pass `k` on with the current status. */
  function PollLoop(outcomes: seq<PollOutcome>, k: nat, status: bv32): (r: PollEnd)
    requires k <= PollPasses && status == StatusBefore(outcomes, k) && Unsettled(outcomes, k)
    ensures k <= r.passes <= PollPasses
    ensures r.Failed? ==> r.passes > 0
    ensures Unsettled(outcomes, if r.Failed? then r.passes - 1 else r.passes)
    ensures r.Finished? ==> r.status == StatusBefore(outcomes, r.passes)
    ensures r.Finished? ==> r.passes == PollPasses || Settled(r.status)
    ensures r.Failed? ==> OutcomeAt(outcomes, r.passes - 1) == EventError
    ensures r.Failed? ==> !Settled(StatusBefore(outcomes, r.passes - 1))
    decreases PollPasses - k
  {
    if k == PollPasses || Settled(status) then Finished(status, k)
    else
      var outcome := OutcomeAt(outcomes, k);
      if outcome == EventError then Failed(k + 1)
      else
        UnsettledStep(outcomes, k);
        PollLoop(outcomes, k + 1, if outcome.Event? then outcome.status else status)
  }

  lemma UnsettledStep(outcomes: seq<PollOutcome>, k: nat)
    requires Unsettled(outcomes, k) && !Settled(StatusBefore(outcomes, k)) && OutcomeAt(outcomes, k) != EventError
    ensures Unsettled(outcomes, k + 1)
  {
  }

  /** The poll loop of `tune`, starting from status 0. */
  function PollForLock(outcomes: seq<PollOutcome>): (r: PollEnd)
    ensures r.passes <= PollPasses
    ensures r.Failed? ==> r.passes > 0 && OutcomeAt(outcomes, r.passes - 1) == EventError
    ensures Unsettled(outcomes, if r.Failed? then r.passes - 1 else r.passes)
    ensures r.Finished? ==> r.status == StatusBefore(outcomes, r.passes)
    ensures r.Finished? ==> r.passes == PollPasses || Settled(r.status)
    ensures r.Failed? ==> !Settled(StatusBefore(outcomes, r.passes - 1))
  {
    PollLoop(outcomes, 0, 0)
  }

  /** The descriptors `tune` and `close_tuner` share: the two statics and `tdata->tfd`. */
  datatype Handles = Handles(fefd: int, dmxfd: int, tfd: int)

  /** What the system calls of one `tune` report: the descriptor `open` returns for the
      frontend, demux and dvr devices (negative on failure), whether FE_GET_INFO,
      FE_SET_PROPERTY and DMX_SET_PES_FILTER succeed, the frontend type, and the polls. */
  datatype Device = Device(
    frontendFd: int, infoOk: bool, feType: FeType, setPropertyOk: bool,
    polls: seq<PollOutcome>, demuxFd: int, filterOk: bool, dvrFd: int)

  /** open_tuner: opens the frontend only when `fefd` is 0; returns 0 and the handles, or 1. */
  function OpenTuner(h: Handles, dev: Device): (r: (int, Handles))
    ensures r.1.dmxfd == h.dmxfd && r.1.tfd == h.tfd
    ensures h.fefd != 0 ==> r.1.fefd == h.fefd
    ensures h.fefd == 0 ==> r.1.fefd == (if dev.frontendFd < 0 then 0 else dev.frontendFd)
    ensures r.0 == 0 <==> (h.fefd != 0 || dev.frontendFd >= 0) && dev.infoOk && dev.feType != Unsupported
    ensures r.0 == 0 || r.0 == 1
  {
    if h.fefd == 0 && dev.frontendFd < 0 then (1, h)
    else
    var fefd := if h.fefd == 0 then dev.frontendFd else h.fefd;
    if !dev.infoOk || dev.feType == Unsupported then (1, h.(fefd := fefd))
    else (0, h.(fefd := fefd))
  }

  /** What `tune` leaves behind: its return code (0 tuned, 1 failed, -1 FE_GET_EVENT
      error), the handles, and the frequency and tsid it asked the frontend for, if any. */
  datatype TuneResult = TuneResult(code: int, handles: Handles, request: Option<(int, nat)>)

  /** The end of `tune` once the frontend is locked: opens the demux when `dmxfd` is 0,
      sets its filter, and opens the dvr when `tfd` is negative; a failure closes the
      demux again and leaves `dmxfd` at 0. */
  function OpenDataPath(h: Handles, dev: Device): (r: (int, Handles))
    ensures r.0 == 0 || r.0 == 1
    ensures r.1.fefd == h.fefd
    ensures r.0 == 1 ==> r.1.dmxfd == 0
    ensures r.0 == 1 ==> r.1.tfd == h.tfd || (h.tfd < 0 && r.1.tfd == dev.dvrFd)
    ensures r.0 == 0 <==> (h.dmxfd != 0 || dev.demuxFd >= 0) && dev.filterOk && (h.tfd >= 0 || dev.dvrFd >= 0)
    ensures r.0 == 0 ==> r.1.dmxfd == (if h.dmxfd == 0 then dev.demuxFd else h.dmxfd)
    ensures r.0 == 0 ==> r.1.tfd == (if h.tfd < 0 then dev.dvrFd else h.tfd)
  {
    if (h.dmxfd == 0 && dev.demuxFd < 0) || !dev.filterOk then (1, h.(dmxfd := 0))
    else
      var dmxfd := if h.dmxfd == 0 then dev.demuxFd else h.dmxfd;
      var tfd := if h.tfd < 0 then dev.dvrFd else h.tfd;
      if tfd < 0 then (1, Handles(h.fefd, 0, tfd))
      else (0, Handles(h.fefd, dmxfd, tfd))
  }

  /** tune(channel, tdata, dev_num, tsid). */
  function Tune(h: Handles, channel: string, tsid: nat, dev: Device): (r: TuneResult)
    ensures r.code in {0, 1, -1}
    ensures h.fefd != 0 ==> r.handles.fefd == h.fefd
    ensures r.code != 0 ==> r.handles.tfd == h.tfd || (h.tfd < 0 && r.handles.tfd == dev.dvrFd)
    ensures r.code == 0 ==>
      && r.request.Some?
      && dev.feType != Unsupported && Frequency(dev.feType, channel) == Some(r.request.value.0)
      && PollForLock(dev.polls).Finished? && PollForLock(dev.polls).status & FeHasLock != 0
      && r.handles.fefd == (if h.fefd == 0 then dev.frontendFd else h.fefd)
      && r.handles.dmxfd == (if h.dmxfd == 0 then dev.demuxFd else h.dmxfd)
      && r.handles.tfd == (if h.tfd < 0 then dev.dvrFd else h.tfd) && r.handles.tfd >= 0
    ensures r.code == -1 <==> r.request.Some? && dev.setPropertyOk && PollForLock(dev.polls).Failed?
    ensures r.request.Some? ==> r.request.value.1 == tsid
    ensures r.request.Some? <==> OpenTuner(h, dev).0 == 0 && Frequency(dev.feType, channel).Some?
    ensures r.code == 0 <==>
      && r.request.Some? && dev.setPropertyOk
      && PollForLock(dev.polls).Finished? && PollForLock(dev.polls).status & FeHasLock != 0
      && (h.dmxfd != 0 || dev.demuxFd >= 0) && dev.filterOk && (h.tfd >= 0 || dev.dvrFd >= 0)
  {
    var (rc, h1) := OpenTuner(h, dev);
    if rc != 0 then TuneResult(1, h1, None)
    else
      match Frequency(dev.feType, channel)
      case None => TuneResult(1, h1, None)
      case Some(freq) =>
        var request := Some((freq, tsid));
        if !dev.setPropertyOk then TuneResult(1, h1, request)
        else
          match PollForLock(dev.polls)
          case Failed(_) => TuneResult(-1, h1, request)
          case Finished(status, _) =>
            if status & FeHasLock == 0 then TuneResult(1, h1, request)
            else
              var (rc2, h2) := OpenDataPath(h1, dev);
              TuneResult(rc2, h2, request)
  }

  /** close_tuner: closes what is open and marks it closed. */
  function CloseTuner(h: Handles): (r: Handles)
    ensures ClosedBy(r) == [] && r.tfd < 0
    ensures r.fefd <= 0 && r.dmxfd <= 0
    ensures h.fefd <= 0 ==> r.fefd == h.fefd
    ensures h.dmxfd <= 0 ==> r.dmxfd == h.dmxfd
    ensures h.fefd > 0 ==> r.fefd == 0 && h.fefd in ClosedBy(h)
    ensures h.dmxfd > 0 ==> r.dmxfd == 0 && h.dmxfd in ClosedBy(h)
    ensures h.tfd != -1 ==> h.tfd in ClosedBy(h)
  {
    Handles(if h.fefd > 0 then 0 else h.fefd, if h.dmxfd > 0 then 0 else h.dmxfd, -1)
  }

  /** The descriptors one `close_tuner` call passes to `close`, in order. */
  function ClosedBy(h: Handles): seq<int> {
    (if h.fefd > 0 then [h.fefd] else []) + (if h.dmxfd > 0 then [h.dmxfd] else []) + (if h.tfd != -1 then [h.tfd] else [])
  }

  /** A second `close_tuner` closes nothing and changes nothing. */
  lemma CloseIdempotent(h: Handles)
    ensures CloseTuner(CloseTuner(h)) == CloseTuner(h)
    ensures ClosedBy(CloseTuner(h)) == []
  {
  }

  /** After `close_tuner` every handle reads as closed, so the next `tune` opens all three
      devices afresh. */
  lemma TuneAfterClose(h: Handles, channel: string, tsid: nat, dev: Device)
    requires h.fefd >= 0 && h.dmxfd >= 0
    ensures var c := CloseTuner(h);
      c.fefd == 0 && c.dmxfd == 0 && c.tfd < 0 &&
      (Tune(c, channel, tsid, dev).code == 0 ==>
        Tune(c, channel, tsid, dev).handles == Handles(dev.frontendFd, dev.demuxFd, dev.dvrFd))
  {
  }

  /** A tuned session stays tuned: tuning again with every device call succeeding keeps
      the three descriptors it already holds. */
  lemma RetuneKeepsHandles(h: Handles, channel: string, tsid: nat, dev: Device)
    requires h.fefd > 0 && h.dmxfd > 0 && h.tfd >= 0
    requires Tune(h, channel, tsid, dev).code == 0
    ensures Tune(h, channel, tsid, dev).handles == h
  {
  }

  /** Lock polling: a frontend that reports lock on the first event tunes after one pass;
      one that never reports anything gives up after five. */
  lemma PollExamples()
    ensures PollForLock([Event(FeHasLock)]) == Finished(FeHasLock, 1)
    ensures PollForLock([]) == Finished(0, PollPasses)
    ensures PollForLock([Overflow, Overflow, Overflow, Overflow, Overflow, Event(FeHasLock)]) == Finished(0, PollPasses)
    ensures PollForLock([Overflow, EventError]) == Failed(2)
  {
  }
}

=== FILE: wrappers.dfy ===
/** Failure-compatible option type used throughout the model. */
module Wrappers {

  datatype Option<+T> = None | Some(value: T) {

    predicate IsFailure() {
      None?
    }

    function PropagateFailure<U>(): Option<U>
      requires None?
    {
      None
    }

    function Extract(): T
      requires Some?
    {
      value
    }

    function GetOr(default: T): T {
      match this
      case Some(v) => v
      case None => default
    }
  }
}

=== FILE: writer.dfy ===
/**
  The sink writer (reader.c): the thread that drains the queue, passes each frame
  through the ARIB STD-B25 descrambler while that works, and writes the result to
  the output descriptor in chunks. write(2), the descrambler's answers and the
  queue's termination flag are inputs; the signal sent to the signal-handling
  thread after a failed write is part of the result.
*/
module Writer {
  import opened Wrappers
  import opened BoundedQueue

  /** SIZE_CHANK: the most bytes handed to one write(2), seven transport packets. */
  const ChunkSize := 7 * TsPacketSize

  /** What one write(2) returned: a count, or -1 with errno EPIPE or another errno. */
  datatype WriteResult = Wrote(count: nat) | WriteFailed(epipe: bool)

  /** The signal a failed write raises in the signal-handling thread. */
  datatype Signal = SigPipe | SigUsr2

  function SignalFor(epipe: bool): (g: Signal)
    ensures g == SigPipe <==> epipe
  {
    if epipe then SigPipe else SigUsr2
  }

  function Min(a: nat, b: nat): nat {
    if a < b then a else b
  }

  /** How the write loop over one buffer ended: the bytes written from the front of the
      buffer, the length asked of each write(2), whether a write failed and the signal it
      raised, and whether the supplied results ran out with bytes still unwritten (with
      write(2) returning 0 forever the C loop never ends). */
  datatype Flush = Flush(offset: nat, requests: seq<nat>, fileErr: bool, signal: Option<Signal>, stalled: bool)

  /** The write loop of reader_func from `offset` on, one element of `results` per write(2).
      A count larger than the request cannot come from write(2) and is read as the request. */
  function WriteLoop(data: seq<byte>, offset: nat, results: seq<WriteResult>): (f: Flush)
    requires offset <= |data|
    ensures offset <= f.offset <= |data|
    ensures |f.requests| <= |results|
    ensures forall i :: 0 <= i < |f.requests| ==> 0 < f.requests[i] <= ChunkSize
    ensures forall i :: 0 <= i < |f.requests| - 1 ==> results[i].Wrote?
    ensures f.offset < |data| <==> f.fileErr || f.stalled
    ensures !(f.fileErr && f.stalled)
    ensures f.signal.Some? <==> f.fileErr
    ensures f.fileErr ==> |f.requests| > 0 && results[|f.requests| - 1].WriteFailed?
                          && f.signal == Some(SignalFor(results[|f.requests| - 1].epipe))
    ensures f.stalled ==> |f.requests| == |results|
    ensures offset < |data| && |results| > 0 ==>
              |f.requests| > 0 && f.requests[0] == Min(|data| - offset, ChunkSize)
    decreases |results|
  {
    if offset == |data| then Flush(offset, [], false, None, false)
    else if |results| == 0 then Flush(offset, [], false, None, true)
    else
      var ws := Min(|data| - offset, ChunkSize);
      match results[0]
      case WriteFailed(epipe) => Flush(offset, [ws], true, Some(SignalFor(epipe)), false)
      case Wrote(c) =>
        var rest := WriteLoop(data, offset + Min(c, ws), results[1..]);
        rest.(requests := [ws] + rest.requests)
  }

  /** The same loop, as reader.c runs it: `offset` and `size_remain` move together. */
  method WriteChunks(data: seq<byte>, results: seq<WriteResult>) returns (f: Flush)
    ensures f == WriteLoop(data, 0, results)
  {
    var offset: nat := 0;
    var remain: nat := |data|;
    var k := 0;
    var requests: seq<nat> := [];
    while remain > 0 && k < |results|
      invariant offset + remain == |data|
      invariant k == |requests| <= |results|
      invariant Resumes(data, results, offset, k, requests)
      decreases |results| - k
    {
      var ws := Min(remain, ChunkSize);
      if results[k].WriteFailed? {
        ResumeFailed(data, results, offset, k, requests, ws);
        return Flush(offset, requests + [ws], true, Some(SignalFor(results[k].epipe)), false);
      }
      var wc := Min(results[k].count, ws);
      ResumeWrote(data, results, offset, k, requests, ws, wc);
      requests, remain, offset, k := requests + [ws], remain - wc, offset + wc, k + 1;
    }
    ResumeDone(data, results, offset, k, requests);
    f := Flush(offset, requests, false, None, remain > 0);
  }

  /** The whole loop is the calls made so far followed by the loop resumed at `offset`
      with the results not yet used. */
  predicate Resumes(data: seq<byte>, results: seq<WriteResult>, offset: nat, k: nat, requests: seq<nat>)
    requires offset <= |data| && k <= |results|
  {
    var g := WriteLoop(data, offset, results[k..]);
    WriteLoop(data, 0, results) == g.(requests := requests + g.requests)
  }

  lemma ResumeWrote(data: seq<byte>, results: seq<WriteResult>, offset: nat, k: nat, requests: seq<nat>, ws: nat, wc: nat)
    requires offset < |data| && k < |results| && results[k].Wrote?
    requires ws == Min(|data| - offset, ChunkSize) && wc == Min(results[k].count, ws)
    requires Resumes(data, results, offset, k, requests)
    ensures offset + wc <= |data|
    ensures Resumes(data, results, offset + wc, k + 1, requests + [ws])
  {
    assert results[k..][0] == results[k];
    WriteLoopStep(data, offset, results[k..]);
    assert results[k..][1..] == results[k + 1..];
  }

  lemma ResumeFailed(data: seq<byte>, results: seq<WriteResult>, offset: nat, k: nat, requests: seq<nat>, ws: nat)
    requires offset < |data| && k < |results| && results[k].WriteFailed?
    requires ws == Min(|data| - offset, ChunkSize)
    requires Resumes(data, results, offset, k, requests)
    ensures WriteLoop(data, 0, results) == Flush(offset, requests + [ws], true, Some(SignalFor(results[k].epipe)), false)
  {
    assert results[k..][0] == results[k];
  }

  lemma ResumeDone(data: seq<byte>, results: seq<WriteResult>, offset: nat, k: nat, requests: seq<nat>)
    requires offset <= |data| && k <= |results| && (offset == |data| || k == |results|)
    requires Resumes(data, results, offset, k, requests)
    ensures WriteLoop(data, 0, results) == Flush(offset, requests, false, None, offset < |data|)
  {
    assert requests + [] == requests;
  }

  /** One accepted write(2) advances the offset by what it took. */
  lemma WriteLoopStep(data: seq<byte>, offset: nat, results: seq<WriteResult>)
    requires offset < |data| && |results| > 0 && results[0].Wrote?
    ensures var ws := Min(|data| - offset, ChunkSize);
      var rest := WriteLoop(data, offset + Min(results[0].count, ws), results[1..]);
      WriteLoop(data, offset, results) == rest.(requests := [ws] + rest.requests)
  {
  }

  /** Writes that each take a whole chunk finish the buffer, one chunk per call. */
  lemma {:induction false} FullWritesFinish(data: seq<byte>, offset: nat, results: seq<WriteResult>)
    requires offset <= |data|
    requires forall i :: 0 <= i < |results| ==> results[i].Wrote? && results[i].count >= ChunkSize
    requires |results| * ChunkSize >= |data| - offset
    ensures var f := WriteLoop(data, offset, results);
      f.offset == |data| && !f.fileErr && !f.stalled && f.signal.None?
    decreases |results|
  {
    if offset < |data| {
      var ws := Min(|data| - offset, ChunkSize);
      assert results[0].Wrote?;
      FullWritesFinish(data, offset + ws, results[1..]);
    }
  }

  /** A write(2) that keeps returning 0 makes no progress: every call asks for the same
      chunk and nothing is written. */
  lemma {:induction false} ZeroWritesStall(data: seq<byte>, offset: nat, results: seq<WriteResult>)
    requires offset < |data|
    requires forall i :: 0 <= i < |results| ==> results[i] == Wrote(0)
    ensures var f := WriteLoop(data, offset, results);
      f.stalled && f.offset == offset && |f.requests| == |results|
      && forall i :: 0 <= i < |f.requests| ==> f.requests[i] == Min(|data| - offset, ChunkSize)
    decreases |results|
  {
    if |results| > 0 {
      ZeroWritesStall(data, offset, results[1..]);
    }
  }

  /** The descrambler's answer for one frame (b25_decode): its output, or a negative code. */
  datatype Decode = Decoded(out: seq<byte>) | DecodeFailed

  /** What happened to one dequeued frame: whether the descrambler was asked and succeeded,
      the buffer written, the write loop's outcome, and whether the exit test then held. */
  datatype FrameStep = FrameStep(raw: Frame, consulted: bool, decodedOk: bool, buf: seq<byte>, flush: Flush, exitNow: bool)

  /** How the writer stopped. */
  datatype End =
    | NoOutput                                 // wfd == -1: nothing dequeued
    | NullItem                                 // dequeue returned NULL (sentinel or timeout)
    | Finished(buf: seq<byte>, written: nat)   // exit test held; the finish write was made
    | SkippedFinish                            // exit test held through a write error
    | Stalled                                  // the write results ran out mid-buffer

  datatype Session = Session(
    steps: seq<FrameStep>, out: seq<byte>, queue: Queue, fExit: bool, useB25: bool,
    fileErr: bool, signal: Option<Signal>, taken: nat, end: End)

  /** The environment of one run: the descrambler's answer and the write(2) results for
      the k-th frame, the answer of b25_finish, and the result of the finish write. */
  datatype Env = Env(decode: nat -> Decode, writes: nat -> seq<WriteResult>, finish: Option<seq<byte>>, finishWrite: WriteResult)

  /** The buffer written at exit when no write failed: b25_finish's output when the
      descrambler is still in use and finishing succeeded, and nothing otherwise. */
  function FinishBuffer(useB25: bool, finish: Option<seq<byte>>): (b: seq<byte>)
    ensures b != [] ==> useB25 && finish.Some?
    ensures useB25 && finish.Some? ==> b == finish.value
  {
    if useB25 && finish.Some? then finish.value else []
  }

  /** The buffer reader.c writes at exit: as above, except that the fallback is `sbuf`,
      the last frame's storage, already freed; `freed` is what that storage holds then. */
  function FinishBufferAsWritten(useB25: bool, finish: Option<seq<byte>>, freed: seq<byte>): (b: seq<byte>)
    ensures !(useB25 && finish.Some?) ==> b == freed
    ensures useB25 && finish.Some? ==> b == FinishBuffer(useB25, finish)
  {
    if useB25 && finish.Some? then finish.value else freed
  }

  /** With the descrambler off, and the freed storage not yet reused, the finish write of
      reader.c repeats the last frame; the corrected finish writes nothing. */
  lemma FinishRepeatsLastFrame(last: Frame, finish: Option<seq<byte>>)
    requires last != []
    ensures FinishBufferAsWritten(false, finish, last) == last
    ensures FinishBuffer(false, finish) == []
  {
  }

  /** The single finish write(2): bytes written, and the signal if it failed. */
  function FinishWrite(buf: seq<byte>, result: WriteResult): (r: (nat, Option<Signal>))
    ensures r.0 <= |buf|
    ensures r.1.Some? <==> result.WriteFailed?
    ensures r.1.Some? ==> r.0 == 0 && r.1 == Some(SignalFor(result.epipe))
    ensures result.Wrote? ==> r.0 == Min(result.count, |buf|)
    ensures result.Wrote? && result.count >= |buf| ==> r.0 == |buf|
  {
    match result
    case Wrote(c) => (Min(c, |buf|), None)
    case WriteFailed(epipe) => (0, Some(SignalFor(epipe)))
  }

  /** The descrambling step: with the descrambler in use its output replaces the frame;
      a failure falls back to the raw frame and turns the descrambler off. */
  function Descramble(raw: Frame, useB25: bool, answer: Decode): (r: (seq<byte>, bool))
    ensures r.1 ==> useB25
    ensures useB25 && answer.Decoded? ==> r == (answer.out, true)
    ensures !(useB25 && answer.Decoded?) ==> r == (raw, false)
  {
    if !useB25 then (raw, false)
    else match answer
      case DecodeFailed => (raw, false)
      case Decoded(out) => (out, true)
  }

  /** The bytes the frame steps put on the output, in order. */
  function Written(steps: seq<FrameStep>): seq<byte>
    requires forall i :: 0 <= i < |steps| ==> steps[i].flush.offset <= |steps[i].buf|
  {
    if |steps| == 0 then [] else steps[0].buf[..steps[0].flush.offset] + Written(steps[1..])
  }

  function FinishBytes(e: End): seq<byte>
  {
    if e.Finished? && e.written <= |e.buf| then e.buf[..e.written] else []
  }

  predicate WellFormed(steps: seq<FrameStep>) {
    forall i :: 0 <= i < |steps| ==> steps[i].flush.offset <= |steps[i].buf|
  }

  /** The descrambler protocol over the frame steps from the k-th frame on, starting with
      the descrambler in use or not and ending in state `final`: a step asks the descrambler
      exactly when it is still in use; a success writes its output and keeps it in use; a
      failure writes the raw frame and turns it off for good. The buffer goes through the
      write loop with that frame's write results. Every step but the last found the exit
      test false and its write loop finished. */
  predicate Protocol(steps: seq<FrameStep>, use: bool, env: Env, k: nat, final: bool)
    decreases |steps|
  {
    if |steps| == 0 then final == use
    else
      var st := steps[0];
      && st.consulted == use
      && (st.decodedOk <==> st.consulted && env.decode(k).Decoded?)
      && st.buf == (if st.decodedOk then env.decode(k).out else st.raw)
      && st.flush == WriteLoop(st.buf, 0, env.writes(k))
      && (|steps| > 1 ==> !st.exitNow && !st.flush.stalled)
      && Protocol(steps[1..], st.decodedOk, env, k + 1, final)
  }

  /** How the run ended agrees with its last step: a stall or a write error ends it, the
      exit test ends it with or without the finish write, and a NULL ends it otherwise. */
  predicate EndsAs(steps: seq<FrameStep>, e: End) {
    if |steps| == 0 then e.NullItem?
    else
      var last := steps[|steps| - 1];
      && (e.Stalled? <==> last.flush.stalled)
      && (e.SkippedFinish? <==> !last.flush.stalled && last.flush.fileErr)
      && (e.Finished? ==> last.exitNow && !last.flush.fileErr)
      && (e.SkippedFinish? ==> last.exitNow)
      && (e.NullItem? ==> !last.exitNow && !last.flush.stalled)
      && !e.NoOutput?
  }

  /** What a run of the loop from the k-th frame on, over queue `q`, guarantees:
      - the frames written are the queue's items in order, and only those taken off it;
      - it ends at a NULL item, at an empty queue, or at the step whose exit test held
        or whose writes failed or stalled;
      - the exit test holds after a frame exactly when its writes failed, or the flag is
        set and that frame was the last one queued;
      - the output is what the write loops wrote, then what the finish write wrote;
      - the descrambler is used according to `Protocol`, and the finish buffer is taken
        from b25_finish only while the descrambler is still in use. */
  predicate Drained(q: Queue, fExit: bool, useB25: bool, env: Env, k: nat, s: Session)
    requires Valid(q)
  {
    && DrainedQueue(Contents(q), fExit, s) && |s.queue.slots| == |q.slots|
    && DrainedOutput(useB25, env, k, s)
  }

  /** The queue half of `Drained`, over the contents `c` the run started from. */
  predicate DrainedQueue(c: seq<Item>, fExit: bool, s: Session) {
    && Valid(s.queue)
    && |s.steps| <= s.taken <= |s.steps| + 1 && s.taken <= |c|
    && Contents(s.queue) == c[s.taken..]
    && (forall i :: 0 <= i < |s.steps| ==> c[i] == Some(s.steps[i].raw))
    && (s.end.NullItem? ==> s.taken == |s.steps| + 1 || s.taken == |c|)
    && (s.taken == |s.steps| + 1 ==> s.end.NullItem? && c[|s.steps|] == None)
    && (!s.end.NullItem? ==> s.taken == |s.steps|)
    && (forall i :: 0 <= i < |s.steps| ==>
          (s.steps[i].exitNow <==> s.steps[i].flush.fileErr || (fExit && |c| == i + 1)))
  }

  /** The output half of `Drained`. */
  predicate DrainedOutput(useB25: bool, env: Env, k: nat, s: Session) {
    && WellFormed(s.steps)
    && s.out == Written(s.steps) + FinishBytes(s.end)
    && EndsAs(s.steps, s.end)
    && Protocol(s.steps, useB25, env, k, s.useB25)
    && (s.end.Finished? ==> s.end.buf == FinishBuffer(s.useB25, env.finish))
  }

  /** One frame through the descrambler and the write loop; the exit test sees the flag
      and the count of queued items left after the dequeue. */
  function StepOf(raw: Frame, useB25: bool, env: Env, k: nat, fExit: bool, left: nat): (st: FrameStep)
    ensures st.raw == raw && st.consulted == useB25 && st.flush.offset <= |st.buf|
  {
    var (buf, use') := Descramble(raw, useB25, env.decode(k));
    var f := WriteLoop(buf, 0, env.writes(k));
    FrameStep(raw, useB25, use', buf, f, (fExit && left == 0) || f.fileErr)
  }

  /** reader_func's loop from the k-th frame on. */
  function Loop(q: Queue, fExit: bool, useB25: bool, env: Env, k: nat): (s: Session)
    requires Valid(q)
    ensures Drained(q, fExit, useB25, env, k, s)
    decreases q.numUsed
  {
    var p := Dequeue(q, fExit);
    match p.item
    case None => NullEnd(q, fExit, useB25, env, k)
    case Some(raw) =>
      var step := StepOf(raw, useB25, env, k, p.fExit, p.queue.numUsed);
      if step.flush.stalled || step.exitNow then
        LastStep(q, fExit, useB25, env, k)
      else
        var rest := Loop(p.queue, p.fExit, step.decodedOk, env, k + 1);
        LoopPrepend(q, fExit, useB25, env, k, step, rest);
        Cons(step, rest)
  }

  /** The run that ends at a NULL item, or at an empty queue once the dequeue gives up. */
  function NullEnd(q: Queue, fExit: bool, useB25: bool, env: Env, k: nat): (s: Session)
    requires Valid(q) && Dequeue(q, fExit).item.None?
    ensures Drained(q, fExit, useB25, env, k, s)
  {
    var p := Dequeue(q, fExit);
    Session([], [], p.queue, p.fExit, useB25, false, None, if q.numUsed > 0 then 1 else 0, NullItem)
  }

  /** The run that ends at the frame just dequeued: a stall, a write error (no finish
      write), or the exit test with the finish write. */
  function LastStep(q: Queue, fExit: bool, useB25: bool, env: Env, k: nat): (s: Session)
    requires Valid(q) && Dequeue(q, fExit).item.Some?
    requires var p := Dequeue(q, fExit);
      var st := StepOf(p.item.value, useB25, env, k, p.fExit, p.queue.numUsed);
      st.flush.stalled || st.exitNow
    ensures Drained(q, fExit, useB25, env, k, s)
  {
    var p := Dequeue(q, fExit);
    var step := StepOf(p.item.value, useB25, env, k, p.fExit, p.queue.numUsed);
    var mine := step.buf[..step.flush.offset];
    var use' := step.decodedOk;
    assert Written([step]) == mine;
    assert Contents(q)[0] == Some(step.raw);
    if step.flush.stalled then
      Session([step], mine, p.queue, p.fExit, use', false, None, 1, Stalled)
    else if step.flush.fileErr then
      Session([step], mine, p.queue, p.fExit, use', true, step.flush.signal, 1, SkippedFinish)
    else
      var fb := FinishBuffer(use', env.finish);
      var (n, err) := FinishWrite(fb, env.finishWrite);
      Session([step], mine + fb[..n], p.queue, p.fExit, use', err.Some?, err, 1, Finished(fb, n))
  }

  /** The run `rest` with `step` in front of it: the step's bytes come first and one more
      item was taken off the queue. */
  function Cons(step: FrameStep, rest: Session): (s: Session)
    requires step.flush.offset <= |step.buf|
    ensures |s.steps| == |rest.steps| + 1 && s.steps[0] == step && s.steps[1..] == rest.steps
  {
    rest.(steps := [step] + rest.steps, out := step.buf[..step.flush.offset] + rest.out, taken := rest.taken + 1)
  }

  /** A run that goes on past the frame just dequeued is that frame's step followed by the
      run from the next frame. */
  lemma LoopPrepend(q: Queue, fExit: bool, useB25: bool, env: Env, k: nat, step: FrameStep, rest: Session)
    requires Valid(q) && Dequeue(q, fExit).item.Some?
    requires var p := Dequeue(q, fExit);
      step == StepOf(p.item.value, useB25, env, k, p.fExit, p.queue.numUsed)
    requires !step.flush.stalled && !step.exitNow
    requires Drained(Dequeue(q, fExit).queue, fExit, step.decodedOk, env, k + 1, rest)
    ensures Drained(q, fExit, useB25, env, k, Cons(step, rest))
  {
    var p := Dequeue(q, fExit);
    var c := Contents(q);
    assert c[0] == Some(step.raw) && Contents(p.queue) == c[1..];
    QueuePrepend(c, fExit, step, rest);
    OutputPrepend(useB25, env, k, step, rest, p.fExit, p.queue.numUsed);
  }

  /** The queue half of `Drained` carries over from the rest of the run to the run with the
      frame just dequeued in front. */
  lemma QueuePrepend(c: seq<Item>, fExit: bool, step: FrameStep, rest: Session)
    requires |c| > 0 && c[0] == Some(step.raw) && step.flush.offset <= |step.buf|
    requires !step.exitNow && !(fExit && |c| == 1) && !step.flush.fileErr
    requires DrainedQueue(c[1..], fExit, rest)
    ensures DrainedQueue(c, fExit, Cons(step, rest))
  {
    var s := Cons(step, rest);
    assert c[1..][rest.taken..] == c[s.taken..];
    if rest.taken == |rest.steps| + 1 {
      assert c[|s.steps|] == c[1..][|rest.steps|];
    }
    forall i | 0 < i < |s.steps|
      ensures c[i] == Some(s.steps[i].raw)
      ensures s.steps[i].exitNow <==> s.steps[i].flush.fileErr || (fExit && |c| == i + 1)
    {
      assert c[i] == c[1..][i - 1];
      assert s.steps[i] == rest.steps[i - 1];
    }
  }

  /** The output half of `Drained` carries over likewise: the step's bytes come first and
      the step follows the descrambler protocol. */
  lemma OutputPrepend(useB25: bool, env: Env, k: nat, step: FrameStep, rest: Session, fx: bool, left: nat)
    requires step == StepOf(step.raw, useB25, env, k, fx, left)
    requires !step.flush.stalled && !step.exitNow
    requires DrainedOutput(step.decodedOk, env, k + 1, rest)
    ensures DrainedOutput(useB25, env, k, Cons(step, rest))
  {
    var s := Cons(step, rest);
    LoopStep(step, rest.steps, rest.end);
    EndsAsPrepend(step, rest.steps, rest.end);
  }

  /** Prepending a step to a run prepends its bytes to the output. */
  lemma LoopStep(step: FrameStep, steps: seq<FrameStep>, e: End)
    requires step.flush.offset <= |step.buf| && WellFormed(steps)
    ensures WellFormed([step] + steps)
    ensures Written([step] + steps) + FinishBytes(e)
         == step.buf[..step.flush.offset] + (Written(steps) + FinishBytes(e))
  {
    var s := [step] + steps;
    assert s[1..] == steps;
    forall i | 0 < i < |s|
      ensures s[i].flush.offset <= |s[i].buf|
    {
      assert s[i] == steps[i - 1];
    }
  }

  lemma EndsAsPrepend(step: FrameStep, steps: seq<FrameStep>, e: End)
    requires EndsAs(steps, e)
    requires !step.exitNow && !step.flush.stalled && !step.flush.fileErr
    ensures EndsAs([step] + steps, e)
  {
    if |steps| > 0 {
      assert ([step] + steps)[|steps|] == steps[|steps| - 1];
    }
  }

  /** Once the descrambler has failed it is never asked again: every frame before a frame
      it was asked about was descrambled. */
  lemma {:induction false} FallbackIsPermanent(steps: seq<FrameStep>, use: bool, env: Env, k: nat, final: bool)
    requires Protocol(steps, use, env, k, final)
    ensures forall i, j :: 0 <= i < j < |steps| && steps[j].consulted ==>
              steps[i].consulted && steps[i].decodedOk
    decreases |steps|
  {
    if |steps| > 0 {
      var tail := steps[1..];
      FallbackIsPermanent(tail, steps[0].decodedOk, env, k + 1, final);
      forall i, j | 0 <= i < j < |steps| && steps[j].consulted
        ensures steps[i].consulted && steps[i].decodedOk
      {
        assert steps[j] == tail[j - 1];
        if i > 0 {
          assert steps[i] == tail[i - 1];
        }
      }
    }
  }

  /** A run that starts without the descrambler never asks it and writes the raw frames,
      and ends without it. */
  lemma {:induction false} DescramblerOff(steps: seq<FrameStep>, env: Env, k: nat, final: bool)
    requires Protocol(steps, false, env, k, final)
    ensures forall i :: 0 <= i < |steps| ==> !steps[i].consulted && steps[i].buf == steps[i].raw
    ensures !final
    decreases |steps|
  {
    if |steps| > 0 {
      var tail := steps[1..];
      DescramblerOff(tail, env, k + 1, final);
      forall i | 0 <= i < |steps|
        ensures !steps[i].consulted && steps[i].buf == steps[i].raw
      {
        if i > 0 {
          assert steps[i] == tail[i - 1];
        }
      }
    }
  }

  /** A run that ends with the descrambler in use started with it and descrambled every frame. */
  lemma {:induction false} StillInUse(steps: seq<FrameStep>, use: bool, env: Env, k: nat)
    requires Protocol(steps, use, env, k, true)
    ensures use && forall i :: 0 <= i < |steps| ==> steps[i].decodedOk
    decreases |steps|
  {
    if |steps| > 0 {
      var tail := steps[1..];
      StillInUse(tail, steps[0].decodedOk, env, k + 1);
      forall i | 0 <= i < |steps|
        ensures steps[i].decodedOk
      {
        if i > 0 {
          assert steps[i] == tail[i - 1];
        }
      }
    }
  }

  /** reader_func: nothing at all happens without an output descriptor; otherwise the loop
      runs from the first frame with the descrambler in use when one was started. */
  function Reader(q: Queue, fExit: bool, wfdOpen: bool, b25: bool, env: Env): (s: Session)
    requires Valid(q)
    ensures !wfdOpen ==> s.end.NoOutput? && s.queue == q && s.steps == [] && s.out == [] && s.taken == 0
    ensures wfdOpen ==> !s.end.NoOutput?
  {
    if !wfdOpen then Session([], [], q, fExit, b25, false, None, 0, NoOutput)
    else Loop(q, fExit, b25, env, 0)
  }

  /** With the descrambler off, the output is the frames as dequeued, each written as far
      as its write loop got, and nothing after them. */
  lemma RawOutput(q: Queue, fExit: bool, env: Env)
    requires Valid(q)
    ensures var s := Reader(q, fExit, true, false, env);
      && (forall i :: 0 <= i < |s.steps| ==> s.steps[i].buf == s.steps[i].raw && !s.steps[i].consulted)
      && s.out == Written(s.steps)
  {
    var s := Loop(q, fExit, false, env, 0);
    DescramblerOff(s.steps, env, 0, s.useB25);
    if s.end.Finished? {
      assert s.end.buf == [];
    }
    assert s.out == Written(s.steps) + [];
  }

  /** A sentinel at the head of the queue ends the writer with nothing written and no
      finish write, even with the descrambler holding data. */
  lemma SentinelEndsAtOnce(q: Queue, fExit: bool, b25: bool, env: Env)
    requires Valid(q) && q.numUsed > 0 && Contents(q)[0] == None
    ensures var s := Reader(q, fExit, true, b25, env);
      s.end.NullItem? && s.out == [] && s.taken == 1
  {
  }

  /** The queue items holding the given frames, in order. */
  function Items(frames: seq<Frame>): (items: seq<Item>)
    ensures |items| == |frames|
    ensures forall i :: 0 <= i < |frames| ==> items[i] == Some(frames[i])
  {
    seq(|frames|, i requires 0 <= i < |frames| => Some(frames[i]))
  }

  /** The frames' bytes, back to back. */
  function Concat(frames: seq<Frame>): seq<byte> {
    if |frames| == 0 then [] else frames[0] + Concat(frames[1..])
  }

  /** Steps that each wrote their whole raw frame put the frames on the output back to back. */
  lemma {:induction false} WrittenWhole(steps: seq<FrameStep>, frames: seq<Frame>)
    requires |steps| == |frames| && WellFormed(steps)
    requires forall i :: 0 <= i < |steps| ==>
               steps[i].raw == frames[i] && steps[i].buf == frames[i] && steps[i].flush.offset == |frames[i]|
    ensures Written(steps) == Concat(frames)
    decreases |steps|
  {
    if |steps| > 0 {
      assert steps[0].buf[..steps[0].flush.offset] == frames[0];
      WrittenWhole(steps[1..], frames[1..]);
    }
  }

  /** Write results that each take a whole chunk, enough of them for `size` bytes. */
  predicate FullWrites(results: seq<WriteResult>, size: nat) {
    && |results| * ChunkSize >= size
    && forall i :: 0 <= i < |results| ==> results[i].Wrote? && results[i].count >= ChunkSize
  }

  /** With the flag clear, the descrambler off and every write taking a whole chunk, a queue
      of frames closed by the sentinel is written out completely, in queue order, and the
      queue is left empty. */
  lemma WholeRunInOrder(q: Queue, frames: seq<Frame>, env: Env)
    requires Valid(q) && Contents(q) == Items(frames) + [None]
    requires forall k :: 0 <= k < |frames| ==> FullWrites(env.writes(k), |frames[k]|)
    ensures var s := Reader(q, false, true, false, env);
      s.end.NullItem? && s.out == Concat(frames) && s.taken == |frames| + 1 && Contents(s.queue) == []
  {
    var s := Loop(q, false, false, env, 0);
    RawOutput(q, false, env);
    DrainedWhole(q, frames, env, s);
  }

  lemma DrainedWhole(q: Queue, frames: seq<Frame>, env: Env, s: Session)
    requires Valid(q) && Contents(q) == Items(frames) + [None]
    requires forall k :: 0 <= k < |frames| ==> FullWrites(env.writes(k), |frames[k]|)
    requires Drained(q, false, false, env, 0, s) && s.out == Written(s.steps)
    ensures s.end.NullItem? && s.out == Concat(frames) && s.taken == |frames| + 1 && Contents(s.queue) == []
  {
    DrainedFrames(q, frames, env, s);
    StepsWriteWhole(s.steps, env, 0, s.useB25, frames);
    if |s.steps| > 0 {
      var last := s.steps[|s.steps| - 1];
      assert !last.exitNow && !last.flush.stalled;
    }
    assert s.end.NullItem?;
    assert |s.steps| == |frames|;
    WrittenWhole(s.steps, frames);
  }

  /** The frames a run writes are the queued frames, in order. */
  lemma DrainedFrames(q: Queue, frames: seq<Frame>, env: Env, s: Session)
    requires Valid(q) && Contents(q) == Items(frames) + [None]
    requires Drained(q, false, false, env, 0, s)
    ensures |s.steps| <= |frames|
    ensures forall i :: 0 <= i < |s.steps| ==> s.steps[i].raw == frames[i]
  {
    assert |s.steps| <= |frames|;
    forall i | 0 <= i < |s.steps|
      ensures s.steps[i].raw == frames[i]
    {
      assert Contents(q)[i] == Some(frames[i]);
    }
  }

  /** Under full writes, the frame steps of a run with the descrambler off each write their
      raw frame whole, without error or stall. */
  lemma {:induction false} StepsWriteWhole(steps: seq<FrameStep>, env: Env, k: nat, final: bool, frames: seq<Frame>)
    requires Protocol(steps, false, env, k, final)
    requires |steps| <= |frames|
    requires forall i :: 0 <= i < |steps| ==> steps[i].raw == frames[i]
    requires forall i :: 0 <= i < |steps| ==> FullWrites(env.writes(k + i), |frames[i]|)
    ensures forall i :: 0 <= i < |steps| ==>
      && steps[i].buf == frames[i] && steps[i].flush.offset == |frames[i]|
      && !steps[i].flush.fileErr && !steps[i].flush.stalled
    decreases |steps|
  {
    if |steps| > 0 {
      assert FullWrites(env.writes(k + 0), |frames[0]|);
      FullWritesFinish(frames[0], 0, env.writes(k));
      var tail, rest := steps[1..], frames[1..];
      forall i | 0 <= i < |tail|
        ensures tail[i].raw == rest[i] && FullWrites(env.writes(k + 1 + i), |rest[i]|)
      {
        assert tail[i] == steps[i + 1];
        assert FullWrites(env.writes(k + (i + 1)), |frames[i + 1]|);
      }
      StepsWriteWhole(tail, env, k + 1, final, rest);
      forall i | 0 <= i < |steps|
        ensures steps[i].buf == frames[i] && steps[i].flush.offset == |frames[i]|
        ensures !steps[i].flush.fileErr && !steps[i].flush.stalled
      {
        if i > 0 {
          assert steps[i] == tail[i - 1];
        }
      }
    }
  }
}
